=== FILE: README.md ===
# Agentia world core, modelled in Dafny

Agentia is a small text-world simulation. Agents controlled by a reasoning service (an LLM) live on a graph of
locations. Each tick an agent reads its context, decides to move, talk, wait or interact with an object, and the world
carries the decision out. Interactions with objects are resolved by a second reasoning agent. Two resolvers exist:

- the `EnvironmentAgent` answers with one JSON list of typed actions;
- the `WorldEngine` runs a tool-calling loop that queries entities, stages effects and finalises with an
  `interaction_result`.

A long interaction locks the agent for some minutes. The effects of a locked agent are deferred, and the world replays
them when the lock is checked after it expires.

This project models that core as immutable datatypes and pure transition functions:

- the `World` store: loading, placing and moving agents, object creation, destruction and transfer, event queues,
  time, locks and the replay of deferred effects;
- the two resolvers;
- the validation models of `schemas.py` and `agentia/schemas.py`;
- the two `SimAgent` implementations (`agent.py`, `agentia/agent.py`): their memory and decision steps.

Several things are parameters rather than code:

- the reasoning service is an oracle: a sequence of replies, already parsed into variants;
- the prompt rendering and the JSON validation of an agent's reply are function parameters;
- `execute_effect` and `get_agent_inventory` are called by the engine but not defined by the world, so they are
  parameters too.

Time is an integer count of minutes since 2024-01-01 00:00. The simulation starts at 480 (08:00) and a tick is 10
minutes.

Where the modules call each other inconsistently, the model keeps the code as written and proves the consequence:

- `agent.py` calls an `AgentDecision.fallback` that `schemas.py` does not define;
- `agent.py` reads the events under the key "pending_events", but the world's context names them "events". The
  comment at agent.py:62 says the memory summary is meant to hold the external events;
- the engine stages effects that the world's replay ignores or cannot bind. The `InteractionResult` docstring
  (agentia/schemas.py:142-145) says these effects are deferred until the lock ends;
- the env agent defers a broadcast that the replay drops;
- `world_engine.py` imports `InteractionResult`, `QueryEntityParams` and `UpdateObject` from the top-level
  `schemas` module, which does not define them, so the module cannot be imported as written. The model takes all
  of the engine's record types, including `CreateObject`, `DestroyObject` and `TransferObject`, from
  `agentia/schemas.py`, which defines every one of them. The same-named legacy models of schemas.py:221-247 are
  not used.

The lemmas below show what happens on these paths.

Modules: `Values` (Python values, `dict.get`, truthiness, pydantic field checks), `Seqs`, `Text`, `Schemas`,
`AgentiaSchemas`, `World`, `WorldInvariants`, `Prompting`, `EnvAgent`, `WorldActions`, `WorldEngine`, `Memory`,
`Agent`, `AgentiaAgent`.

## Model

| member | source | states |
|---|---|---|
| Seqs.Count | world.py:79 | the number of listings equals the multiset multiplicity; it is zero exactly when the element is absent |
| Seqs.RemoveFirst | world.py:100-101 | `list.remove` guarded by `in`: the first occurrence is gone, the multiset loses exactly one copy, a list without the element is unchanged |
| Seqs.Without | world.py:255 | the comprehension `[a for a in xs if a != x]`: x no longer occurs and every other element keeps its multiplicity |
| Seqs.WithoutAppend | world.py:255 | the comprehension keeps the order: filtering a concatenation filters each part in place |
| Seqs.WithoutSnoc | world.py:255 | appending an element appends it to the result exactly when it differs from x |
| Seqs.NoDupRemoveFirst | world.py:149-150 | removing an entry from a duplicate-free list keeps it duplicate-free |
| Text.Strip | env_agent.py:72 | `str.strip()`: the result is a contiguous slice of the input whose cut-off ends are all whitespace and which neither starts nor ends with whitespace |
| Text.Take | env_agent.py:140 | `s[:100]`: a prefix of length min(n, len(s)) |
| Text.JoinSplit | agent.py:105-107 | joining the pieces of a split on a separator gives the text back |
| Text.SplitJoin | agent.py:105-107 | splitting the join of separator-free lines gives the lines back |
| Text.NatToString | agentia/agent.py:129 | `str(n)` of a natural number: decimal digits only, no leading zero unless it is "0", and the digits read left to right denote n |
| Schemas.LocationFromKwargs | schemas.py:29-36 | validation of `Location` succeeds exactly when id, name and description are strings; the three lists default to empty |
| Schemas.SimActionFromKwargs | schemas.py:43-62 | the model `action_type` selects validates exactly when its required fields are strings (a talk's `target_agent`, if given, a string or null; a wait's `reason`, if given, a string); the action carries the given values, and the defaults are None for `target_agent` and "observing" for `reason` |
| Schemas.SimActionRoundTrip | schemas.py:43-62 | validating the dump of a move/talk/interact/wait action gives the action back |
| Schemas.GetValidatedAction | schemas.py:89-103 | an action that is already typed comes back unchanged; a raw action dict is validated as the model the `action_type` literal (`move`, `talk`, `interact` or `wait`) names, a failed validation being an error, and a validated action is of that model |
| Schemas.Dump | schemas.py:110-166 | the dump of an env action carries its literal `action` tag |
| Schemas.ResultActionFromKwargs | schemas.py:110-115 | `success` and `message` are required; reasoning defaults to "" |
| Schemas.ModifyStateActionFromKwargs | schemas.py:118-122 | object_id and new_state are required strings |
| Schemas.BroadcastActionFromKwargs | schemas.py:125-129 | location_id and message are required strings, and the action carries exactly the given values |
| Schemas.LockAgentActionFromKwargs | schemas.py:132-138 | agent_name, duration_minutes and reason are required; completion_message defaults to ""; the action carries exactly the given values |
| Schemas.CreateObjectActionFromKwargs | schemas.py:141-149 | the required fields and the defaults state "normal", description "", properties [] |
| Schemas.DestroyObjectActionFromKwargs | schemas.py:152-156 | object_id is required; reason defaults to "" |
| Schemas.TransferObjectActionFromKwargs | schemas.py:159-166 | object_id is required; the four endpoints are optional and default to None |
| Schemas.EnvActionFromKwargs | schemas.py:170-178 | validation as the model a given tag names: the result is always of that model |
| Schemas.EnvActionRoundTrip | schemas.py:110-187 | validating the dump of any env action, with or without its `action` key, under its tag gives the action back |
| Schemas.CreateObjectRoundTrip | schemas.py:141-149 | the create action survives dump and validation |
| Schemas.TransferObjectRoundTrip | schemas.py:159-166 | the transfer action survives dump and validation, None endpoints included |
| Schemas.TransferObjectUntagged | schemas.py:159-166 | the transfer dump without `action` still validates to the same action |
| Schemas.SmallActionRoundTrip | schemas.py:110-138 | result, modify, broadcast, lock and destroy actions survive dump and validation |
| Schemas.SmallActionUntagged | schemas.py:110-156 | the same holds for their dumps without `action` |
| AgentiaSchemas.WorldObjectFromKwargs | agentia/schemas.py:19-27 | id, name, location_id and description are required strings; state, mechanics and internal_state default to "normal", "" and {} |
| AgentiaSchemas.StatusFromValue | agentia/schemas.py:56 | the status accepts exactly the four literals "pending", "in_progress", "completed" and "failed" |
| AgentiaSchemas.TaskFromValue | agentia/schemas.py:52-56 | a dict validates as a task exactly when id and description are strings and a given status is one of the four literals; the task carries the given values, and the status defaults to "pending" |
| AgentiaSchemas.TaskRoundTrip | agentia/schemas.py:52-56 | a task dumped to a dict validates back to itself |
| AgentiaSchemas.TasksFromValues | agentia/schemas.py:59-61 | a task list validates only when every entry does, position by position |
| AgentiaSchemas.PlanFromArgs | agentia/schemas.py:59-61 | the `update_plan` arguments validate as a `Plan` exactly when `tasks` is a list whose every entry is a valid task; the plan holds those tasks in list order |
| AgentiaSchemas.PlanRoundTrip | agentia/schemas.py:59-61 | a dumped plan validates back to the same tasks in the same order |
| AgentiaSchemas.Fallback | agentia/schemas.py:119-126 | the fallback is a wait decision that keeps the given reasoning and whose validated action is a wait with reason "fallback" |
| AgentiaSchemas.InteractionResultFromValue | agentia/schemas.py:141-150 | message is required; duration defaults to 0 and task_description to None |
| AgentiaSchemas.UpdateObjectFromKwargs | agentia/schemas.py:153-158 | only object_id is required; the other fields are optional |
| AgentiaSchemas.ApplyUpdate | agentia/schemas.py:153-158 | the merge the `UpdateObject` docstring and field descriptions describe (no function in the repository applies an `UpdateObject`): the given fields replace, the absent ones are kept, a given internal state is merged key by key, the id never changes |
| AgentiaSchemas.ApplyUpdateIdempotent | agentia/schemas.py:153-158 | under that described merge, applying the same update twice is applying it once |
| AgentiaSchemas.CreateObjectFromKwargs | agentia/schemas.py:161-169 | object_id, name and location_id are required; state, description, mechanics and internal_state default to "normal", "", "" and {} |
| AgentiaSchemas.DestroyObjectFromKwargs | agentia/schemas.py:172-174 | object_id is required |
| AgentiaSchemas.TransferObjectFromKwargs | agentia/schemas.py:177-181 | object_id, from_id and to_id are all required strings |
| AgentiaSchemas.AgentiaRoundTrips | agentia/schemas.py:141-181 | transfer, create and interaction-result values survive dump and validation |
| AgentiaSchemas.CreateObjectRoundTrip | agentia/schemas.py:161-169 | the create model survives dump and validation |
| AgentiaSchemas.InteractionResultRoundTrip | agentia/schemas.py:141-150 | the interaction result survives dump and validation |
| World.LocationTable | world.py:39-50 | the location table holds exactly the configured ids |
| World.ObjectTable | world.py:56-66 | the object table holds exactly the configured ids |
| World.LocationTableLastWins | world.py:41-49 | of two entries with one id, the later one is the one stored |
| World.ObjectTableLastWins | world.py:56-66 | the same for objects |
| World.EdgeSet | world.py:52-54 | the graph has an edge a→b exactly when some entry with id a lists b in connected_to |
| World.LoadFromConfig | world.py:16-66 | after loading, every configured location and object is present, the edges are the connected_to pairs, there are no queues, locks or placed agents, and the clock is 08:00 |
| World.LoadedLocationsEmpty | world.py:39-50 | every loaded location starts with no agents present |
| World.LastIndexWithId | world.py:41-49 | every loaded id has a last configuration entry |
| World.PutOn | world.py:79-80 | appending an agent changes only that location's people list |
| World.TakeOff | world.py:100-101 | removing an agent changes only that location's people list, by one entry |
| World.WithPeople | world.py:74-107 | replacing one people list leaves every other list, the objects and the ledger alone |
| World.PlaceAgent | world.py:74-82 | placing succeeds exactly for a known location; the agent is recorded there, listed there once if it was not yet, and every other location is unchanged |
| World.MoveAgent | world.py:88-107 | a move succeeds exactly when the agent has a truthy location with an edge to a known target; with no location or no edge nothing changes; on success the agent is recorded and listed at the target; object lists never change |
| World.MoveAgentCounts | world.py:88-107 | after a move between two locations the mover is listed once more at the target and at most once less at the origin |
| World.PeopleAfterMove | world.py:98-104 | the people lists after a move are the origin's entry taken off and the agent appended at the target |
| World.MovePeople | world.py:88-107 | per location, what `move_agent` does to the people list, in every case |
| World.MoveAgentKeepsOthers | world.py:88-107 | moving one agent never changes how often another agent is listed anywhere |
| World.WithObjects | world.py:132-150 | replacing one object list leaves every other location, the people lists and the objects alone |
| World.AddToList | world.py:132-134 | appending an id changes only that known location's object list |
| World.RemoveFromList | world.py:148-150 | removing an id takes its first entry off that location's list and changes nothing else |
| World.AddToListAt | world.py:132-134 | the object list of every location after an append |
| World.RemoveFromListAt | world.py:148-150 | the object list of every location after a removal |
| World.CreateObject | world.py:114-137 | creation succeeds exactly for a new id; a refusal changes nothing; the object is stored with the given fields; it is appended to a location list only when the location is non-empty and known |
| World.DestroyObject | world.py:139-153 | destruction succeeds exactly for a stored id; the object is removed and its first entry leaves the list of the location it records |
| World.TransferObject | world.py:155-206 | a transfer succeeds exactly for a stored object and a recognised shape; the recorded location becomes the destination for a drop or relocation, None for a pick-up, and is unchanged for a give; people lists never change |
| World.TransferLists | world.py:155-206 | per location, a transfer takes the id off where the shape picks up and appends it where it puts down |
| World.TransferPutsAt | world.py:172-199 | after a drop or relocation the destination list gains the id at the end |
| World.TransferTakesAt | world.py:179-185 | after a pick-up the source list loses its first entry of the id |
| World.DeliverPending | world.py:217-221 | after the broadcast loop an agent's queue is its old queue followed by one copy of the message per listing, and no copy when excluded |
| World.DeliverStep | world.py:217-221 | one loop step grows only the queue of the agent it visits, by one message |
| World.RepeatAppend | world.py:219-221 | one more message after n copies makes n+1 copies |
| World.RepeatSnoc | world.py:219-221 | n copies followed by one more is n+1 copies |
| World.Broadcast | world.py:208-222 | a broadcast to an unknown or missing location changes nothing; otherwise only the event queues change |
| World.BroadcastDelivers | world.py:208-222 | each agent's queue gains the message once per listing at that location unless it is excluded; nothing but the queues changes |
| World.GetPendingEvents | world.py:224-229 | the agent's queue (empty if none) is handed out and removed; other agents' queues are untouched |
| World.DrainTwice | world.py:224-229 | reading the queue twice in a row gives nothing the second time |
| World.BroadcastThenDrain | world.py:208-229 | after a broadcast the listener reads its old queue followed by its copies; an unlisted or excluded agent reads only its old queue |
| World.AdvanceTime | world.py:346-348 | the clock moves exactly one tick and nothing else changes |
| World.AdvanceTicks | world.py:346-348 | n ticks move the clock n*10 minutes and nothing else |
| World.SetAgentLock | world.py:354-365 | the agent is locked until now plus the duration with the given reason and effects, replacing any earlier lock; the completion text defaults to "Finished {reason}."; other locks and all other state are kept |
| World.PropertiesArg | world.py:388-389 | `properties or []`: a missing or falsy value reads as the empty list |
| World.ReplayCreate | world.py:388-389 | keyword arguments that do not bind `create_object` raise TypeError; an error leaves the world unchanged |
| World.ReplayTransfer | world.py:392-393 | arguments that do not bind `transfer_object` raise TypeError; an error leaves the world unchanged |
| World.ReplayDestroy | world.py:390-391 | a replayed destroy raises only for an unhashable id |
| World.ReplayModify | world.py:394-398 | a modify replay never touches locations or the set of objects; an unhashable id raises |
| World.ReplayEffect | world.py:383-398 | an effect of any other type is ignored; a raising effect leaves the world unchanged |
| World.ReplayEffects | world.py:375-376 | replaying a list never changes the clock or the event queues |
| World.ReplayEffectsAppend | world.py:375-376 | replaying a concatenation replays the first part and, unless it raised, then the second |
| World.CheckAgentLock | world.py:367-381 | no lock gives None and changes nothing; a lock not yet due gives its reason and changes nothing; a due lock replays its effects, is removed and gives its completion text; a replay that raises propagates and the lock stays |
| World.FreshLockIsActive | world.py:354-372 | a lock just set with a positive duration is reported active with its reason |
| World.LockStatusAfterTicks | world.py:346-381 | n ticks after being set, a lock is active exactly when n*10 is below its duration |
| World.ExpiredLockIsGone | world.py:375-381 | once an expired lock has been checked successfully, checking again gives None |
| World.RaisedLockStays | world.py:375-381 | when a deferred effect raises, the lock is still there for the next check |
| WorldInvariants.LoadedObjectsConsistent | world.py:39-66 | loading a configuration whose location `objects` lists are duplicate-free and agree with the `location` of each object (counting the last entry of a repeated id) gives a store whose listings and recorded locations agree |
| WorldInvariants.LoadedAgentsPlaced | world.py:39-66 | a freshly loaded world places and lists nobody, so every agent is trivially placed |
| WorldInvariants.AtMostOneLocation | world.py:114-206 | in a consistent world an object is listed at no more than one location |
| WorldInvariants.CreateLists | world.py:130-134 | what creation does to every location's object list |
| WorldInvariants.CreateKeepsConsistent | world.py:114-137 | creating an object at a known location keeps the object lists consistent with the recorded locations |
| WorldInvariants.CreateKeepsListedRecorded | world.py:114-137 | after creation every listed object still records the location that lists it |
| WorldInvariants.CreateKeepsNoDup | world.py:114-137 | after creation no location lists an object twice |
| WorldInvariants.CreateKeepsRecordedListed | world.py:114-137 | after creation every object that records a location is listed there |
| WorldInvariants.DestroyLists | world.py:145-150 | what destruction does to every location's object list |
| WorldInvariants.DestroyKeepsConsistent | world.py:139-153 | destruction keeps the world consistent, and the id is then listed nowhere |
| WorldInvariants.DestroyList | world.py:146-150 | in a consistent world destruction removes the id from its one list entirely |
| WorldInvariants.OnlyIdChangedKeepsConsistent | world.py:155-206 | a step that changes only one object's record and lists, and leaves them matching, keeps consistency |
| WorldInvariants.OnlyIdChangedListedRecorded | world.py:155-206 | such a step keeps every listed object recording where it is listed |
| WorldInvariants.OnlyIdChangedRecordedListed | world.py:155-206 | such a step keeps every recorded object listed |
| WorldInvariants.TransferKeepsConsistent | world.py:155-206 | a transfer whose source matches where the object is recorded keeps the world consistent |
| WorldInvariants.TransferOnlyIdChanged | world.py:155-206 | a matching transfer changes only the moved object's record and lists |
| WorldInvariants.StepOnlyIdChanged | world.py:155-206 | the same for one take-and-put list step |
| WorldInvariants.TakePut | world.py:155-206 | taking an id off a list and putting it elsewhere leaves the other ids' multiplicities alone |
| WorldInvariants.SameObjectsKeepConsistent | world.py:74-107 | a step that keeps all objects and object lists keeps consistency |
| WorldInvariants.MoveKeepsObjectsConsistent | world.py:88-107 | moving an agent keeps object consistency |
| WorldInvariants.ObjectListsKeptAt | world.py:74-107 | agent steps keep each location's object list |
| WorldInvariants.PlaceKeepsObjectsConsistent | world.py:74-82 | placing an agent keeps object consistency |
| WorldInvariants.DropOfListedObjectDuplicates | world.py:172-176 | a drop does not check where the object lies: dropping an object listed at one location into another lists it at both and breaks consistency |
| WorldInvariants.CreateThenDestroy | world.py:114-153 | creating a fresh object and destroying it restores the world exactly when the target list did not already mention the id |
| WorldInvariants.CreateThenDestroyListed | world.py:114-153 | create followed by destroy restores the object list of the target location |
| WorldInvariants.RestoreLocations | world.py:114-153 | the per-location lists after the round trip equal the originals |
| WorldInvariants.CreateAtKnownLocation | world.py:132-134 | creation at a known location appends the id to that list |
| WorldInvariants.DestroyAtLocation | world.py:145-150 | destroying an object recorded at a location takes its first entry off that list |
| WorldInvariants.RemoveLastAdded | world.py:149-150 | removing the id just appended to a list without it gives the list back |
| WorldInvariants.AgentStepKeepsPlaced | world.py:74-107 | an agent step that records and lists the agent at the same place keeps every agent listed where it is recorded |
| WorldInvariants.MoveKeepsPlaced | world.py:88-107 | a move to a declared location keeps agents listed where they are recorded |
| WorldInvariants.MoveAgentCountAt | world.py:88-107 | the number of listings of the mover at each location after a move |
| WorldInvariants.MoveToUndeclaredTargetLosesAgent | world.py:88-107 | an edge to an id that is not a location (loading adds one, world.py lines 52-54) lets `move_agent` take the agent off its list and then fail, so it stays recorded where no list names it |
| WorldInvariants.PlaceKeepsPlaced | world.py:74-82 | placing an agent that is not yet recorded keeps agents listed where recorded |
| WorldInvariants.PlaceTwiceListsTwice | world.py:74-82 | placing an agent a second time elsewhere leaves the old listing behind: it is listed at two places |
| Prompting.WitnessesShown | env_agent.py:159 | the witness list shown is None exactly when there are no witnesses; otherwise it omits the actor and keeps everyone else's multiplicity |
| Prompting.WitnessesShownExcludesActor | world_engine.py:423 | the shown witnesses never include the actor |
| EnvAgent.Collect | env_agent.py:88-119 | the fold's lock, if any, is a lock action from the list, and everything it stages is world-changing |
| EnvAgent.StagedOfSnoc | env_agent.py:88-119 | staging one more action appends it when it is world-changing |
| EnvAgent.CollectStaged | env_agent.py:88-119 | the staged list is exactly the world-changing actions of the decision list, in order |
| EnvAgent.CollectResultIsLast | env_agent.py:90-95 | the result is taken from the last result action |
| EnvAgent.CollectNoResult | env_agent.py:73-95 | without a result action the result stays "Parsing failed" with success False |
| EnvAgent.CollectLockIsLast | env_agent.py:97-99 | the remembered lock is the last lock action |
| EnvAgent.CollectLockPresent | env_agent.py:97-121 | there is a lock exactly when the list holds a lock action |
| EnvAgent.EffectKind | env_agent.py:165-173 | the four world-changing tags are renamed to the replay types; any other tag passes through |
| EnvAgent.ActionToEffect | env_agent.py:163-175 | the effect's arguments omit `action`, and its type is a replay type exactly for modify, create, destroy and transfer actions |
| EnvAgent.ActionToEffectKeepsAction | env_agent.py:163-175 | validating a deferred effect's arguments under the action's tag gives the staged action back |
| EnvAgent.Effects | env_agent.py:122 | the deferred list converts each staged action in order |
| EnvAgent.SetState | env_agent.py:181-186 | a modify on an unknown object does nothing; on a known one only its state changes |
| EnvAgent.ExecuteAction | env_agent.py:177-216 | immediate execution of one staged action: a modify of a missing object is a no-op, a broadcast touches only queues, the others only the store |
| EnvAgent.ImmediateBroadcastReachesAll | env_agent.py:188-190 | an immediate broadcast has no exclusion, so the actor hears it too |
| EnvAgent.ExecuteAll | env_agent.py:132-135 | executing the staged list never changes the clock or the locks |
| EnvAgent.Truthful | world.py:172-191 | an empty endpoint reads as absent, exactly as `transfer_object`'s truthiness tests do |
| EnvAgent.TransferReadsTruthiness | world.py:155-206 | a transfer with an empty endpoint behaves as one without it |
| EnvAgent.ReplayCreateMatches | world.py:388-389 | replaying a deferred create does what creating at once would have done |
| EnvAgent.ReplayTransferMatches | world.py:392-393 | replaying a deferred transfer does what transferring at once would have done |
| EnvAgent.TransferArgs | env_agent.py:163-175 | the converted transfer arguments bind `transfer_object` and carry the action's endpoints |
| EnvAgent.ReplayMatchesExecute | env_agent.py:163-216 | replaying a deferred action equals executing it at once, except that a deferred broadcast is dropped |
| EnvAgent.WithoutBroadcasts | env_agent.py:121-135 | the staged actions with broadcasts removed, each from the original list |
| EnvAgent.DeferredMatchesImmediate | env_agent.py:121-135 | deferring a staged list and replaying it never raises and equals executing it at once minus its broadcasts |
| EnvAgent.ExecuteAllSkipsBroadcast | env_agent.py:132-135 | one step of that equation: a leading broadcast is skipped, anything else runs first |
| EnvAgent.ResolveInteraction | env_agent.py:44-143 | no or empty reply: no effect; an unparseable reply: success with "Action completed. " and at most 100 characters, world unchanged; a parsed reply returns the result the fold selected |
| EnvAgent.ParseFailureQuotesReply | env_agent.py:137-141 | the failure message quotes the first hundred characters of the stripped reply |
| EnvAgent.LockDefersEverything | env_agent.py:121-131 | with a lock action only the lock table changes: the last lock's agent is locked with its reason, duration and completion text, and every staged action is deferred in order |
| EnvAgent.NoLockExecutesNow | env_agent.py:132-135 | without a lock action the staged actions are applied at once, in order |
| EnvAgent.ZeroDurationLockReplaysAtOnce | env_agent.py:121-131 | a lock of no positive duration is due at once: the next check replays the deferred effects and equals immediate execution without broadcasts |
| EnvAgent.DueLockReplaysStaged | world.py:367-381 | checking a due lock set by the env agent applies the staged actions minus broadcasts and removes the lock |
| WorldActions.ObjectLines | world.py:259-264 | the lines start with a space, are at most one per listed id, and there are none exactly when no listed id is stored |
| WorldActions.ObjectLinesAppend | world.py:259-264 | the lines keep the list order: the lines of a concatenation are the lines of each part in turn |
| WorldActions.ObjectLinesSingle | world.py:259-264 | one listed id gives `"  - {name} (id: {id}, state: {state})"` of its stored object, and nothing when it is not stored |
| WorldActions.ObjectLinesOneLine | world.py:259-264 | objects whose name, id and state hold no line break give single-line entries |
| WorldActions.ObjectsText | world.py:259-266 | the objects text is "None" exactly when no listed id names a stored object |
| WorldActions.ObjectsTextLines | world.py:259-266 | otherwise, for single-line objects, the text splits at "\n" into exactly the object lines |
| WorldActions.JoinedLinesNotNone | world.py:264-266 | a non-empty join of the formatted lines is never the word "None" |
| WorldActions.EventLines | world.py:273 | one `"- {event}"` line per event, in queue order |
| WorldActions.EventsText | world.py:271-274 | the events text is "None" exactly when the queue is empty |
| WorldActions.EventsTextLines | world.py:271-274 | otherwise, for single-line events, the text splits at "\n" into exactly the `"- {event}"` lines |
| WorldActions.GetAgentContextData | world.py:231-276 | an unknown location gives the placeholder and leaves the queue; a known one describes it, lists the others present without the agent, gives the connections, renders the stored objects listed there and the agent's queued events (clearing the queue) |
| WorldActions.ContextConsumesEvents | world.py:248-274 | building the context consumes the events: an immediate second build reports none |
| WorldActions.ProcessAction | world.py:279-344 | wait succeeds and changes nothing; an unknown type fails; a move succeeds exactly when `move_agent` does; a talk succeeds exactly with content and changes only queues; an interaction with a missing object fails and changes nothing; an interaction with a stored object raises exactly when the world has no environment agent (lines 29 and 328), and otherwise it is the resolver's outcome; the clock never moves |
| WorldActions.TalkReachesOthers | world.py:302-314 | a talk queues the line for every other agent present once per listing, never for the speaker |
| WorldActions.InteractWitnessesExcludeActor | world.py:326-327 | the resolver's prompt never names the actor as a witness |
| WorldActions.ActionThenTick | world.py:346-348 | a decision that returns, followed by `advance_time`, moves the clock exactly one tick |
| WorldEngine.QueryEntity | world_engine.py:353-379 | objects are found first, then placed agents with their inventory, else "Entity ... not found"; an unhashable id makes the call fail |
| WorldEngine.ValidateExisting | world_engine.py:310-335 | update and destroy pass exactly for a stored object; otherwise the error names the id |
| WorldEngine.ValidateCreate | world_engine.py:318-327 | creation passes exactly for a new id whose truthy location is known; a taken id is rejected with its message |
| WorldEngine.ValidateTransfer | world_engine.py:337-347 | a transfer passes exactly for a stored object and a destination that is a location, a placed agent or an object |
| WorldEngine.EffectKind | world_engine.py:280-285 | exactly the four action tools stage an effect |
| WorldEngine.DispatchTool | world_engine.py:269-304 | an action tool stages its effect exactly when it validates; a rejection returns the validator's error; an unknown tool is an error; nothing else stages; a result is produced exactly when `interaction_result` validates |
| WorldEngine.Call | world_engine.py:197-229 | arguments that do not parse give an execution error and change nothing; otherwise the call is dispatched |
| WorldEngine.ApplyAll | world_engine.py:402-403 | no effects is no change; effects that never raise apply without error |
| WorldEngine.Finalize | world_engine.py:381-405 | a positive duration locks the agent with its task description, the message and every staged effect, applying none; otherwise the staged effects apply now and the message is returned verbatim |
| WorldEngine.RunCalls | world_engine.py:190-232 | a turn that goes on keeps the earlier staged effects as a prefix, stages at most one effect per call, and leaves the world alone when effects never raise |
| WorldEngine.Loop | world_engine.py:172-237 | at most fifteen requests; a failure is success False with one of the three failure messages, and the world is unchanged when effects never raise |
| WorldEngine.ResolveInteraction | world_engine.py:126-240 | the engine makes at most fifteen requests; every failure returns success False with its message and, while effects apply without raising, the world as it was |
| WorldEngine.LaterCallsIgnored | world_engine.py:204-213 | once a call finalises the interaction, the calls after it in the same reply are never run |
| WorldEngine.FailedCallSkipped | world_engine.py:222-229 | a call that does not parse, or names an unknown tool (lines 303-304), answers with an error and the turn goes on as if it had not been made |
| WorldEngine.TextOnlyContinues | world_engine.py:242-263 | text without tool calls costs one request and changes nothing else |
| WorldEngine.TextForeverTimesOut | world_engine.py:172-240 | a service that only answers with text uses all fifteen requests and the interaction fails as too long, world untouched |
| WorldEngine.FirstReplyFailures | world_engine.py:178-236 | a missing or empty first reply ends at once with its failure message |
| WorldEngine.StageThenApplyNow | world_engine.py:287-295 | staging an update and finalising with no duration (lines 400-405) applies that effect once and returns the message verbatim |
| WorldEngine.StagedResultTurn | world_engine.py:190-232 | that turn reaches finalisation with the update staged |
| WorldEngine.UpdateCallStages | world_engine.py:287-295 | an update of a stored object is staged |
| WorldEngine.ResultCallFinalizes | world_engine.py:298-301 | a well-formed `interaction_result` carries its result and stages nothing |
| WorldEngine.StageThenDefer | world_engine.py:388-399 | with a positive duration the same turn locks the agent with the staged update deferred and reports "Started: ..." |
| WorldEngine.DeferredUpdateIsIgnored | world.py:383-398 | the engine's deferred `UpdateObject` effect is ignored at lock expiry |
| WorldEngine.DeferredTransferRaises | world_engine.py:337-347 | a deferred transfer that passed validation carries `to_id`, which `transfer_object` cannot bind, so its replay raises TypeError |
| WorldEngine.DeferredCreateWithHiddenFieldsRaises | world.py:388-389 | a deferred create carrying `mechanics` or `internal_state` raises TypeError at replay |
| Memory.LastEntries | agent.py:17-19 | the last min(n, len) entries, in order |
| Memory.GetRecentMemories | agent.py:17-19 | the recent memories are the entries `short_term[-limit:]` selects for any `limit` (the last five with the default), joined by newlines: empty when none is selected, the last entry alone when one is |
| Memory.RecentMemoriesSplit | agent.py:17-19 | splitting the recent memories of single-line entries gives back exactly the entries `short_term[-limit:]` selects, for any `limit` |
| Memory.RecentEndsWithNewest | agent.py:17-19 | the recent memories end with the newest entry |
| Memory.AddMessage | agent.py:21-23 | adding a message appends exactly one history entry with that role and content |
| Memory.AddExchange | agent.py:124-126 | a user message and a reply add two entries in that order |
| Memory.NonEmpty | agent.py:70 | only the non-empty memories are kept, each with its multiplicity |
| Memory.NonEmptyAppend | agent.py:70 | the filter keeps the order: filtering a concatenation filters each part in place |
| Memory.NonEmptySnoc | agent.py:70 | appending a memory appends it to the result exactly when it is not empty |
| Memory.MemoryEntries | agent.py:67-71 | events come first, then the tagged memories |
| Memory.SummaryLines | agent.py:72 | one bulleted line per entry |
| Memory.MemoryString | agent.py:67-72 | the summary is the bulleted lines joined by newlines, or the text "Nothing notable" when there are none |
| Memory.MemoryStringLines | agent.py:72 | the summary splits back into its bulleted lines |
| Memory.JoinStartsWithFirst | agent.py:72 | a join starts with its first line |
| Memory.NewlineFreeEntries | agent.py:67-72 | entries built from newline-free text stay newline-free |
| Memory.SummaryKeepsNonEmpty | agent.py:67-72 | an own memory appears among the summarised memories exactly when it is not empty, as often as it occurs in the memory |
| Memory.KeepUnlessCons | agent.py:105-107 | filtering a list with one more line either keeps it at the front or drops it |
| Memory.DropFenceLines | agent.py:105-107 | no kept line starts with the fence marker; every other line is kept with its multiplicity |
| Memory.KeepUnlessAppend | agent.py:105-107 | the comprehension keeps the order: filtering a concatenation filters each part in place |
| Memory.KeepUnlessSnoc | agent.py:105-107 | appending a line appends it to the result exactly when it is kept |
| Memory.DropFenceLinesAppend | agent.py:105-107 | the fence lines are dropped in place: filtering a concatenation filters each part |
| Memory.DropFenceLinesSnoc | agent.py:105-107 | appending a line appends it to the unwrapped lines exactly when it is not a fence line |
| Memory.StripFences | agent.py:103-107 | a reply that does not open with a fence is only stripped of surrounding whitespace |
| Memory.FencedReplyHasNoFenceLine | agent.py:103-107 | after cleaning, no line of a fenced reply is a fence |
| Memory.StripKeeps | agent.py:103 | text whose first and last characters are not whitespace is its own strip |
| Memory.SplitFenced | agent.py:103-107 | a fenced one-line payload splits into the opening fence, the payload line and the closing fence |
| Memory.ClosingFenceIsFence | agent.py:105-107 | the closing "```" is a fence line |
| Memory.DropClosingFence | agent.py:105-107 | of a fence-free line and the closing fence, only the closing fence is dropped |
| Memory.KeepFirstOfPair | agent.py:105-107 | filtering a kept line followed by a dropped one leaves only the kept line |
| Memory.FencedPayloadUnwrapped | agent.py:103-107 | a one-line, fence-free payload wrapped between an opening `json` fence line and a closing fence line comes back exactly |
| Memory.FencedLinesKept | agent.py:103-107 | a fenced reply comes back as its lines after the first, in order, with every fence line dropped, whenever some line is kept |
| Memory.FencedLinesUnwrapped | agent.py:103-107 | any number of newline-free, fence-free payload lines wrapped between an opening `json` fence line and a closing fence line come back exactly, joined by newlines |
| Memory.KeepUnlessKeepsAll | agent.py:106 | lines none of which the filter drops pass it unchanged, so fence-free lines survive the comprehension as they are |
| Memory.DropClosingFenceAfter | agent.py:106 | fence-free lines followed by the closing fence filter down to those lines |
| Memory.UpdateState | agent.py:130-134 | a result with a message appends one "System: ..." memory; a result without one changes nothing |
| Memory.UpdateStateIsRecalled | agent.py:130-134 | the result just recorded is the newest of the recent memories that `get_recent_memories` (lines 17-19) returns |
| Agent.Decide | agent.py:58-128 | the memory is summarised and cleared; the outcome is a decision exactly when a non-empty reply validates, and then the history gains the user message and the cleaned reply; every other path reaches the missing fallback with the history unchanged |
| Agent.UpdateAgentState | agent.py:130-134 | a message adds exactly one system memory; the history and status are kept |
| Agent.NextSummaryHoldsOnlyTheResult | agent.py:63-75 | after a decision and its result, the next summary holds only the result's line, so nothing is reported twice |
| Agent.SystemLineSummary | agent.py:67-72 | the summary of one system memory is that one bulleted line |
| Agent.FailedRepliesReachMissingFallback | agent.py:98-118 | a missing or empty reply, or one that does not validate, reaches the missing fallback and leaves no trace in the history |
| AgentiaAgent.ApplyPlanCall | agentia/agent.py:120-141 | a well-formed `update_plan` replaces the plan and leaves a planning note; an ill-formed call changes nothing |
| AgentiaAgent.ApplyPlanCalls | agentia/agent.py:120-146 | handling a reply's calls keeps the status and history and only appends memories |
| AgentiaAgent.ApplyPlanCallsSnoc | agentia/agent.py:120-146 | one more call after a batch is the longer batch |
| AgentiaAgent.LastPlanWins | agentia/agent.py:120-146 | of several plan updates in one reply the last well-formed one wins; with none the plan is kept |
| AgentiaAgent.Loop | agentia/agent.py:85-162 | the status is kept and memories only grow; an error or missing reply ends with the matching wait fallback |
| AgentiaAgent.Decide | agentia/agent.py:60-172 | a first reply that errs or is missing gives the wait fallback; the status is kept |
| AgentiaAgent.FailuresWait | agentia/agent.py:106-117 | every failure the loop catches is a wait decision carrying the fallback reason |
| AgentiaAgent.ParseErrorWaits | agentia/agent.py:156-162 | a reply that does not validate gives the wait fallback naming the error and records nothing |
| AgentiaAgent.ToolCallsContinue | agentia/agent.py:120-146 | a reply with tool calls applies them all and asks again |
| AgentiaAgent.ParsedReplyDecides | agentia/agent.py:149-170 | a reply without tool calls that validates ends the loop with that decision and records the exchange |
| AgentiaAgent.PlanThenDecide | agentia/agent.py:85-172 | a plan update followed by a valid decision leaves the new plan, a planning note and the decision |

## Left out

- Logging, statistics counters, prompt templates, `app.py`, `main.py`, `utils.py`, `prompts.py`, `logger_config.py` and `config.py`: they are outside the core and are not part of this model.
- The reasoning service: replies are an oracle sequence, already parsed into variants. JSON decoding is represented by a parsed-or-failed variant, and prompt rendering is a function parameter.
- Async calls and concurrency: each call is one atomic step.
- `World.__init__` reading a JSON or YAML file: loading starts from the configuration value.
- The networkx graph: an edge set.
- `get_time_str` and `strftime`: the clock is minutes since 2024-01-01 00:00 and its text form is not modelled.
- `get_location`, `get_object`, `get_agent_location` and `get_connected_locations`: these are map lookups, used inline.
- The `str(...)` rendering of the people and connection lists in the context: they are kept as lists.
- `_build_context` of both resolvers: only the witness list is modelled, because the rest is template formatting.
- Pydantic's lax coercion (for example "1" accepted as an int): validation is strict by type.
- The legacy tool models `ModifyObjectState` to `TransferObject` (schemas.py:194-247), `pydantic_to_openai_tool` and the schema getters: nothing in the core calls them.
- `AgentDecision.get_validated_action` of `agentia/schemas.py` and its action models: the validation is the `parse` parameter of `AgentiaAgent.Decide`. Its `fallback` is modelled as `AgentiaSchemas.Fallback`.
- The first `Task`/`Plan` definitions in `agentia/schemas.py` (lines 40-50): the later definitions replace them, so only the second pair is modelled.
- `World.execute_effect` and `World.get_agent_inventory`: the engine calls them but the world does not define them, so they are the `Collaborators` parameter.
- The texts of exceptions: a raising tool call is `ExecutionFailed`, and a raising replay is `TypeError` or `Unsupported`.
- Floating point: none is used in the core, and `Values.Value` has no float, so a JSON argument such as `"duration": 5.0` cannot be represented.
- Schemas.EnvActionFromKwargs: `EnvAgentAction` (schemas.py:170-178) is a plain `Union` without a discriminator. Pydantic resolves it in smart mode by trying each member. The model validates a dict only as the model its tag names, so the smart-mode choice for a dict without a tag is not modelled. The env agent's replies reach the model already parsed.
- WorldEngine.ResolveInteraction: a failure is stated to leave the world unchanged only when `execute_effect` never raises. A finalisation that raises partway is caught by the loop, and the effects applied before it stay applied.
- World.ReplayModify: a `new_state` that is not a string is reported as `Unsupported` rather than stored, because object states are strings in this model.
- World.ReplayTransfer: a truthy endpoint that is not a string is reported as `Unsupported` rather than stored, for the same reason.
- World.ReplayCreate: argument values that fail the `WorldObject` field types are reported as errors, where pydantic might coerce them.
- Agent.Decide: `events` stands for `world_context.get("pending_events", [])`. The world's context uses the key "events", so as written the list is always empty. The comment at agent.py:62 says the summary is meant to hold the external events.
- World.SetAgentLock: the clock is an unbounded count of minutes. Python's `datetime` ends at 9999-12-31 23:59, 4,194,970,559 minutes after 2024-01-01 00:00. For a lock ending past that (or before year 1, or a duration beyond `timedelta`'s range), `sim_time + timedelta(minutes=duration)` at world.py:357 raises OverflowError. The model always sets the lock.
- World.AdvanceTime: for the same reason, the OverflowError of a tick past the end of year 9999 is not modelled.
- EnvAgent.ResolveInteraction: a `lock_agent` action whose end falls outside `datetime`'s range raises OverflowError at env_agent.py:124. The except at line 137 catches only validation and JSON errors, so the error leaves `resolve_interaction` and `process_action`. The model sets the lock instead.
- WorldEngine.Finalize: for such a lock, the OverflowError of world_engine.py:393 is caught at line 222. The loop appends a "Tool execution failed" tool message and continues. The model sets the lock instead.
- AgentiaAgent.Loop: the source loop is unbounded while the service keeps returning tool calls. The oracle is finite and answers nothing past its end, so an endless stream of tool calls is not modelled.
- AgentiaAgent.Decide: a reply with neither tool calls nor content raises AttributeError on `None.strip()`; it is modelled as the `ContentMissing` outcome.
- `AgentMemory` and `update_state` of `agentia/agent.py` (lines 12-24 and 174-178): they are the same code as in `agent.py`, and both agents share the `Memory` module.

=== FILE: agent.dfy ===
/** `SimAgent` of `agent.py`: what `decide` does to the agent around the reasoning-service call,
    and `update_state`.

    `decide` imports `AgentDecision` from `schemas.py`, whose `AgentDecision` has no `fallback`
    method: each of the three fallback paths raises AttributeError instead of returning a wait
    decision. The model keeps that behaviour as the `FallbackMissing` outcome. */
module Agent {
  import opened Values
  import opened Text
  import opened Schemas
  import opened Memory

  /** The parts of a `SimAgent` that `decide` and `update_state` touch. */
  datatype SimAgent = SimAgent(memory: AgentMemory, status: Kwargs)

  /** The reply of the reasoning service: none, or a message whose content may be `None`. */
  datatype LlmReply = NoResponse | Response(content: Option<string>)

  /** `AgentDecision.model_validate_json(content)` followed by `get_validated_action()`. */
  datatype Parse = Parsed(decision: AgentDecision) | ParseFailed(error: string)

  /** A decision, or the AttributeError of calling the missing `AgentDecision.fallback`. */
  datatype Outcome = Decided(decision: AgentDecision) | FallbackMissing

  datatype DecideResult = DecideResult(agent: SimAgent, outcome: Outcome)

  /** `SimAgent.decide`. `events` is `world_context.get("pending_events", [])`, `render` formats
      the user message around the memory summary, and `parse` is the validation of the reply. The
      summary of the short-term memory is taken and the memory cleared before the call; a decision
      is recorded in the history as the user message followed by the cleaned reply. */
  function Decide(a: SimAgent, events: seq<string>, reply: LlmReply, render: string -> string, parse: string -> Parse): (r: DecideResult)
    ensures r.agent.memory.shortTerm == [] && r.agent.status == a.status
    ensures r.agent.memory.longTermSummary == a.memory.longTermSummary
    ensures r.outcome.Decided? <==>
      reply.Response? && Present(reply.content) && parse(StripFences(reply.content.value)).Parsed?
    ensures r.outcome.Decided? ==> (
      var content := StripFences(reply.content.value);
      && r.outcome.decision == parse(content).decision
      && r.agent.memory.chatHistory == a.memory.chatHistory
           + [ChatEntry("user", render(MemoryString(events, a.memory.shortTerm))), ChatEntry("assistant", content)])
    ensures r.outcome.FallbackMissing? ==> r.agent.memory.chatHistory == a.memory.chatHistory
  {
    var message := render(MemoryString(events, a.memory.shortTerm));
    var cleared := a.(memory := a.memory.(shortTerm := []));
    if reply.NoResponse? || !Present(reply.content) then DecideResult(cleared, FallbackMissing)
    else
      var content := StripFences(reply.content.value);
      match parse(content)
      case ParseFailed(_) => DecideResult(cleared, FallbackMissing)
      case Parsed(d) =>
        var m := AddMessage(AddMessage(cleared.memory, "user", message), "assistant", content);
        AddExchange(cleared.memory, message, content);
        DecideResult(cleared.(memory := m), Decided(d))
  }

  /** `SimAgent.update_state`: the result's message, when it has one, is remembered; the status is
      left alone. */
  function UpdateAgentState(a: SimAgent, message: Option<string>): (r: SimAgent)
    ensures r.status == a.status && r.memory.chatHistory == a.memory.chatHistory
    ensures message.Some? <==> |r.memory.shortTerm| == |a.memory.shortTerm| + 1
    ensures message.Some? ==> r.memory.shortTerm[|a.memory.shortTerm|] == "System: " + message.value
  {
    a.(memory := UpdateState(a.memory, message))
  }

  /** One simulation step of an agent, decide and then the action result: the next summary holds
      exactly the result's system line, so memories are reported once. */
  lemma NextSummaryHoldsOnlyTheResult(a: SimAgent, events: seq<string>, reply: LlmReply, render: string -> string,
                                       parse: string -> Parse, message: string)
    ensures var b := UpdateAgentState(Decide(a, events, reply, render, parse).agent, Some(message));
      b.memory.shortTerm == ["System: " + message]
      && MemoryString([], b.memory.shortTerm) == "- [Memory] System: " + message
  {
    SystemLineSummary(message);
  }

  /** The summary of a memory holding one system line and no events. */
  lemma SystemLineSummary(message: string)
    ensures MemoryString([], ["System: " + message]) == "- [Memory] System: " + message
  {
  }

  /** A missing or empty reply, or one that does not validate, reaches the missing fallback and
      leaves no trace in the history. */
  lemma FailedRepliesReachMissingFallback(a: SimAgent, events: seq<string>, content: string, render: string -> string, parse: string -> Parse)
    ensures Decide(a, events, NoResponse, render, parse).outcome == FallbackMissing
    ensures Decide(a, events, Response(Some("")), render, parse).outcome == FallbackMissing
    ensures content != "" && parse(StripFences(content)).ParseFailed? ==>
      Decide(a, events, Response(Some(content)), render, parse) == DecideResult(a.(memory := a.memory.(shortTerm := [])), FallbackMissing)
  {
  }
}

=== FILE: agentia_agent.dfy ===
/** `SimAgent` of `agentia/agent.py`: `decide` loops while the reasoning service calls the
    `update_plan` tool, replacing the daily plan, and ends on the first reply without tool calls;
    every failure returns the wait fallback of `agentia/schemas.py`. */
module AgentiaAgent {
  import opened Values
  import opened Text
  import opened Schemas
  import opened AgentiaSchemas
  import opened Memory

  /** The parts of a `SimAgent` that `decide` and `update_state` touch. */
  datatype SimAgent = SimAgent(memory: AgentMemory, status: Kwargs, dailyPlan: seq<Task>)

  /** One tool call: its name and its arguments, `None` when their JSON does not parse. */
  datatype PlanCall = PlanCall(name: string, arguments: Option<Value>)

  /** One answer of the reasoning service: the call raised, no reply, or a message with optional
      content and tool calls. */
  datatype LlmReply = LlmError | NoResponse | Response(content: Option<string>, toolCalls: seq<PlanCall>)

  /** `AgentDecision.model_validate_json(content)` followed by `get_validated_action()`. */
  datatype Parse = Parsed(decision: AgentDecision) | ParseFailed(error: string)

  /** A decision, or the AttributeError of `None.strip()` on a reply with neither tool calls nor
      content, which escapes `decide`. */
  datatype Outcome = Decided(decision: AgentDecision) | ContentMissing

  datatype DecideResult = DecideResult(agent: SimAgent, outcome: Outcome)

  // ---------------------------------------------------------------------------
  // update_plan
  // ---------------------------------------------------------------------------

  /** The task list of a well-formed `update_plan` call. */
  function PlanOf(c: PlanCall): Option<seq<Task>> {
    if c.name == "update_plan" && c.arguments.Some? then PlanFromArgs(c.arguments.value) else None
  }

  /** The memory entry a plan update leaves. */
  function PlanningNote(n: nat): string {
    "[Planning] Updated daily plan: " + NatToString(n) + " tasks."
  }

  /** One tool call: a well-formed `update_plan` replaces the plan wholesale and notes it in the
      short-term memory; anything else, including malformed arguments, changes nothing. */
  function ApplyPlanCall(a: SimAgent, c: PlanCall): (r: SimAgent)
    ensures PlanOf(c).None? ==> r == a
    ensures PlanOf(c).Some? ==>
      && r.dailyPlan == PlanOf(c).value
      && r.memory.shortTerm == a.memory.shortTerm + [PlanningNote(|PlanOf(c).value|)]
      && r.memory.chatHistory == a.memory.chatHistory && r.status == a.status
  {
    match PlanOf(c)
    case None => a
    case Some(tasks) => a.(dailyPlan := tasks, memory := a.memory.(shortTerm := a.memory.shortTerm + [PlanningNote(|tasks|)]))
  }

  /** The tool calls of one reply, handled in order. */
  function ApplyPlanCalls(a: SimAgent, calls: seq<PlanCall>): (r: SimAgent)
    ensures r.status == a.status && r.memory.chatHistory == a.memory.chatHistory
    ensures |r.memory.shortTerm| >= |a.memory.shortTerm| && r.memory.shortTerm[..|a.memory.shortTerm|] == a.memory.shortTerm
    decreases |calls|
  {
    if calls == [] then a else ApplyPlanCalls(ApplyPlanCall(a, calls[0]), calls[1..])
  }

  /** The task list of the last well-formed `update_plan` among the calls, if any. */
  function LastPlan(calls: seq<PlanCall>): Option<seq<Task>>
    decreases |calls|
  {
    if calls == [] then None
    else if PlanOf(calls[|calls| - 1]).Some? then PlanOf(calls[|calls| - 1])
    else LastPlan(calls[..|calls| - 1])
  }

  /** Handling one more call after a batch is handling the longer batch. */
  lemma {:induction false} ApplyPlanCallsSnoc(a: SimAgent, calls: seq<PlanCall>, c: PlanCall)
    ensures ApplyPlanCalls(a, calls + [c]) == ApplyPlanCall(ApplyPlanCalls(a, calls), c)
    decreases |calls|
  {
    if calls == [] {
      assert [c][1..] == [];
    } else {
      assert (calls + [c])[0] == calls[0] && (calls + [c])[1..] == calls[1..] + [c];
      ApplyPlanCallsSnoc(ApplyPlanCall(a, calls[0]), calls[1..], c);
    }
  }

  /** Of several plan updates in one reply the last well-formed one wins; with none the plan is
      unchanged. */
  lemma {:induction false} LastPlanWins(a: SimAgent, calls: seq<PlanCall>)
    ensures ApplyPlanCalls(a, calls).dailyPlan == LastPlan(calls).GetOr(a.dailyPlan)
    decreases |calls|
  {
    if calls != [] {
      var init := calls[..|calls| - 1];
      var c := calls[|calls| - 1];
      assert calls == init + [c];
      ApplyPlanCallsSnoc(a, init, c);
      LastPlanWins(a, init);
    }
  }

  // ---------------------------------------------------------------------------
  // decide
  // ---------------------------------------------------------------------------

  /** The reply to request `i`; past the end of the oracle the service returns nothing. */
  function ReplyAt(replies: seq<LlmReply>, i: nat): LlmReply {
    if i < |replies| then replies[i] else NoResponse
  }

  /** The decision loop from request `i` on. `memoryText` is the summary taken before the loop;
      `render` formats the user message from it and the current plan. */
  function Loop(a: SimAgent, memoryText: string, replies: seq<LlmReply>, i: nat,
                render: (string, seq<Task>) -> string, parse: string -> Parse): (r: DecideResult)
    ensures r.agent.status == a.status
    ensures |r.agent.memory.shortTerm| >= |a.memory.shortTerm| && r.agent.memory.shortTerm[..|a.memory.shortTerm|] == a.memory.shortTerm
    ensures ReplyAt(replies, i).LlmError? ==> r == DecideResult(a, Decided(Fallback("LLM Error")))
    ensures ReplyAt(replies, i).NoResponse? ==> r == DecideResult(a, Decided(Fallback("Empty Response")))
    ensures r.outcome.ContentMissing? ==> r.agent.memory.chatHistory == a.memory.chatHistory
    ensures var h := r.agent.memory.chatHistory; var n := |a.memory.chatHistory|;
      h == a.memory.chatHistory
      || (|h| == n + 2 && h[..n] == a.memory.chatHistory && h[n] == ChatEntry("user", render(memoryText, r.agent.dailyPlan)))
    decreases |replies| - i
  {
    match ReplyAt(replies, i)
    case LlmError => DecideResult(a, Decided(Fallback("LLM Error")))
    case NoResponse => DecideResult(a, Decided(Fallback("Empty Response")))
    case Response(content, calls) =>
      if calls != [] then
        assert i < |replies|;
        Loop(ApplyPlanCalls(a, calls), memoryText, replies, i + 1, render, parse)
      else if content.None? then DecideResult(a, ContentMissing)
      else
        var text := StripFences(content.value);
        match parse(text)
        case ParseFailed(e) => DecideResult(a, Decided(Fallback("Parse Error: " + e)))
        case Parsed(d) =>
          var m := AddMessage(AddMessage(a.memory, "user", render(memoryText, a.dailyPlan)), "assistant", text);
          DecideResult(a.(memory := m), Decided(d))
  }

  /** `SimAgent.decide`: the summary of the events and short-term memory is taken, the memory
      cleared, and the loop run. */
  function Decide(a: SimAgent, events: seq<string>, replies: seq<LlmReply>,
                  render: (string, seq<Task>) -> string, parse: string -> Parse): (r: DecideResult)
    ensures r.agent.status == a.status
    ensures ReplyAt(replies, 0).LlmError? || ReplyAt(replies, 0).NoResponse? ==>
      r.agent == a.(memory := a.memory.(shortTerm := []))
  {
    Loop(a.(memory := a.memory.(shortTerm := [])), MemoryString(events, a.memory.shortTerm), replies, 0, render, parse)
  }

  /** Every failure the loop catches is a wait decision with the fallback reason. */
  lemma FailuresWait(a: SimAgent, events: seq<string>, replies: seq<LlmReply>, render: (string, seq<Task>) -> string, parse: string -> Parse)
    ensures var r := Decide(a, events, replies, render, parse);
      ReplyAt(replies, 0).LlmError? ==> r.outcome == Decided(Fallback("LLM Error"))
    ensures var r := Decide(a, events, replies, render, parse);
      ReplyAt(replies, 0).NoResponse? ==> r.outcome == Decided(Fallback("Empty Response"))
    ensures var r := Decide(a, events, replies, render, parse);
      ReplyAt(replies, 0).LlmError? || ReplyAt(replies, 0).NoResponse? ==>
        GetValidatedAction(r.outcome.decision) == Some(Wait("fallback"))
  {
  }

  /** A reply that fails to validate gives the wait fallback naming the error, and records nothing
      in the history. */
  lemma ParseErrorWaits(a: SimAgent, memoryText: string, replies: seq<LlmReply>, i: nat, render: (string, seq<Task>) -> string, parse: string -> Parse)
    requires ReplyAt(replies, i).Response? && ReplyAt(replies, i).toolCalls == [] && ReplyAt(replies, i).content.Some?
    requires parse(StripFences(ReplyAt(replies, i).content.value)).ParseFailed?
    ensures var e := parse(StripFences(ReplyAt(replies, i).content.value)).error;
      && Loop(a, memoryText, replies, i, render, parse) == DecideResult(a, Decided(Fallback("Parse Error: " + e)))
      && GetValidatedAction(Fallback("Parse Error: " + e)) == Some(Wait("fallback"))
  {
  }

  /** A reply with tool calls applies them all and asks again. */
  lemma ToolCallsContinue(a: SimAgent, memoryText: string, replies: seq<LlmReply>, i: nat,
                          render: (string, seq<Task>) -> string, parse: string -> Parse)
    requires ReplyAt(replies, i).Response? && ReplyAt(replies, i).toolCalls != []
    ensures Loop(a, memoryText, replies, i, render, parse)
      == Loop(ApplyPlanCalls(a, ReplyAt(replies, i).toolCalls), memoryText, replies, i + 1, render, parse)
  {
  }

  /** A reply without tool calls whose cleaned content validates ends the loop with that decision,
      recording the user message (showing the plan as it is now) and the cleaned content. */
  lemma ParsedReplyDecides(a: SimAgent, memoryText: string, replies: seq<LlmReply>, i: nat,
                           render: (string, seq<Task>) -> string, parse: string -> Parse)
    requires ReplyAt(replies, i).Response? && ReplyAt(replies, i).toolCalls == [] && ReplyAt(replies, i).content.Some?
    requires parse(StripFences(ReplyAt(replies, i).content.value)).Parsed?
    ensures var text := StripFences(ReplyAt(replies, i).content.value);
      var r := Loop(a, memoryText, replies, i, render, parse);
      && r.outcome == Decided(parse(text).decision)
      && r.agent.dailyPlan == a.dailyPlan && r.agent.memory.shortTerm == a.memory.shortTerm
      && r.agent.memory.chatHistory == a.memory.chatHistory
           + [ChatEntry("user", render(memoryText, a.dailyPlan)), ChatEntry("assistant", text)]
  {
    var text := StripFences(ReplyAt(replies, i).content.value);
    var m1 := AddMessage(a.memory, "user", render(memoryText, a.dailyPlan));
    var m := AddMessage(m1, "assistant", text);
    assert Loop(a, memoryText, replies, i, render, parse) == DecideResult(a.(memory := m), Decided(parse(text).decision));
    AddExchange(a.memory, render(memoryText, a.dailyPlan), text);
  }

  /** A plan update followed by a valid decision: the plan is the new one, the memory holds the
      planning note, and the history records the message showing the new plan and then the
      reply. */
  lemma PlanThenDecide(a: SimAgent, events: seq<string>, args: Value, content: string,
                       render: (string, seq<Task>) -> string, parse: string -> Parse)
    requires PlanFromArgs(args).Some? && parse(StripFences(content)).Parsed?
    ensures var tasks := PlanFromArgs(args).value;
      var replies := [Response(None, [PlanCall("update_plan", Some(args))]), Response(Some(content), [])];
      var r := Decide(a, events, replies, render, parse);
      && r.outcome == Decided(parse(StripFences(content)).decision)
      && r.agent.dailyPlan == tasks
      && r.agent.memory.shortTerm == [PlanningNote(|tasks|)]
      && r.agent.memory.chatHistory == a.memory.chatHistory
           + [ChatEntry("user", render(MemoryString(events, a.memory.shortTerm), tasks)), ChatEntry("assistant", StripFences(content))]
  {
    var tasks := PlanFromArgs(args).value;
    var call := PlanCall("update_plan", Some(args));
    var replies := [Response(None, [call]), Response(Some(content), [])];
    var cleared := a.(memory := a.memory.(shortTerm := []));
    var memoryText := MemoryString(events, a.memory.shortTerm);
    ApplyPlanCallsSnoc(cleared, [], call);
    assert [] + [call] == [call];
    var planned := ApplyPlanCalls(cleared, [call]);
    assert PlanOf(call) == Some(tasks);
    assert planned.dailyPlan == tasks && planned.memory.shortTerm == [PlanningNote(|tasks|)];
    assert ReplyAt(replies, 0) == Response(None, [call]);
    ToolCallsContinue(cleared, memoryText, replies, 0, render, parse);
    assert ReplyAt(replies, 1) == Response(Some(content), []);
    ParsedReplyDecides(planned, memoryText, replies, 1, render, parse);
  }
}

=== FILE: agentia_schemas.dfy ===
/** The record types of `agentia/schemas.py` that the resolution loop consumes: the object shape
    with hidden `mechanics` and `internal_state`, plan tasks, the finalising `InteractionResult`
    and the four staged world-effect models. Location, the simulated-agent actions and
    `AgentDecision` are the same classes as in `schemas.py` and are reused from `Schemas`. */
module AgentiaSchemas {
  import opened Values
  import opened Schemas

  /** An object with its hidden parts: free-form `mechanics` text and the `internal_state` dict,
      both meant for the resolution loop only. */
  datatype WorldObject = HiddenObject(
    id: string,
    name: string,
    locationId: string,
    description: string,
    state: string,
    mechanics: string,
    internalState: map<string, Value>)

  /** `WorldObject(**kw)`: state defaults to "normal", mechanics to "" and internal_state to {}. */
  function WorldObjectFromKwargs(kw: Kwargs): (r: Option<WorldObject>)
    ensures r.Some? <==>
      && RequiredStr(kw, "id").Some? && RequiredStr(kw, "name").Some?
      && RequiredStr(kw, "location_id").Some? && RequiredStr(kw, "description").Some?
      && StrOr(kw, "state", "normal").Some? && StrOr(kw, "mechanics", "").Some?
      && DictOr(kw, "internal_state").Some?
    ensures r.Some? ==> (
      && Str(r.value.id) == kw["id"] && Str(r.value.locationId) == kw["location_id"]
      && ("state" !in kw ==> r.value.state == "normal")
      && ("mechanics" !in kw ==> r.value.mechanics == "")
      && ("internal_state" !in kw ==> r.value.internalState == map[]))
  {
    var id :- RequiredStr(kw, "id");
    var name :- RequiredStr(kw, "name");
    var loc :- RequiredStr(kw, "location_id");
    var description :- RequiredStr(kw, "description");
    var state :- StrOr(kw, "state", "normal");
    var mechanics :- StrOr(kw, "mechanics", "");
    var internal :- DictOr(kw, "internal_state");
    Some(HiddenObject(id, name, loc, description, state, mechanics, internal))
  }

  // ---------------------------------------------------------------------------
  // Plans
  // ---------------------------------------------------------------------------

  datatype TaskStatus = Pending | InProgress | Completed | Failed

  datatype Task = Task(id: string, description: string, status: TaskStatus)

  /** The JSON literal of a status. */
  function StatusName(s: TaskStatus): string {
    match s
    case Pending => "pending"
    case InProgress => "in_progress"
    case Completed => "completed"
    case Failed => "failed"
  }

  /** The status field accepts exactly the four literals. */
  function StatusFromValue(v: Value): (r: Option<TaskStatus>)
    ensures r.Some? <==> exists s :: v == Str(StatusName(s))
    ensures r.Some? ==> v == Str(StatusName(r.value))
  {
    assert v == Str("pending") ==> v == Str(StatusName(Pending));
    assert v == Str("in_progress") ==> v == Str(StatusName(InProgress));
    assert v == Str("completed") ==> v == Str(StatusName(Completed));
    assert v == Str("failed") ==> v == Str(StatusName(Failed));
    match v
    case Str("pending") => Some(Pending)
    case Str("in_progress") => Some(InProgress)
    case Str("completed") => Some(Completed)
    case Str("failed") => Some(Failed)
    case _ => None
  }

  /** `Task(**kw)`: status is one of the four literals and defaults to "pending". */
  function TaskFromValue(v: Value): (r: Option<Task>)
    ensures r.Some? <==>
      && v.Obj? && RequiredStr(v.fields, "id").Some? && RequiredStr(v.fields, "description").Some?
      && ("status" !in v.fields || StatusFromValue(v.fields["status"]).Some?)
    ensures r.Some? ==> (
      && Str(r.value.id) == v.fields["id"] && Str(r.value.description) == v.fields["description"]
      && ("status" in v.fields ==> v.fields["status"] == Str(StatusName(r.value.status)))
      && ("status" !in v.fields ==> r.value.status == Pending))
  {
    if !v.Obj? then None
    else
      var kw := v.fields;
      var id :- RequiredStr(kw, "id");
      var description :- RequiredStr(kw, "description");
      var status :- if "status" in kw then StatusFromValue(kw["status"]) else Some(Pending);
      Some(Task(id, description, status))
  }

  /** Validating every element of a list as a task; fails when any element fails. */
  function TasksFromValues(vs: seq<Value>): (r: Option<seq<Task>>)
    ensures r.Some? ==> |r.value| == |vs|
    ensures r.Some? <==> forall k :: 0 <= k < |vs| ==> TaskFromValue(vs[k]).Some?
    ensures r.Some? ==> forall k :: 0 <= k < |vs| ==> Some(r.value[k]) == TaskFromValue(vs[k])
  {
    if |vs| == 0 then Some([])
    else
      var rest := TasksFromValues(vs[1..]);
      match TaskFromValue(vs[0])
      case None => None
      case Some(t) =>
        match rest
        case None =>
          var k :| 1 <= k < |vs| && TaskFromValue(vs[k]).None?;
          assert TaskFromValue(vs[1..][k - 1]).None?;
          None
        case Some(ts) => Some([t] + ts)
  }

  /** `Plan(**args)` from the parsed tool-call arguments: `args` must be a dict (otherwise the
      `**` unpacking raises) holding a `tasks` list of valid tasks. */
  function PlanFromArgs(args: Value): (r: Option<seq<Task>>)
    ensures r.Some? <==> (args.Obj? && "tasks" in args.fields && args.fields["tasks"].Arr?
      && forall k :: 0 <= k < |args.fields["tasks"].items| ==> TaskFromValue(args.fields["tasks"].items[k]).Some?)
    ensures r.Some? ==> (|r.value| == |args.fields["tasks"].items|
      && forall k :: 0 <= k < |r.value| ==> Some(r.value[k]) == TaskFromValue(args.fields["tasks"].items[k]))
  {
    if !args.Obj? || "tasks" !in args.fields || !args.fields["tasks"].Arr? then None
    else TasksFromValues(args.fields["tasks"].items)
  }

  /** `Task.model_dump()`: the task as a JSON object. */
  function DumpTask(t: Task): (v: Value)
    ensures v.Obj? && v.fields.Keys == {"id", "description", "status"}
  {
    Obj(map["id" := Str(t.id), "description" := Str(t.description), "status" := Str(StatusName(t.status))])
  }

  /** A dumped task validates back to itself. */
  lemma TaskRoundTrip(t: Task)
    ensures TaskFromValue(DumpTask(t)) == Some(t)
  {
  }

  /** `Plan(tasks=ts).model_dump()`: the arguments of an `update_plan` call. */
  function DumpPlan(ts: seq<Task>): (v: Value)
    ensures v.Obj? && "tasks" in v.fields && v.fields["tasks"].Arr? && |v.fields["tasks"].items| == |ts|
  {
    Obj(map["tasks" := Arr(seq(|ts|, k requires 0 <= k < |ts| => DumpTask(ts[k])))])
  }

  /** A dumped plan validates back to the same tasks in the same order. */
  lemma PlanRoundTrip(ts: seq<Task>)
    ensures PlanFromArgs(DumpPlan(ts)) == Some(ts)
  {
    var items := DumpPlan(ts).fields["tasks"].items;
    forall k | 0 <= k < |items| ensures TaskFromValue(items[k]) == Some(ts[k]) {
      TaskRoundTrip(ts[k]);
    }
    var r := PlanFromArgs(DumpPlan(ts));
    assert r.Some?;
    assert |r.value| == |ts|;
    forall k | 0 <= k < |ts| ensures r.value[k] == ts[k] {
      assert Some(r.value[k]) == TaskFromValue(items[k]);
    }
    assert r.value == ts;
  }

  /** `AgentDecision.fallback(reasoning)`: a wait decision with reason "fallback". */
  function Fallback(reasoning: string): (d: AgentDecision)
    ensures d.actionType == WaitType && d.reasoning == reasoning
    ensures GetValidatedAction(d) == Some(Wait("fallback"))
  {
    AgentDecision(reasoning, WaitType, Typed(Wait("fallback")))
  }

  // ---------------------------------------------------------------------------
  // Resolution-loop models
  // ---------------------------------------------------------------------------

  /** The finalising outcome: a narrative, a duration in minutes and an optional task label. */
  datatype InteractionResult = InteractionResult(message: string, duration: int, taskDescription: Option<string>)

  /** `InteractionResult.model_validate(args)`: message required, duration defaults to 0 and
      task_description to None; anything but a dict fails. */
  function InteractionResultFromValue(v: Value): (r: Option<InteractionResult>)
    ensures r.Some? <==>
      && v.Obj? && RequiredStr(v.fields, "message").Some?
      && IntOr(v.fields, "duration", 0).Some? && NullableStr(v.fields, "task_description").Some?
    ensures r.Some? ==> (
      && Str(r.value.message) == v.fields["message"]
      && ("duration" !in v.fields ==> r.value.duration == 0)
      && ("task_description" !in v.fields ==> r.value.taskDescription == None))
  {
    if !v.Obj? then None
    else
      var message :- RequiredStr(v.fields, "message");
      var duration :- IntOr(v.fields, "duration", 0);
      var task :- NullableStr(v.fields, "task_description");
      Some(InteractionResult(message, duration, task))
  }

  /** `UpdateObject`: only `object_id` is required; a `None` field means "not updated". */
  datatype UpdateObject = UpdateObject(
    objectId: string,
    state: Option<string>,
    description: Option<string>,
    internalState: Option<map<string, Value>>)

  function UpdateObjectFromKwargs(kw: Kwargs): (r: Option<UpdateObject>)
    ensures r.Some? <==>
      && RequiredStr(kw, "object_id").Some? && NullableStr(kw, "state").Some?
      && NullableStr(kw, "description").Some? && NullableDict(kw, "internal_state").Some?
    ensures r.Some? ==> (
      && Str(r.value.objectId) == kw["object_id"]
      && ("state" !in kw ==> r.value.state == None)
      && ("description" !in kw ==> r.value.description == None)
      && ("internal_state" !in kw ==> r.value.internalState == None))
  {
    var oid :- RequiredStr(kw, "object_id");
    var state :- NullableStr(kw, "state");
    var description :- NullableStr(kw, "description");
    var internal :- NullableDict(kw, "internal_state");
    Some(UpdateObject(oid, state, description, internal))
  }

  /** The update the `UpdateObject` docstring and field descriptions describe: only provided
      fields change, and a provided `internal_state` is merged key by key into the hidden state
      rather than replacing it. No function in the repository applies an `UpdateObject` (the
      world's replay ignores the effect), so this states the described merge, not executed code. */
  function ApplyUpdate(obj: WorldObject, u: UpdateObject): (r: WorldObject)
    ensures r.id == obj.id && r.name == obj.name && r.locationId == obj.locationId
    ensures r.mechanics == obj.mechanics
    ensures r.state == u.state.GetOr(obj.state)
    ensures r.description == u.description.GetOr(obj.description)
    ensures u.internalState.None? ==> r.internalState == obj.internalState
    ensures u.internalState.Some? ==> r.internalState.Keys == obj.internalState.Keys + u.internalState.value.Keys
    ensures u.internalState.Some? ==> forall k :: k in u.internalState.value ==> r.internalState[k] == u.internalState.value[k]
    ensures forall k :: k in obj.internalState && (u.internalState.None? || k !in u.internalState.value) ==>
      k in r.internalState && r.internalState[k] == obj.internalState[k]
  {
    obj.(state := u.state.GetOr(obj.state),
         description := u.description.GetOr(obj.description),
         internalState := if u.internalState.Some? then obj.internalState + u.internalState.value else obj.internalState)
  }

  /** Applying the same update twice is the same as applying it once. */
  lemma ApplyUpdateIdempotent(obj: WorldObject, u: UpdateObject)
    ensures ApplyUpdate(ApplyUpdate(obj, u), u) == ApplyUpdate(obj, u)
  {
  }

  /** `CreateObject`: state defaults to "normal", description and mechanics to "", internal_state to {}. */
  datatype CreateObject = CreateObject(
    objectId: string,
    name: string,
    locationId: string,
    state: string,
    description: string,
    mechanics: string,
    internalState: map<string, Value>)

  function CreateObjectFromKwargs(kw: Kwargs): (r: Option<CreateObject>)
    ensures r.Some? <==>
      && RequiredStr(kw, "object_id").Some? && RequiredStr(kw, "name").Some?
      && RequiredStr(kw, "location_id").Some?
      && StrOr(kw, "state", "normal").Some? && StrOr(kw, "description", "").Some?
      && StrOr(kw, "mechanics", "").Some? && DictOr(kw, "internal_state").Some?
    ensures r.Some? ==> (
      && Str(r.value.objectId) == kw["object_id"] && Str(r.value.locationId) == kw["location_id"]
      && ("state" !in kw ==> r.value.state == "normal")
      && ("description" !in kw ==> r.value.description == "")
      && ("mechanics" !in kw ==> r.value.mechanics == "")
      && ("internal_state" !in kw ==> r.value.internalState == map[]))
  {
    var oid :- RequiredStr(kw, "object_id");
    var name :- RequiredStr(kw, "name");
    var loc :- RequiredStr(kw, "location_id");
    var state :- StrOr(kw, "state", "normal");
    var description :- StrOr(kw, "description", "");
    var mechanics :- StrOr(kw, "mechanics", "");
    var internal :- DictOr(kw, "internal_state");
    Some(CreateObject(oid, name, loc, state, description, mechanics, internal))
  }

  /** `DestroyObject`: only the object id. */
  datatype DestroyObject = DestroyObject(objectId: string)

  function DestroyObjectFromKwargs(kw: Kwargs): (r: Option<DestroyObject>)
    ensures r.Some? <==> RequiredStr(kw, "object_id").Some?
    ensures r.Some? ==> Str(r.value.objectId) == kw["object_id"]
  {
    var oid :- RequiredStr(kw, "object_id");
    Some(DestroyObject(oid))
  }

  /** `TransferObject`: object, source and destination ids, all three required. */
  datatype TransferObject = TransferObject(objectId: string, fromId: string, toId: string)

  function TransferObjectFromKwargs(kw: Kwargs): (r: Option<TransferObject>)
    ensures r.Some? <==>
      RequiredStr(kw, "object_id").Some? && RequiredStr(kw, "from_id").Some? && RequiredStr(kw, "to_id").Some?
    ensures r.Some? ==> Str(r.value.fromId) == kw["from_id"] && Str(r.value.toId) == kw["to_id"]
  {
    var oid :- RequiredStr(kw, "object_id");
    var fromId :- RequiredStr(kw, "from_id");
    var toId :- RequiredStr(kw, "to_id");
    Some(TransferObject(oid, fromId, toId))
  }

  function DumpTransferObject(t: TransferObject): Kwargs {
    map["object_id" := Str(t.objectId), "from_id" := Str(t.fromId), "to_id" := Str(t.toId)]
  }

  function DumpCreateObject(c: CreateObject): Kwargs {
    map["object_id" := Str(c.objectId), "name" := Str(c.name), "location_id" := Str(c.locationId),
        "state" := Str(c.state), "description" := Str(c.description), "mechanics" := Str(c.mechanics),
        "internal_state" := Obj(c.internalState)]
  }

  function DumpInteractionResult(r: InteractionResult): Value {
    Obj(map["message" := Str(r.message), "duration" := Int(r.duration),
            "task_description" := OptStr(r.taskDescription)])
  }

  /** Dumping and re-validating each staged-effect model and the outcome gives the value back. */
  lemma AgentiaRoundTrips(t: TransferObject, c: CreateObject, r: InteractionResult)
    ensures TransferObjectFromKwargs(DumpTransferObject(t)) == Some(t)
    ensures CreateObjectFromKwargs(DumpCreateObject(c)) == Some(c)
    ensures InteractionResultFromValue(DumpInteractionResult(r)) == Some(r)
  {
    CreateObjectRoundTrip(c);
    InteractionResultRoundTrip(r);
  }

  lemma CreateObjectRoundTrip(c: CreateObject)
    ensures CreateObjectFromKwargs(DumpCreateObject(c)) == Some(c)
  {
  }

  lemma InteractionResultRoundTrip(r: InteractionResult)
    ensures InteractionResultFromValue(DumpInteractionResult(r)) == Some(r)
  {
  }
}

=== FILE: env_agent.dfy ===
/** `EnvironmentAgent` of `env_agent.py`, the resolver `World.process_action` uses for
    interactions. One call to the reasoning service returns a JSON decision: a list of typed
    actions. The resolver folds over the list, keeping the last result, the last lock and every
    world-changing action in order; then it either locks an agent with the changes converted to
    deferred effects, or applies the changes at once.

    The service is not modelled: its reply is an input, already split into "no reply", "text that
    validates as an `EnvAgentDecision`" and "text that does not". */
module EnvAgent {
  import opened Values
  import opened Seqs
  import opened Text
  import opened Schemas
  import opened World

  /** The result dictionary: `success`, `message` and `reasoning` (None when absent or null). */
  datatype ActionResult = ActionResult(success: bool, message: string, reasoning: Option<string>)

  /** The answer for a missing or empty reply. */
  const NoEffect := ActionResult(false, "The action had no effect.", None)

  /** The result the fold starts from; it survives when the decision holds no result action. */
  const ParsingFailed := ActionResult(false, "Parsing failed", None)

  /** The prefix of the answer when the reply does not validate. */
  const CompletedPrefix := "Action completed. "

  /** The reply of the JSON-mode call: nothing, or text together with the outcome of validating
      the stripped text as an `EnvAgentDecision` (`None` for a JSON or validation error). */
  datatype EnvReply = NoReply | Reply(content: string, decision: Option<EnvAgentDecision>)

  /** Actions that change the world and are therefore collected: all but results and locks. */
  predicate IsStaged(a: EnvAction) {
    !a.ResultAction? && !a.LockAgentAction?
  }

  /** What the loop over `decision.decisions` leaves behind. */
  datatype Collected = Collected(result: ActionResult, lock: Option<EnvAction>, staged: seq<EnvAction>)

  /** The loop over the decision list, in list order: a result action overwrites the result, a
      lock action replaces the remembered lock, any other action is appended to the staged list. */
  function Collect(ds: seq<EnvAction>): (c: Collected)
    ensures c.lock.Some? ==> c.lock.value.LockAgentAction? && c.lock.value in ds
    ensures forall k :: 0 <= k < |c.staged| ==> IsStaged(c.staged[k])
    decreases |ds|
  {
    if |ds| == 0 then Collected(ParsingFailed, None, [])
    else
      var c := Collect(ds[..|ds| - 1]);
      var a := ds[|ds| - 1];
      match a
      case ResultAction(success, message, reasoning) => c.(result := ActionResult(success, message, Some(reasoning)))
      case LockAgentAction(_, _, _, _) => c.(lock := Some(a))
      case _ => c.(staged := c.staged + [a])
  }

  /** Reference definition of the staged list: the world-changing actions of the decision list,
      in order. */
  function StagedOf(ds: seq<EnvAction>): seq<EnvAction>
    decreases |ds|
  {
    if |ds| == 0 then [] else (if IsStaged(ds[0]) then [ds[0]] else []) + StagedOf(ds[1..])
  }

  lemma {:induction false} StagedOfSnoc(ds: seq<EnvAction>, a: EnvAction)
    ensures StagedOf(ds + [a]) == StagedOf(ds) + if IsStaged(a) then [a] else []
    decreases |ds|
  {
    if |ds| == 0 {
      assert ds + [a] == [a];
      assert StagedOf([a]) == (if IsStaged(a) then [a] else []) + StagedOf([]);
    } else {
      assert (ds + [a])[0] == ds[0];
      assert (ds + [a])[1..] == ds[1..] + [a];
      StagedOfSnoc(ds[1..], a);
    }
  }

  /** The staged list is exactly the world-changing actions of the decision list, in order. */
  lemma {:induction false} CollectStaged(ds: seq<EnvAction>)
    ensures Collect(ds).staged == StagedOf(ds)
    decreases |ds|
  {
    if |ds| > 0 {
      var init := ds[..|ds| - 1];
      CollectStaged(init);
      StagedOfSnoc(init, ds[|ds| - 1]);
      assert init + [ds[|ds| - 1]] == ds;
    }
  }

  /** The result comes from the last result action of the list. */
  lemma {:induction false} CollectResultIsLast(ds: seq<EnvAction>, i: nat)
    requires i < |ds| && ds[i].ResultAction?
    requires forall j :: i < j < |ds| ==> !ds[j].ResultAction?
    ensures Collect(ds).result == ActionResult(ds[i].success, ds[i].message, Some(ds[i].reasoning))
    decreases |ds|
  {
    if i < |ds| - 1 {
      CollectResultIsLast(ds[..|ds| - 1], i);
    }
  }

  /** Without a result action the result stays "Parsing failed" with success False. */
  lemma {:induction false} CollectNoResult(ds: seq<EnvAction>)
    requires forall j :: 0 <= j < |ds| ==> !ds[j].ResultAction?
    ensures Collect(ds).result == ParsingFailed
    decreases |ds|
  {
    if |ds| > 0 {
      CollectNoResult(ds[..|ds| - 1]);
    }
  }

  /** The remembered lock is the last lock action of the list. */
  lemma {:induction false} CollectLockIsLast(ds: seq<EnvAction>, i: nat)
    requires i < |ds| && ds[i].LockAgentAction?
    requires forall j :: i < j < |ds| ==> !ds[j].LockAgentAction?
    ensures Collect(ds).lock == Some(ds[i])
    decreases |ds|
  {
    if i < |ds| - 1 {
      CollectLockIsLast(ds[..|ds| - 1], i);
    }
  }

  /** There is a remembered lock exactly when the list holds a lock action. */
  lemma {:induction false} CollectLockPresent(ds: seq<EnvAction>)
    ensures Collect(ds).lock.Some? <==> exists j :: 0 <= j < |ds| && ds[j].LockAgentAction?
    decreases |ds|
  {
    if |ds| > 0 {
      var init := ds[..|ds| - 1];
      CollectLockPresent(init);
      if Collect(init).lock.Some? {
        var j :| 0 <= j < |init| && init[j].LockAgentAction?;
        assert ds[j] == init[j];
      }
      if !ds[|ds| - 1].LockAgentAction? && exists j :: 0 <= j < |ds| && ds[j].LockAgentAction? {
        var j :| 0 <= j < |ds| && ds[j].LockAgentAction?;
        assert init[j] == ds[j];
      }
    }
  }

  // ---------------------------------------------------------------------------
  // Deferred effects
  // ---------------------------------------------------------------------------

  /** `type_map.get(action_type, action_type)` in `_action_to_effect_dict`. */
  function EffectKind(tag: string): (kind: string)
    ensures tag !in {"modify_state", "create_object", "destroy_object", "transfer_object"} ==> kind == tag
  {
    match tag
    case "modify_state" => "ModifyObjectState"
    case "create_object" => "CreateObject"
    case "destroy_object" => "DestroyObject"
    case "transfer_object" => "TransferObject"
    case _ => tag
  }

  /** `_action_to_effect_dict`: the replay tag for the action and its dump without `action`. */
  function ActionToEffect(a: EnvAction): (e: Effect)
    ensures "action" !in e.args
    ensures e.kind in {"CreateObject", "DestroyObject", "TransferObject", "ModifyObjectState"} <==>
      a.ModifyStateAction? || a.CreateObjectAction? || a.DestroyObjectAction? || a.TransferObjectAction?
  {
    Effect(EffectKind(Tag(a)), Dump(a) - {"action"})
  }

  /** A deferred effect loses nothing: validating its arguments as the model its tag names gives
      the staged action back. */
  lemma ActionToEffectKeepsAction(a: EnvAction)
    ensures EnvActionFromKwargs(Tag(a), ActionToEffect(a).args) == Some(a)
  {
    EnvActionRoundTrip(a);
  }

  /** The list of deferred effects handed to `set_agent_lock`. */
  function Effects(staged: seq<EnvAction>): (es: seq<Effect>)
    ensures |es| == |staged|
    ensures forall k :: 0 <= k < |staged| ==> es[k] == ActionToEffect(staged[k])
  {
    seq(|staged|, k requires 0 <= k < |staged| => ActionToEffect(staged[k]))
  }

  // ---------------------------------------------------------------------------
  // Immediate execution
  // ---------------------------------------------------------------------------

  /** `obj.state = new_state` for a known object; nothing for an unknown one. */
  function SetState(w: WorldState, oid: string, newState: string): (r: WorldState)
    ensures oid !in w.objects ==> r == w
    ensures oid in w.objects ==> r.objects == w.objects[oid := w.objects[oid].(state := newState)]
    ensures r.locations == w.locations && SameClockAndLedger(r, w)
  {
    if oid in w.objects then w.(objects := w.objects[oid := w.objects[oid].(state := newState)]) else w
  }

  /** `_execute_action`: a staged action applied to the world at once. A broadcast goes to every
      agent present, the actor included (no exclusion). */
  function ExecuteAction(w: WorldState, a: EnvAction): (r: WorldState)
    ensures a.ModifyStateAction? && a.objectId !in w.objects ==> r == w
    ensures a.ModifyStateAction? && a.objectId in w.objects ==>
      a.objectId in r.objects && r.objects[a.objectId] == w.objects[a.objectId].(state := a.newState)
    ensures a.BroadcastAction? ==> r.(pendingEvents := map[]) == w.(pendingEvents := map[])
    ensures !a.BroadcastAction? ==> SameClockAndLedger(r, w)
    ensures r.simTime == w.simTime && r.agentLocks == w.agentLocks
  {
    match a
    case ModifyStateAction(oid, newState) => SetState(w, oid, newState)
    case BroadcastAction(lid, message) => Broadcast(w, Some(lid), message, None)
    case CreateObjectAction(oid, name, lid, state, description, properties) =>
      CreateObject(w, oid, name, lid, state, description, properties).world
    case DestroyObjectAction(oid, _) => DestroyObject(w, oid).world
    case TransferObjectAction(oid, fromLoc, toLoc, fromAgent, toAgent) =>
      TransferObject(w, oid, fromLoc, toLoc, fromAgent, toAgent).world
    case _ => w
  }

  /** An immediate broadcast reaches every listed agent, the actor included, once per listing. */
  lemma ImmediateBroadcastReachesAll(w: WorldState, lid: string, message: string, a: string)
    ensures Pending(ExecuteAction(w, BroadcastAction(lid, message)).pendingEvents, a) ==
      Pending(w.pendingEvents, a) + Repeat(message, Count(PeopleAt(w, lid), a))
  {
    BroadcastDelivers(w, Some(lid), message, None, a);
  }

  /** The loop `for action_type, action in pending_effects: self._execute_action(...)`. */
  function ExecuteAll(w: WorldState, staged: seq<EnvAction>): (r: WorldState)
    ensures r.simTime == w.simTime && r.agentLocks == w.agentLocks
    decreases |staged|
  {
    if |staged| == 0 then w else ExecuteAll(ExecuteAction(w, staged[0]), staged[1..])
  }

  /** Dropping a `Some("")` endpoint changes nothing: `transfer_object` reads endpoints only for
      truthiness and then uses the truthy ones. */
  function Truthful(o: Option<string>): (r: Option<string>)
    ensures Present(r) <==> Present(o)
    ensures Present(o) ==> r == o
  {
    if Present(o) then o else None
  }

  lemma TransferReadsTruthiness(w: WorldState, oid: string, fromLoc: Option<string>, toLoc: Option<string>,
                                fromAgent: Option<string>, toAgent: Option<string>)
    ensures TransferObject(w, oid, fromLoc, toLoc, fromAgent, toAgent) ==
      TransferObject(w, oid, Truthful(fromLoc), Truthful(toLoc), Truthful(fromAgent), Truthful(toAgent))
  {
  }

  /** Replaying a converted create has the effect of creating at once. */
  lemma ReplayCreateMatches(w: WorldState, a: EnvAction)
    requires a.CreateObjectAction?
    ensures ReplayEffect(w, ActionToEffect(a)) == Replay(ExecuteAction(w, a), None)
  {
    var args := ActionToEffect(a).args;
    StringsOfStrList(a.properties);
    assert Binds(args, CreateParams, {"object_id", "name", "location_id"});
    assert PropertiesArg(args) == Some(a.properties);
  }

  /** Replaying a converted transfer has the effect of transferring at once. */
  lemma ReplayTransferMatches(w: WorldState, a: EnvAction)
    requires a.TransferObjectAction?
    ensures ReplayEffect(w, ActionToEffect(a)) == Replay(ExecuteAction(w, a), None)
  {
    var args := ActionToEffect(a).args;
    var fl, tl, fa, ta := Truthful(a.fromLocation), Truthful(a.toLocation), Truthful(a.fromAgent), Truthful(a.toAgent);
    calc {
      ReplayEffect(w, ActionToEffect(a));
      ReplayTransfer(w, args);
      { TransferArgs(a); }
      Replay(TransferObject(w, a.objectId, fl, tl, fa, ta).world, None);
      { TransferReadsTruthiness(w, a.objectId, a.fromLocation, a.toLocation, a.fromAgent, a.toAgent); }
      Replay(TransferObject(w, a.objectId, a.fromLocation, a.toLocation, a.fromAgent, a.toAgent).world, None);
      Replay(ExecuteAction(w, a), None);
    }
  }

  /** The arguments of a converted transfer bind `transfer_object` and read back as the action's
      endpoints, an empty string reading as absent. */
  lemma TransferArgs(a: EnvAction)
    requires a.TransferObjectAction?
    ensures var args := ActionToEffect(a).args;
      && Binds(args, TransferParams, {"object_id"})
      && args["object_id"] == Str(a.objectId)
      && Endpoint(Get(args, "from_location")) == Some(Truthful(a.fromLocation))
      && Endpoint(Get(args, "to_location")) == Some(Truthful(a.toLocation))
      && Endpoint(Get(args, "from_agent")) == Some(Truthful(a.fromAgent))
      && Endpoint(Get(args, "to_agent")) == Some(Truthful(a.toAgent))
  {
  }

  /** Replaying a converted action at lock expiry does what executing it at once would have done,
      except for a broadcast: its effect type "broadcast" is not one the replay handles, so a
      deferred broadcast is dropped. */
  lemma ReplayMatchesExecute(w: WorldState, a: EnvAction)
    requires IsStaged(a)
    ensures ReplayEffect(w, ActionToEffect(a)) == Replay(if a.BroadcastAction? then w else ExecuteAction(w, a), None)
  {
    if a.CreateObjectAction? {
      ReplayCreateMatches(w, a);
    } else if a.TransferObjectAction? {
      ReplayTransferMatches(w, a);
    }
  }

  /** The staged actions other than broadcasts, in order. */
  function WithoutBroadcasts(staged: seq<EnvAction>): (r: seq<EnvAction>)
    ensures |r| <= |staged|
    ensures forall k :: 0 <= k < |r| ==> !r[k].BroadcastAction? && r[k] in staged
    decreases |staged|
  {
    if |staged| == 0 then []
    else (if staged[0].BroadcastAction? then [] else [staged[0]]) + WithoutBroadcasts(staged[1..])
  }

  /** Deferring and replaying a staged list never raises and has the effect of executing the list
      at once with its broadcasts removed. */
  lemma {:induction false} DeferredMatchesImmediate(w: WorldState, staged: seq<EnvAction>)
    requires forall k :: 0 <= k < |staged| ==> IsStaged(staged[k])
    ensures ReplayEffects(w, Effects(staged)) == Replay(ExecuteAll(w, WithoutBroadcasts(staged)), None)
    decreases |staged|
  {
    if |staged| == 0 {
      assert Effects(staged) == [];
    } else {
      var a := staged[0];
      var es := Effects(staged);
      var w1 := if a.BroadcastAction? then w else ExecuteAction(w, a);
      calc {
        ReplayEffects(w, es);
        { ReplayMatchesExecute(w, a); assert es[0] == ActionToEffect(a); assert es[1..] == Effects(staged[1..]); }
        ReplayEffects(w1, Effects(staged[1..]));
        { DeferredMatchesImmediate(w1, staged[1..]); }
        Replay(ExecuteAll(w1, WithoutBroadcasts(staged[1..])), None);
        { ExecuteAllSkipsBroadcast(w, staged); }
        Replay(ExecuteAll(w, WithoutBroadcasts(staged)), None);
      }
    }
  }

  /** One step of executing the broadcast-free list: a leading broadcast is skipped, any other
      leading action is executed first. */
  lemma ExecuteAllSkipsBroadcast(w: WorldState, staged: seq<EnvAction>)
    requires |staged| > 0
    ensures ExecuteAll(w, WithoutBroadcasts(staged)) ==
      ExecuteAll(if staged[0].BroadcastAction? then w else ExecuteAction(w, staged[0]), WithoutBroadcasts(staged[1..]))
  {
    var a := staged[0];
    var rest := WithoutBroadcasts(staged[1..]);
    if !a.BroadcastAction? {
      assert WithoutBroadcasts(staged) == [a] + rest;
      assert ([a] + rest)[0] == a && ([a] + rest)[1..] == rest;
    } else {
      assert WithoutBroadcasts(staged) == [] + rest == rest;
    }
  }

  // ---------------------------------------------------------------------------
  // resolve_interaction
  // ---------------------------------------------------------------------------

  /** The world after the call and the result dictionary it returns. */
  datatype Resolution = Resolution(world: WorldState, result: ActionResult)

  /** `EnvironmentAgent.resolve_interaction`. */
  function ResolveInteraction(w: WorldState, reply: EnvReply): (r: Resolution)
    ensures reply.NoReply? || reply.content == "" ==> r == Resolution(w, NoEffect)
    ensures reply.Reply? && reply.content != "" && reply.decision.None? ==>
      && r.world == w && r.result.success
      && CompletedPrefix <= r.result.message && |r.result.message| <= |CompletedPrefix| + 100
    ensures reply.Reply? && reply.content != "" && reply.decision.Some? ==>
      r.result == Collect(reply.decision.value.decisions).result
  {
    match reply
    case NoReply => Resolution(w, NoEffect)
    case Reply(content, decision) =>
      if content == "" then Resolution(w, NoEffect)
      else
        match decision
        case None => Resolution(w, ActionResult(true, CompletedPrefix + Take(Strip(content), 100), None))
        case Some(d) =>
          var c := Collect(d.decisions);
          match c.lock
          case Some(lock) =>
            Resolution(SetAgentLock(w, lock.agentName, lock.durationMinutes, lock.reason,
                                    Some(lock.completionMessage), Effects(c.staged)), c.result)
          case None => Resolution(ExecuteAll(w, c.staged), c.result)
  }

  /** An unparseable reply reports success with its first hundred stripped characters. */
  lemma ParseFailureQuotesReply(w: WorldState, content: string)
    requires content != ""
    ensures var r := ResolveInteraction(w, Reply(content, None));
      r.result.message[|CompletedPrefix|..] <= Strip(content)
      && |r.result.message| == |CompletedPrefix| + if |Strip(content)| <= 100 then |Strip(content)| else 100
  {
  }

  /** With a lock action anywhere in the list, nothing is applied now: only the ledger changes,
      and the last lock action's agent is locked for its duration and reason with every staged
      action deferred, in order. */
  lemma LockDefersEverything(w: WorldState, content: string, d: EnvAgentDecision, i: nat)
    requires content != ""
    requires i < |d.decisions| && d.decisions[i].LockAgentAction?
    requires forall j :: i < j < |d.decisions| ==> !d.decisions[j].LockAgentAction?
    ensures var r := ResolveInteraction(w, Reply(content, Some(d))).world;
      var lock := d.decisions[i];
      && r.(agentLocks := map[]) == w.(agentLocks := map[])
      && lock.agentName in r.agentLocks
      && r.agentLocks[lock.agentName].untilTime == w.simTime + lock.durationMinutes
      && r.agentLocks[lock.agentName].reason == lock.reason
      && r.agentLocks[lock.agentName].completionMessage == CompletionOrDefault(Some(lock.completionMessage), lock.reason)
      && r.agentLocks[lock.agentName].pendingEffects == Effects(StagedOf(d.decisions))
  {
    CollectLockIsLast(d.decisions, i);
    CollectStaged(d.decisions);
  }

  /** With no lock action, the staged actions are applied at once, in list order, and no lock is
      set. */
  lemma NoLockExecutesNow(w: WorldState, content: string, d: EnvAgentDecision)
    requires content != ""
    requires forall j :: 0 <= j < |d.decisions| ==> !d.decisions[j].LockAgentAction?
    ensures ResolveInteraction(w, Reply(content, Some(d))).world == ExecuteAll(w, StagedOf(d.decisions))
  {
    CollectLockPresent(d.decisions);
    CollectStaged(d.decisions);
  }

  /** A lock of no positive duration on an agent is due at once: checking it replays the deferred
      effects, which does what applying the staged actions immediately would have done with the
      broadcasts left out, and removes the lock. */
  lemma ZeroDurationLockReplaysAtOnce(w: WorldState, agent: string, minutes: int, reason: string,
                                      completion: Option<string>, staged: seq<EnvAction>)
    requires minutes <= 0
    requires forall k :: 0 <= k < |staged| ==> IsStaged(staged[k])
    ensures var w1 := SetAgentLock(w, agent, minutes, reason, completion, Effects(staged));
      var c := CheckAgentLock(w1, agent);
      && c.status == Some(Expired(CompletionOrDefault(completion, reason)))
      && c.world == ExecuteAll(w1, WithoutBroadcasts(staged)).(agentLocks := w.agentLocks - {agent})
  {
    var w1 := SetAgentLock(w, agent, minutes, reason, completion, Effects(staged));
    var lock := w1.agentLocks[agent];
    DueLockReplaysStaged(w1, agent, staged);
    assert w1.agentLocks == w.agentLocks[agent := lock];
    RemoveUpdated(w.agentLocks, agent, lock);
  }

  /** Checking a due lock whose effects were converted from staged actions applies those actions,
      broadcasts left out, removes the lock and reports its completion message. */
  lemma DueLockReplaysStaged(v: WorldState, agent: string, staged: seq<EnvAction>)
    requires agent in v.agentLocks && v.simTime >= v.agentLocks[agent].untilTime
    requires v.agentLocks[agent].pendingEffects == Effects(staged)
    requires forall k :: 0 <= k < |staged| ==> IsStaged(staged[k])
    ensures CheckAgentLock(v, agent) ==
      LockCheck(ExecuteAll(v, WithoutBroadcasts(staged)).(agentLocks := v.agentLocks - {agent}),
                Some(Expired(v.agentLocks[agent].completionMessage)))
  {
    DeferredMatchesImmediate(v, staged);
  }

  lemma RemoveUpdated<K, V>(m: map<K, V>, k: K, v: V)
    ensures m[k := v] - {k} == m - {k}
  {
  }
}

=== FILE: memory.dfy ===
/** The helpers both agent classes (`agent.py` and `agentia/agent.py`) share word for word:
    `AgentMemory` with its two methods, the memory summary `decide` builds, the stripping of a
    Markdown code fence around a reply, and `update_state`. */
module Memory {
  import opened Values
  import opened Text

  /** One `{"role": ..., "content": ...}` entry of the chat history. */
  datatype ChatEntry = ChatEntry(role: string, content: string)

  datatype AgentMemory = AgentMemory(shortTerm: seq<string>, longTermSummary: string, chatHistory: seq<ChatEntry>)

  /** `AgentMemory()`: every field at its default. */
  const EmptyMemory := AgentMemory([], "", [])

  /** No entry spans several lines. */
  predicate SingleLines(xs: seq<string>) {
    forall k :: 0 <= k < |xs| ==> '\n' !in xs[k]
  }

  // ---------------------------------------------------------------------------
  // AgentMemory
  // ---------------------------------------------------------------------------

  /** `xs[-limit:]` with Python's slice rules: a positive limit keeps the last `limit` entries
      (all of them when there are fewer), a zero limit keeps everything (`xs[0:]`), and a negative
      limit drops the first `-limit` entries. */
  function LastEntries(xs: seq<string>, limit: int): (r: seq<string>)
    ensures |r| <= |xs| && r == xs[|xs| - |r|..]
    ensures limit > 0 ==> |r| == if limit < |xs| then limit else |xs|
    ensures limit == 0 ==> r == xs
    ensures limit < 0 ==> |r| == if -limit < |xs| then |xs| + limit else 0
  {
    if limit > 0 then (if limit < |xs| then xs[|xs| - limit..] else xs)
    else if -limit < |xs| then xs[-limit..]
    else []
  }

  /** `AgentMemory.get_recent_memories(limit)`. */
  function GetRecentMemories(m: AgentMemory, limit: int): (r: string)
    ensures LastEntries(m.shortTerm, limit) == [] ==> r == ""
    ensures |LastEntries(m.shortTerm, limit)| == 1 ==> r == m.shortTerm[|m.shortTerm| - 1]
  {
    Join(LastEntries(m.shortTerm, limit), '\n')
  }

  /** With single-line entries the recent memories split back into exactly the kept entries. */
  lemma RecentMemoriesSplit(m: AgentMemory, limit: int)
    requires SingleLines(m.shortTerm) && LastEntries(m.shortTerm, limit) != []
    ensures Split(GetRecentMemories(m, limit), '\n') == LastEntries(m.shortTerm, limit)
  {
    var recent := LastEntries(m.shortTerm, limit);
    assert forall k :: 0 <= k < |recent| ==> recent[k] == m.shortTerm[|m.shortTerm| - |recent| + k];
    SplitJoin(recent, '\n');
  }

  /** The default `get_recent_memories()` (limit 5) after one more entry ends with that entry. */
  lemma RecentEndsWithNewest(m: AgentMemory, entry: string)
    requires SingleLines(m.shortTerm) && '\n' !in entry
    ensures var r := Split(GetRecentMemories(m.(shortTerm := m.shortTerm + [entry]), 5), '\n');
      |r| == (if |m.shortTerm| + 1 < 5 then |m.shortTerm| + 1 else 5) && r[|r| - 1] == entry
  {
    var xs := m.shortTerm + [entry];
    assert forall k :: 0 <= k < |xs| ==> '\n' !in xs[k];
    var recent := LastEntries(xs, 5);
    assert recent[|recent| - 1] == xs[|xs| - 1];
    RecentMemoriesSplit(m.(shortTerm := xs), 5);
  }

  /** `AgentMemory.add_message`: one entry at the end of the history and nothing else changed. */
  function AddMessage(m: AgentMemory, role: string, content: string): (r: AgentMemory)
    ensures |r.chatHistory| == |m.chatHistory| + 1 && r.chatHistory[..|m.chatHistory|] == m.chatHistory
    ensures r.chatHistory[|m.chatHistory|] == ChatEntry(role, content)
    ensures r.shortTerm == m.shortTerm && r.longTermSummary == m.longTermSummary
  {
    m.(chatHistory := m.chatHistory + [ChatEntry(role, content)])
  }

  /** A user message followed by the assistant's reply: the history grows by exactly those two
      entries, in that order. */
  lemma AddExchange(m: AgentMemory, user: string, assistant: string)
    ensures var r := AddMessage(AddMessage(m, "user", user), "assistant", assistant);
      && r.chatHistory == m.chatHistory + [ChatEntry("user", user), ChatEntry("assistant", assistant)]
      && r.shortTerm == m.shortTerm && r.longTermSummary == m.longTermSummary
  {
    var r := AddMessage(AddMessage(m, "user", user), "assistant", assistant);
    assert r.chatHistory == m.chatHistory + [ChatEntry("user", user)] + [ChatEntry("assistant", assistant)];
  }

  // ---------------------------------------------------------------------------
  // The memory summary of `decide`
  // ---------------------------------------------------------------------------

  /** `[m for m in own if m]`. */
  function NonEmpty(xs: seq<string>): (r: seq<string>)
    ensures |r| <= |xs|
    ensures forall k :: 0 <= k < |r| ==> r[k] != ""
    ensures forall x :: x != "" ==> multiset(r)[x] == multiset(xs)[x]
  {
    if |xs| == 0 then []
    else
      assert xs == [xs[0]] + xs[1..];
      (if xs[0] == "" then [] else [xs[0]]) + NonEmpty(xs[1..])
  }

  /** Dropping the empty memories keeps the order: filtering a concatenation filters each part
      in place. */
  lemma {:induction false} NonEmptyAppend(a: seq<string>, b: seq<string>)
    ensures NonEmpty(a + b) == NonEmpty(a) + NonEmpty(b)
    decreases |a|
  {
    if |a| == 0 {
      assert a + b == b;
    } else {
      var ab := a + b;
      assert ab[0] == a[0] && ab[1..] == a[1..] + b;
      NonEmptyAppend(a[1..], b);
      var head: seq<string> := if a[0] == "" then [] else [a[0]];
      assert NonEmpty(ab) == head + NonEmpty(a[1..] + b);
      assert NonEmpty(a) == head + NonEmpty(a[1..]);
    }
  }

  /** Appending a memory appends it to the summary exactly when it is not empty. */
  lemma NonEmptySnoc(xs: seq<string>, x: string)
    ensures NonEmpty(xs + [x]) == NonEmpty(xs) + (if x == "" then [] else [x])
  {
    NonEmptyAppend(xs, [x]);
  }

  /** The entries of the summary: the external events tagged "[Event] ", then the agent's own
      non-empty memories tagged "[Memory] ". */
  function MemoryEntries(events: seq<string>, own: seq<string>): (r: seq<string>)
    ensures |r| == |events| + |NonEmpty(own)|
    ensures forall k :: 0 <= k < |events| ==> r[k] == "[Event] " + events[k]
    ensures forall k :: 0 <= k < |NonEmpty(own)| ==> r[|events| + k] == "[Memory] " + NonEmpty(own)[k]
  {
    seq(|events|, k requires 0 <= k < |events| => "[Event] " + events[k])
      + seq(|NonEmpty(own)|, k requires 0 <= k < |NonEmpty(own)| => "[Memory] " + NonEmpty(own)[k])
  }

  /** The lines of the summary. */
  function SummaryLines(events: seq<string>, own: seq<string>): (r: seq<string>)
    ensures |r| == |MemoryEntries(events, own)|
    ensures forall k :: 0 <= k < |r| ==> r[k] == "- " + MemoryEntries(events, own)[k]
  {
    var entries := MemoryEntries(events, own);
    seq(|entries|, k requires 0 <= k < |entries| => "- " + entries[k])
  }

  /** The `memory` text of the prompt: one "- " line per entry, or "Nothing notable". */
  function MemoryString(events: seq<string>, own: seq<string>): (r: string)
    ensures r == "Nothing notable" <==> events == [] && NonEmpty(own) == []
  {
    var lines := SummaryLines(events, own);
    if lines == [] then "Nothing notable"
    else JoinStartsWithFirst(lines); Join(lines, '\n')
  }

  /** With single-line events and memories the summary splits into one tagged line per entry:
      the events first, then the non-empty memories, in order. */
  lemma MemoryStringLines(events: seq<string>, own: seq<string>)
    requires SingleLines(events) && SingleLines(own) && (events != [] || NonEmpty(own) != [])
    ensures Split(MemoryString(events, own), '\n') == SummaryLines(events, own)
  {
    var lines := SummaryLines(events, own);
    NewlineFreeEntries(events, own);
    forall k | 0 <= k < |lines| ensures '\n' !in lines[k] {
      assert lines[k] == "- " + MemoryEntries(events, own)[k];
    }
    SplitJoin(lines, '\n');
  }

  /** A join starts with its first non-empty part. */
  lemma JoinStartsWithFirst(parts: seq<string>)
    requires |parts| >= 1 && |parts[0]| >= 1
    ensures |Join(parts, '\n')| >= 1 && Join(parts, '\n')[0] == parts[0][0]
  {
  }

  /** Tagging newline-free texts gives newline-free entries. */
  lemma NewlineFreeEntries(events: seq<string>, own: seq<string>)
    requires SingleLines(events) && SingleLines(own)
    ensures SingleLines(MemoryEntries(events, own))
  {
    var kept := NonEmpty(own);
    assert SingleLines(kept) by {
      forall k | 0 <= k < |kept| ensures '\n' !in kept[k] {
        assert multiset(kept)[kept[k]] > 0;
        assert kept[k] in own;
      }
    }
    var r := MemoryEntries(events, own);
    forall k | 0 <= k < |r| ensures '\n' !in r[k] {
      if k < |events| {
        assert r[k] == "[Event] " + events[k];
      } else {
        assert r[k] == "[Memory] " + kept[k - |events|];
      }
    }
  }

  /** The summary shows an own memory exactly when it is not empty, as often as it occurs. */
  lemma SummaryKeepsNonEmpty(own: seq<string>, x: string)
    ensures x in NonEmpty(own) <==> x in own && x != ""
    ensures multiset(NonEmpty(own))[x] == if x == "" then 0 else multiset(own)[x]
  {
    if x == "" {
      assert x !in NonEmpty(own);
    }
    if x != "" {
      assert multiset(NonEmpty(own))[x] == multiset(own)[x];
    }
  }

  // ---------------------------------------------------------------------------
  // Replies wrapped in a code fence
  // ---------------------------------------------------------------------------

  /** A line that opens or closes a fence: `l.strip().startswith("```")`. */
  predicate IsFence(l: string) {
    StartsWith(Strip(l), "```")
  }

  /** `[l for l in lines if not drop(l)]`. */
  function KeepUnless(lines: seq<string>, drop: string -> bool): (r: seq<string>)
    ensures |r| <= |lines|
    ensures forall k :: 0 <= k < |r| ==> !drop(r[k]) && r[k] in lines
    ensures forall l {:trigger multiset(r)[l]} :: !drop(l) ==> multiset(r)[l] == multiset(lines)[l]
  {
    if |lines| == 0 then []
    else
      var rest := KeepUnless(lines[1..], drop);
      assert lines == [lines[0]] + lines[1..];
      KeepUnlessCons(lines[0], lines[1..], rest, drop);
      (if drop(lines[0]) then [] else [lines[0]]) + rest
  }

  /** The filter's contract carries over from the tail to the whole list. */
  lemma KeepUnlessCons(head: string, tail: seq<string>, rest: seq<string>, drop: string -> bool)
    requires |rest| <= |tail|
    requires forall k :: 0 <= k < |rest| ==> !drop(rest[k]) && rest[k] in tail
    requires forall l {:trigger multiset(rest)[l]} :: !drop(l) ==> multiset(rest)[l] == multiset(tail)[l]
    ensures var r := (if drop(head) then [] else [head]) + rest;
      && |r| <= |[head] + tail|
      && (forall k :: 0 <= k < |r| ==> !drop(r[k]) && r[k] in [head] + tail)
      && (forall l {:trigger multiset(r)[l]} :: !drop(l) ==> multiset(r)[l] == multiset([head] + tail)[l])
  {
    var r := (if drop(head) then [] else [head]) + rest;
    assert multiset([head] + tail) == multiset{head} + multiset(tail);
    forall k | 0 <= k < |r| ensures !drop(r[k]) && r[k] in [head] + tail {
      if !drop(head) && k == 0 {
        assert r[k] == head;
      } else {
        assert r[k] == rest[if drop(head) then k else k - 1];
      }
    }
  }

  /** The filter keeps the order of the lines: filtering a concatenation filters each part in
      place. */
  lemma {:induction false} KeepUnlessAppend(a: seq<string>, b: seq<string>, drop: string -> bool)
    ensures KeepUnless(a + b, drop) == KeepUnless(a, drop) + KeepUnless(b, drop)
    decreases |a|
  {
    if |a| == 0 {
      assert a + b == b;
    } else {
      assert (a + b)[0] == a[0] && (a + b)[1..] == a[1..] + b;
      KeepUnlessAppend(a[1..], b, drop);
    }
  }

  /** Appending a line appends it to the result exactly when it is kept. */
  lemma KeepUnlessSnoc(lines: seq<string>, l: string, drop: string -> bool)
    ensures KeepUnless(lines + [l], drop) == KeepUnless(lines, drop) + (if drop(l) then [] else [l])
  {
    KeepUnlessAppend(lines, [l], drop);
  }

  /** `[l for l in lines if not l.strip().startswith("```")]`. */
  function DropFenceLines(lines: seq<string>): (r: seq<string>)
    ensures forall k :: 0 <= k < |r| ==> !IsFence(r[k]) && r[k] in lines
    ensures forall l {:trigger multiset(r)[l]} :: !IsFence(l) ==> multiset(r)[l] == multiset(lines)[l]
  {
    KeepUnless(lines, IsFence)
  }

  /** The fence lines are dropped in place: the other lines keep their order. */
  lemma DropFenceLinesAppend(a: seq<string>, b: seq<string>)
    ensures DropFenceLines(a + b) == DropFenceLines(a) + DropFenceLines(b)
  {
    KeepUnlessAppend(a, b, IsFence);
  }

  /** Appending a line appends it to the unwrapped reply exactly when it is not a fence line. */
  lemma DropFenceLinesSnoc(lines: seq<string>, l: string)
    ensures DropFenceLines(lines + [l]) == DropFenceLines(lines) + (if IsFence(l) then [] else [l])
  {
    KeepUnlessSnoc(lines, l, IsFence);
  }

  /** The reply with surrounding whitespace removed and, when it opens with a fence, the first
      line and every fence line dropped. */
  function StripFences(content: string): (r: string)
    ensures !IsFence(content) ==> r == Strip(content)
  {
    var s := Strip(content);
    if StartsWith(s, "```") then Join(DropFenceLines(Split(s, '\n')[1..]), '\n') else s
  }

  /** An unwrapped reply holds no fence line, and each of its lines is a line of the reply. */
  lemma FencedReplyHasNoFenceLine(content: string)
    requires IsFence(content)
    ensures forall k :: 0 <= k < |Split(StripFences(content), '\n')| ==>
      var line := Split(StripFences(content), '\n')[k];
      !IsFence(line) && (line == "" || line in Split(Strip(content), '\n'))
  {
    var lines := Split(Strip(content), '\n');
    var kept := DropFenceLines(lines[1..]);
    if kept == [] {
      assert Split("", '\n') == [""];
      assert Strip("") == "";
    } else {
      assert forall k :: 0 <= k < |kept| ==> kept[k] in lines;
      SplitJoin(kept, '\n');
    }
  }

  /** A fenced reply comes back as its lines after the first with the fence lines dropped, the
      others kept in order, whenever at least one line is kept. */
  lemma FencedLinesKept(content: string)
    requires IsFence(content) && DropFenceLines(Split(Strip(content), '\n')[1..]) != []
    ensures Split(StripFences(content), '\n') == DropFenceLines(Split(Strip(content), '\n')[1..])
  {
    var kept := DropFenceLines(Split(Strip(content), '\n')[1..]);
    assert forall k :: 0 <= k < |kept| ==> '\n' !in kept[k];
    SplitJoin(kept, '\n');
  }

  /** Lines none of which is dropped pass the filter unchanged. */
  lemma {:induction false} KeepUnlessKeepsAll(lines: seq<string>, drop: string -> bool)
    requires forall k :: 0 <= k < |lines| ==> !drop(lines[k])
    ensures KeepUnless(lines, drop) == lines
    decreases |lines|
  {
    if |lines| > 0 {
      var tail := lines[1..];
      assert !drop(lines[0]);
      assert forall k :: 0 <= k < |tail| ==> tail[k] == lines[k + 1];
      KeepUnlessKeepsAll(tail, drop);
      assert lines == [lines[0]] + tail;
    }
  }

  /** A join ends with the last character of its last part. */
  lemma {:induction false} JoinEndsWithLast(parts: seq<string>)
    requires |parts| >= 1 && |parts[|parts| - 1]| >= 1
    ensures var j := Join(parts, '\n'); |j| >= 1 && j[|j| - 1] == parts[|parts| - 1][|parts[|parts| - 1]| - 1]
    decreases |parts|
  {
    if |parts| > 1 {
      JoinEndsWithLast(parts[1..]);
    }
  }

  /** Lines wrapped between a "```json" and a "```" line: the text is its own strip and opens
      with the fence. */
  lemma FenceWrappedStrip(payload: seq<string>)
    ensures var s := Join(["```json"] + (payload + ["```"]), '\n');
      Strip(s) == s && StartsWith(s, "```")
  {
    var parts := ["```json"] + (payload + ["```"]);
    var s := Join(parts, '\n');
    JoinPrefix(parts);
    JoinEndsWithLast(parts);
    assert s[..7] == "```json";
    StripKeeps(s);
  }

  /** Newline-free lines wrapped between a "```json" and a "```" line split back into the lines. */
  lemma FenceWrappedSplit(payload: seq<string>)
    requires forall k :: 0 <= k < |payload| ==> '\n' !in payload[k]
    ensures Split(Join(["```json"] + (payload + ["```"]), '\n'), '\n') == ["```json"] + (payload + ["```"])
  {
    var parts := ["```json"] + (payload + ["```"]);
    forall k | 0 <= k < |parts| ensures '\n' !in parts[k] {
      if 0 < k < |parts| - 1 {
        assert parts[k] == payload[k - 1];
      }
    }
    SplitJoin(parts, '\n');
  }

  /** The lines after the opening fence are the payload and the closing fence. */
  lemma AfterOpeningFence(payload: seq<string>)
    ensures (["```json"] + (payload + ["```"]))[1..] == payload + ["```"]
  {
  }

  /** Fence-free payload lines followed by the closing fence filter down to the payload. */
  lemma DropClosingFenceAfter(payload: seq<string>)
    requires forall k :: 0 <= k < |payload| ==> !IsFence(payload[k])
    ensures DropFenceLines(payload + ["```"]) == payload
  {
    ClosingFenceIsFence();
    DropFenceLinesSnoc(payload, "```");
    KeepUnlessKeepsAll(payload, IsFence);
  }

  /** A text that is its own strip and opens with a fence unwraps to its lines after the first
      with the fence lines dropped. */
  lemma StripFencesOf(s: string, lines: seq<string>)
    requires Strip(s) == s && StartsWith(s, "```") && Split(s, '\n') == lines
    ensures StripFences(s) == Join(DropFenceLines(lines[1..]), '\n')
  {
  }

  /** Payload lines wrapped between "```json" and "```" lines come back exactly, joined by
      newlines, as long as none of them is itself a fence line or holds a line break. */
  lemma FencedLinesUnwrapped(payload: seq<string>)
    requires forall k :: 0 <= k < |payload| ==> '\n' !in payload[k] && !IsFence(payload[k])
    ensures StripFences(Join(["```json"] + (payload + ["```"]), '\n')) == Join(payload, '\n')
  {
    var parts := ["```json"] + (payload + ["```"]);
    var s := Join(parts, '\n');
    FenceWrappedStrip(payload);
    FenceWrappedSplit(payload);
    StripFencesOf(s, parts);
    AfterOpeningFence(payload);
    DropClosingFenceAfter(payload);
    calc {
      StripFences(s);
      Join(DropFenceLines(parts[1..]), '\n');
      Join(DropFenceLines(payload + ["```"]), '\n');
      Join(payload, '\n');
    }
  }

  /** A join starts with its whole first part. */
  lemma JoinPrefix(parts: seq<string>)
    requires |parts| >= 1
    ensures |Join(parts, '\n')| >= |parts[0]| && Join(parts, '\n')[..|parts[0]|] == parts[0]
  {
  }

  /** Text whose ends are not whitespace is its own strip. */
  lemma StripKeeps(s: string)
    requires |s| >= 1 && !IsSpace(s[0]) && !IsSpace(s[|s| - 1])
    ensures Strip(s) == s
  {
    assert TrimStart(s) == s;
    assert TrimEnd(s) == s;
  }

  /** The three lines of a fenced one-line payload. */
  lemma SplitFenced(payload: string)
    requires '\n' !in payload
    ensures Split("```json\n" + payload + "\n```", '\n') == ["```json", payload, "```"]
  {
    var parts := ["```json", payload, "```"];
    assert parts[1..] == [payload, "```"] && parts[1..][1..] == ["```"];
    assert Join(["```"], '\n') == "```";
    assert Join([payload, "```"], '\n') == payload + ['\n'] + "```";
    assert Join(parts, '\n') == "```json" + ['\n'] + (payload + ['\n'] + "```");
    assert Join(parts, '\n') == "```json\n" + payload + "\n```";
    SplitJoin(parts, '\n');
  }

  lemma ClosingFenceIsFence()
    ensures IsFence("```")
  {
    StripKeeps("```");
  }

  /** The closing fence is dropped and a non-fence payload kept. */
  lemma DropClosingFence(payload: string)
    requires !IsFence(payload)
    ensures DropFenceLines([payload, "```"]) == [payload]
  {
    ClosingFenceIsFence();
    KeepFirstOfPair(payload, "```", IsFence);
  }

  /** Filtering a kept line followed by a dropped one leaves the first. */
  lemma KeepFirstOfPair(a: string, b: string, drop: string -> bool)
    requires !drop(a) && drop(b)
    ensures KeepUnless([a, b], drop) == [a]
  {
    assert [a, b][1..] == [b] && [b][1..] == [];
    assert KeepUnless([b], drop) == [];
  }

  /** A one-line payload wrapped as "```json\n" + payload + "\n```" comes back exactly. */
  lemma FencedPayloadUnwrapped(payload: string)
    requires '\n' !in payload && !IsFence(payload)
    ensures StripFences("```json\n" + payload + "\n```") == payload
  {
    var s := "```json\n" + payload + "\n```";
    StripKeeps(s);
    SplitFenced(payload);
    DropClosingFence(payload);
    calc {
      StripFences(s);
      { assert Strip(s) == s && StartsWith(s, "```"); }
      Join(DropFenceLines(Split(s, '\n')[1..]), '\n');
      { assert Split(s, '\n')[1..] == [payload, "```"]; }
      Join([payload], '\n');
    }
  }

  // ---------------------------------------------------------------------------
  // update_state
  // ---------------------------------------------------------------------------

  /** `update_state(action_result)`, given the result's "message" entry if it has one: the message
      is remembered as "System: {message}"; the history and summary are untouched. */
  function UpdateState(m: AgentMemory, message: Option<string>): (r: AgentMemory)
    ensures message.None? ==> r == m
    ensures message.Some? ==> r.shortTerm == m.shortTerm + ["System: " + message.value]
    ensures r.chatHistory == m.chatHistory && r.longTermSummary == m.longTermSummary
  {
    match message
    case None => m
    case Some(text) => m.(shortTerm := m.shortTerm + ["System: " + text])
  }

  /** After an action result the newest recent memory is the system line for it. */
  lemma UpdateStateIsRecalled(m: AgentMemory, message: string)
    requires SingleLines(m.shortTerm) && '\n' !in message
    ensures var r := Split(GetRecentMemories(UpdateState(m, Some(message)), 5), '\n');
      r[|r| - 1] == "System: " + message
  {
    assert '\n' !in "System: " + message;
    RecentEndsWithNewest(m, "System: " + message);
  }
}

=== FILE: prompting.dfy ===
/** The one piece of prompt building that carries logic: who is shown as a witness. Both
    resolvers format `[w for w in witnesses if w != agent_name] if witnesses else 'None'`. */
module Prompting {
  import opened Values
  import opened Seqs

  /** The witnesses shown to the resolving service: `None` (printed as 'None') for an empty list,
      otherwise the list without the acting agent. A list holding only the actor is not empty, so
      it is shown as an empty list rather than as 'None'. */
  function WitnessesShown(witnesses: seq<string>, agent: string): (r: Option<seq<string>>)
    ensures r.None? <==> witnesses == []
    ensures r.Some? ==> agent !in r.value
    ensures r.Some? ==> forall w :: w != agent ==> multiset(r.value)[w] == multiset(witnesses)[w]
  {
    if witnesses == [] then None else Some(Without(witnesses, agent))
  }

  /** A non-empty witness list shows exactly the witnesses other than the actor. */
  lemma WitnessesShownExcludesActor(witnesses: seq<string>, agent: string, w: string)
    requires witnesses != []
    ensures w in WitnessesShown(witnesses, agent).value <==> w in witnesses && w != agent
  {
    var shown := WitnessesShown(witnesses, agent).value;
    if w != agent {
      assert multiset(shown)[w] == multiset(witnesses)[w];
    }
  }
}

=== FILE: schemas.dfy ===
/** The record and tagged-union types of `schemas.py`: the world records the `World` store keeps,
    the simulated agents' actions and decision, and the environment agent's typed actions.

    Each model that the code builds from keyword arguments has a `...FromKwargs` function giving
    pydantic's verdict (`None` is a ValidationError) and a `Dump` giving `model_dump()`; the
    round-trip lemmas state that dumping and re-validating gives the value back. */
module Schemas {
  import opened Values

  // ---------------------------------------------------------------------------
  // World models
  // ---------------------------------------------------------------------------

  /** An object of the world. `locationId` is `None` once an agent has picked it up
      (`obj.location_id = None` in `World.transfer_object`). */
  datatype WorldObject = WorldObject(
    id: string,
    name: string,
    locationId: Option<string>,
    state: string,
    description: string,
    properties: seq<string>)

  /** A location: adjacency list, contained object ids and the names of agents present. */
  datatype Location = Location(
    id: string,
    name: string,
    description: string,
    connectedTo: seq<string>,
    objects: seq<string>,
    agentsPresent: seq<string>)

  /** `Location(id=..., name=..., description=..., **optional)`: the three lists default to empty. */
  function LocationFromKwargs(kw: Kwargs): (r: Option<Location>)
    ensures r.Some? <==>
      && RequiredStr(kw, "id").Some? && RequiredStr(kw, "name").Some?
      && RequiredStr(kw, "description").Some?
      && StrListOr(kw, "connected_to").Some? && StrListOr(kw, "objects").Some?
      && StrListOr(kw, "agents_present").Some?
    ensures r.Some? ==>
      && Str(r.value.id) == kw["id"] && Str(r.value.name) == kw["name"]
      && Str(r.value.description) == kw["description"]
      && ("connected_to" !in kw ==> r.value.connectedTo == [])
      && ("objects" !in kw ==> r.value.objects == [])
      && ("agents_present" !in kw ==> r.value.agentsPresent == [])
  {
    var id :- RequiredStr(kw, "id");
    var name :- RequiredStr(kw, "name");
    var description :- RequiredStr(kw, "description");
    var connectedTo :- StrListOr(kw, "connected_to");
    var objects :- StrListOr(kw, "objects");
    var agentsPresent :- StrListOr(kw, "agents_present");
    Some(Location(id, name, description, connectedTo, objects, agentsPresent))
  }

  // ---------------------------------------------------------------------------
  // Simulated-agent actions and decision
  // ---------------------------------------------------------------------------

  /** `MoveAction`, `TalkAction`, `InteractAction`, `WaitAction`. */
  datatype SimAction =
    | Move(locationId: string)
    | Talk(message: string, targetAgent: Option<string>)
    | Interact(objectId: string, action: string)
    | Wait(reason: string)

  /** `Literal["move", "talk", "interact", "wait"]`. */
  datatype ActionType = MoveType | TalkType | InteractType | WaitType

  /** The `action` field as held by a decision: already a typed model, or a raw dict. */
  datatype ActionPayload = Typed(action: SimAction) | Raw(kwargs: Kwargs)

  datatype AgentDecision = AgentDecision(reasoning: string, actionType: ActionType, action: ActionPayload)

  /** Whether an action is of the model `action_type` names. */
  predicate Matches(t: ActionType, a: SimAction) {
    match t
    case MoveType => a.Move?
    case TalkType => a.Talk?
    case InteractType => a.Interact?
    case WaitType => a.Wait?
  }

  /** `model(**kwargs)` for the model `action_type` selects (extra keys are ignored). */
  function SimActionFromKwargs(t: ActionType, kw: Kwargs): (r: Option<SimAction>)
    ensures r.Some? ==> Matches(t, r.value)
    ensures t == WaitType ==> (r.Some? <==> "reason" !in kw || kw["reason"].Str?)
    ensures t == MoveType ==> (r.Some? <==> "location_id" in kw && kw["location_id"].Str?)
    ensures t == InteractType ==>
      (r.Some? <==> "object_id" in kw && kw["object_id"].Str? && "action" in kw && kw["action"].Str?)
    ensures t == TalkType ==> (r.Some? <==>
      "message" in kw && kw["message"].Str?
      && ("target_agent" !in kw || kw["target_agent"].Null? || kw["target_agent"].Str?))
    ensures t == TalkType && "target_agent" !in kw && "message" in kw && kw["message"].Str? ==>
      r == Some(Talk(kw["message"].s, None))
    ensures r.Some? && r.value.Talk? ==> (Str(r.value.message) == kw["message"]
      && ("target_agent" in kw ==> OptStr(r.value.targetAgent) == kw["target_agent"]))
    ensures r.Some? && r.value.Move? ==> Str(r.value.locationId) == kw["location_id"]
    ensures r.Some? && r.value.Interact? ==> Str(r.value.objectId) == kw["object_id"] && Str(r.value.action) == kw["action"]
    ensures r.Some? && r.value.Wait? && "reason" in kw ==> Str(r.value.reason) == kw["reason"]
    ensures t == WaitType && "reason" !in kw ==> r == Some(Wait("observing"))
  {
    match t
    case MoveType =>
      var loc :- RequiredStr(kw, "location_id");
      Some(Move(loc))
    case TalkType =>
      var message :- RequiredStr(kw, "message");
      var target :- NullableStr(kw, "target_agent");
      Some(Talk(message, target))
    case InteractType =>
      var oid :- RequiredStr(kw, "object_id");
      var action :- RequiredStr(kw, "action");
      Some(Interact(oid, action))
    case WaitType =>
      if "reason" in kw && !kw["reason"].Str? then None
      else Some(Wait(if "reason" in kw then kw["reason"].s else "observing"))
  }

  /** `model_dump()` of a simulated-agent action. */
  function DumpSimAction(a: SimAction): Kwargs {
    match a
    case Move(loc) => map["location_id" := Str(loc)]
    case Talk(message, target) => map["message" := Str(message), "target_agent" := OptStr(target)]
    case Interact(oid, action) => map["object_id" := Str(oid), "action" := Str(action)]
    case Wait(reason) => map["reason" := Str(reason)]
  }

  function TypeOf(a: SimAction): ActionType {
    match a
    case Move(_) => MoveType
    case Talk(_, _) => TalkType
    case Interact(_, _) => InteractType
    case Wait(_) => WaitType
  }

  /** Re-building a dumped action through the model its type selects gives it back. */
  lemma SimActionRoundTrip(a: SimAction)
    ensures SimActionFromKwargs(TypeOf(a), DumpSimAction(a)) == Some(a)
  {
  }

  /** `AgentDecision.get_validated_action` (both copies): a typed action comes back unchanged;
      a raw dict is built into the model `action_type` selects, `None` meaning ValidationError. */
  function GetValidatedAction(d: AgentDecision): (r: Option<SimAction>)
    ensures d.action.Typed? ==> r == Some(d.action.action)
    ensures d.action.Raw? ==> r == SimActionFromKwargs(d.actionType, d.action.kwargs)
    ensures d.action.Raw? && r.Some? ==> Matches(d.actionType, r.value)
  {
    match d.action
    case Typed(a) => Some(a)
    case Raw(kw) => SimActionFromKwargs(d.actionType, kw)
  }

  // ---------------------------------------------------------------------------
  // Environment-agent actions
  // ---------------------------------------------------------------------------

  /** The seven typed actions of `EnvAgentAction`. */
  datatype EnvAction =
    | ResultAction(success: bool, message: string, reasoning: string)
    | ModifyStateAction(objectId: string, newState: string)
    | BroadcastAction(locationId: string, message: string)
    | LockAgentAction(agentName: string, durationMinutes: int, reason: string, completionMessage: string)
    | CreateObjectAction(objectId: string, name: string, locationId: string, state: string,
                         description: string, properties: seq<string>)
    | DestroyObjectAction(objectId: string, reason: string)
    | TransferObjectAction(objectId: string, fromLocation: Option<string>, toLocation: Option<string>,
                           fromAgent: Option<string>, toAgent: Option<string>)

  /** `EnvAgentDecision`: reasoning plus an ordered list of typed actions. */
  datatype EnvAgentDecision = EnvAgentDecision(reasoning: string, decisions: seq<EnvAction>)

  /** The value of each model's `action: Literal[...]` discriminator. */
  function Tag(a: EnvAction): string {
    match a
    case ResultAction(_, _, _) => "result"
    case ModifyStateAction(_, _) => "modify_state"
    case BroadcastAction(_, _) => "broadcast"
    case LockAgentAction(_, _, _, _) => "lock_agent"
    case CreateObjectAction(_, _, _, _, _, _) => "create_object"
    case DestroyObjectAction(_, _) => "destroy_object"
    case TransferObjectAction(_, _, _, _, _) => "transfer_object"
  }

  /** `model_dump()` of an environment action, discriminator included. */
  function Dump(a: EnvAction): (kw: Kwargs)
    ensures "action" in kw && kw["action"] == Str(Tag(a))
  {
    match a
    case ResultAction(success, message, reasoning) =>
      map["action" := Str("result"), "success" := Bool(success), "message" := Str(message),
          "reasoning" := Str(reasoning)]
    case ModifyStateAction(oid, newState) =>
      map["action" := Str("modify_state"), "object_id" := Str(oid), "new_state" := Str(newState)]
    case BroadcastAction(loc, message) =>
      map["action" := Str("broadcast"), "location_id" := Str(loc), "message" := Str(message)]
    case LockAgentAction(agent, minutes, reason, completion) =>
      map["action" := Str("lock_agent"), "agent_name" := Str(agent), "duration_minutes" := Int(minutes),
          "reason" := Str(reason), "completion_message" := Str(completion)]
    case CreateObjectAction(oid, name, loc, state, description, properties) =>
      map["action" := Str("create_object"), "object_id" := Str(oid), "name" := Str(name),
          "location_id" := Str(loc), "state" := Str(state), "description" := Str(description),
          "properties" := StrList(properties)]
    case DestroyObjectAction(oid, reason) =>
      map["action" := Str("destroy_object"), "object_id" := Str(oid), "reason" := Str(reason)]
    case TransferObjectAction(oid, fromLoc, toLoc, fromAgent, toAgent) =>
      map["action" := Str("transfer_object"), "object_id" := Str(oid),
          "from_location" := OptStr(fromLoc), "to_location" := OptStr(toLoc),
          "from_agent" := OptStr(fromAgent), "to_agent" := OptStr(toAgent)]
  }

  /** `ResultAction(**kw)`: success and message required, reasoning defaults to "". */
  function ResultActionFromKwargs(kw: Kwargs): (r: Option<EnvAction>)
    ensures r.Some? <==>
      LiteralOk(kw, "action", "result") && RequiredBool(kw, "success").Some?
      && RequiredStr(kw, "message").Some? && StrOr(kw, "reasoning", "").Some?
    ensures r.Some? ==> (r.value.ResultAction? && Bool(r.value.success) == kw["success"]
      && Str(r.value.message) == kw["message"]
      && ("reasoning" !in kw ==> r.value.reasoning == ""))
  {
    if !LiteralOk(kw, "action", "result") then None
    else
      var success :- RequiredBool(kw, "success");
      var message :- RequiredStr(kw, "message");
      var reasoning :- StrOr(kw, "reasoning", "");
      Some(ResultAction(success, message, reasoning))
  }

  /** `ModifyStateAction(**kw)`: both object_id and new_state are required. */
  function ModifyStateActionFromKwargs(kw: Kwargs): (r: Option<EnvAction>)
    ensures r.Some? <==>
      LiteralOk(kw, "action", "modify_state") && RequiredStr(kw, "object_id").Some?
      && RequiredStr(kw, "new_state").Some?
    ensures r.Some? ==> (r.value.ModifyStateAction? && Str(r.value.objectId) == kw["object_id"]
      && Str(r.value.newState) == kw["new_state"])
  {
    if !LiteralOk(kw, "action", "modify_state") then None
    else
      var oid :- RequiredStr(kw, "object_id");
      var newState :- RequiredStr(kw, "new_state");
      Some(ModifyStateAction(oid, newState))
  }

  /** `BroadcastAction(**kw)`: location_id and message are required. */
  function BroadcastActionFromKwargs(kw: Kwargs): (r: Option<EnvAction>)
    ensures r.Some? <==>
      LiteralOk(kw, "action", "broadcast") && RequiredStr(kw, "location_id").Some?
      && RequiredStr(kw, "message").Some?
    ensures r.Some? ==> (r.value.BroadcastAction? && Str(r.value.locationId) == kw["location_id"]
      && Str(r.value.message) == kw["message"])
  {
    if !LiteralOk(kw, "action", "broadcast") then None
    else
      var loc :- RequiredStr(kw, "location_id");
      var message :- RequiredStr(kw, "message");
      Some(BroadcastAction(loc, message))
  }

  /** `LockAgentAction(**kw)`: completion_message defaults to "". */
  function LockAgentActionFromKwargs(kw: Kwargs): (r: Option<EnvAction>)
    ensures r.Some? <==>
      LiteralOk(kw, "action", "lock_agent") && RequiredStr(kw, "agent_name").Some?
      && RequiredInt(kw, "duration_minutes").Some? && RequiredStr(kw, "reason").Some?
      && StrOr(kw, "completion_message", "").Some?
    ensures r.Some? ==> (r.value.LockAgentAction? && Str(r.value.agentName) == kw["agent_name"]
      && Int(r.value.durationMinutes) == kw["duration_minutes"] && Str(r.value.reason) == kw["reason"]
      && ("completion_message" in kw ==> Str(r.value.completionMessage) == kw["completion_message"])
      && ("completion_message" !in kw ==> r.value.completionMessage == ""))
  {
    if !LiteralOk(kw, "action", "lock_agent") then None
    else
      var agent :- RequiredStr(kw, "agent_name");
      var minutes :- RequiredInt(kw, "duration_minutes");
      var reason :- RequiredStr(kw, "reason");
      var completion :- StrOr(kw, "completion_message", "");
      Some(LockAgentAction(agent, minutes, reason, completion))
  }

  /** `CreateObjectAction(**kw)`: object_id, name and location_id are required; state defaults
      to "normal", description to "" and properties to []. */
  function CreateObjectActionFromKwargs(kw: Kwargs): (r: Option<EnvAction>)
    ensures r.Some? <==>
      && LiteralOk(kw, "action", "create_object")
      && RequiredStr(kw, "object_id").Some? && RequiredStr(kw, "name").Some?
      && RequiredStr(kw, "location_id").Some?
      && StrOr(kw, "state", "normal").Some? && StrOr(kw, "description", "").Some?
      && StrListOr(kw, "properties").Some?
    ensures r.Some? ==> (r.value.CreateObjectAction?
      && Str(r.value.objectId) == kw["object_id"] && Str(r.value.name) == kw["name"]
      && Str(r.value.locationId) == kw["location_id"]
      && ("state" !in kw ==> r.value.state == "normal")
      && ("description" !in kw ==> r.value.description == "")
      && ("properties" !in kw ==> r.value.properties == []))
  {
    if !LiteralOk(kw, "action", "create_object") then None
    else
      var oid :- RequiredStr(kw, "object_id");
      var name :- RequiredStr(kw, "name");
      var loc :- RequiredStr(kw, "location_id");
      var state :- StrOr(kw, "state", "normal");
      var description :- StrOr(kw, "description", "");
      var properties :- StrListOr(kw, "properties");
      Some(CreateObjectAction(oid, name, loc, state, description, properties))
  }

  /** `DestroyObjectAction(**kw)`: only object_id is required; reason defaults to "". */
  function DestroyObjectActionFromKwargs(kw: Kwargs): (r: Option<EnvAction>)
    ensures r.Some? <==>
      LiteralOk(kw, "action", "destroy_object") && RequiredStr(kw, "object_id").Some?
      && StrOr(kw, "reason", "").Some?
    ensures r.Some? ==> (r.value.DestroyObjectAction? && Str(r.value.objectId) == kw["object_id"]
      && ("reason" !in kw ==> r.value.reason == ""))
  {
    if !LiteralOk(kw, "action", "destroy_object") then None
    else
      var oid :- RequiredStr(kw, "object_id");
      var reason :- StrOr(kw, "reason", "");
      Some(DestroyObjectAction(oid, reason))
  }

  /** `TransferObjectAction(**kw)`: only object_id is required; the four endpoints default to None. */
  function TransferObjectActionFromKwargs(kw: Kwargs): (r: Option<EnvAction>)
    ensures r.Some? <==>
      && LiteralOk(kw, "action", "transfer_object") && RequiredStr(kw, "object_id").Some?
      && NullableStr(kw, "from_location").Some? && NullableStr(kw, "to_location").Some?
      && NullableStr(kw, "from_agent").Some? && NullableStr(kw, "to_agent").Some?
    ensures r.Some? ==> (r.value.TransferObjectAction? && Str(r.value.objectId) == kw["object_id"]
      && ("from_location" !in kw ==> r.value.fromLocation == None)
      && ("to_location" !in kw ==> r.value.toLocation == None)
      && ("from_agent" !in kw ==> r.value.fromAgent == None)
      && ("to_agent" !in kw ==> r.value.toAgent == None))
  {
    if !LiteralOk(kw, "action", "transfer_object") then None
    else
      var oid :- RequiredStr(kw, "object_id");
      var fromLoc :- NullableStr(kw, "from_location");
      var toLoc :- NullableStr(kw, "to_location");
      var fromAgent :- NullableStr(kw, "from_agent");
      var toAgent :- NullableStr(kw, "to_agent");
      Some(TransferObjectAction(oid, fromLoc, toLoc, fromAgent, toAgent))
  }

  /** Validating a dict as the model whose discriminator is `tag`. */
  function EnvActionFromKwargs(tag: string, kw: Kwargs): (r: Option<EnvAction>)
    ensures r.Some? ==> Tag(r.value) == tag
  {
    match tag
    case "result" => ResultActionFromKwargs(kw)
    case "modify_state" => ModifyStateActionFromKwargs(kw)
    case "broadcast" => BroadcastActionFromKwargs(kw)
    case "lock_agent" => LockAgentActionFromKwargs(kw)
    case "create_object" => CreateObjectActionFromKwargs(kw)
    case "destroy_object" => DestroyObjectActionFromKwargs(kw)
    case "transfer_object" => TransferObjectActionFromKwargs(kw)
    case _ => None
  }

  lemma CreateObjectRoundTrip(a: EnvAction)
    requires a.CreateObjectAction?
    ensures CreateObjectActionFromKwargs(Dump(a)) == Some(a)
    ensures CreateObjectActionFromKwargs(Dump(a) - {"action"}) == Some(a)
  {
    StringsOfStrList(a.properties);
  }

  lemma TransferObjectRoundTrip(a: EnvAction)
    requires a.TransferObjectAction?
    ensures TransferObjectActionFromKwargs(Dump(a)) == Some(a)
    ensures TransferObjectActionFromKwargs(Dump(a) - {"action"}) == Some(a)
  {
    TransferObjectUntagged(a);
  }

  lemma TransferObjectUntagged(a: EnvAction)
    requires a.TransferObjectAction?
    ensures TransferObjectActionFromKwargs(Dump(a) - {"action"}) == Some(a)
  {
  }

  lemma SmallActionRoundTrip(a: EnvAction)
    requires !a.CreateObjectAction? && !a.TransferObjectAction?
    ensures EnvActionFromKwargs(Tag(a), Dump(a)) == Some(a)
    ensures EnvActionFromKwargs(Tag(a), Dump(a) - {"action"}) == Some(a)
  {
    SmallActionUntagged(a);
  }

  lemma SmallActionUntagged(a: EnvAction)
    requires !a.CreateObjectAction? && !a.TransferObjectAction?
    ensures EnvActionFromKwargs(Tag(a), Dump(a) - {"action"}) == Some(a)
  {
  }

  /** Dumping an action and validating the dump as its own model gives the action back, and so
      does validating the dump with the discriminator removed (the field has a default). */
  lemma EnvActionRoundTrip(a: EnvAction)
    ensures EnvActionFromKwargs(Tag(a), Dump(a)) == Some(a)
    ensures EnvActionFromKwargs(Tag(a), Dump(a) - {"action"}) == Some(a)
  {
    if a.CreateObjectAction? {
      CreateObjectRoundTrip(a);
    } else if a.TransferObjectAction? {
      TransferObjectRoundTrip(a);
    } else {
      SmallActionRoundTrip(a);
    }
  }
}

=== FILE: seqs.dfy ===
/** List operations the Python code performs on its `List[str]` fields: `xs.remove(x)` (first
    occurrence only), `xs.count(x)`, and the comprehension `[p for p in xs if p != x]`. */
module Seqs {

  /** `xs.count(x)`. */
  function Count<T(==)>(xs: seq<T>, x: T): (n: nat)
    ensures n == multiset(xs)[x]
    ensures n == 0 <==> x !in xs
  {
    if |xs| == 0 then 0
    else
      assert xs == [xs[0]] + xs[1..];
      (if xs[0] == x then 1 else 0) + Count(xs[1..], x)
  }

  lemma CountSnoc<T>(xs: seq<T>, y: T, x: T)
    ensures Count(xs + [y], x) == Count(xs, x) + if x == y then 1 else 0
  {
    assert multiset(xs + [y]) == multiset(xs) + multiset{y};
  }

  lemma {:induction false} CountLast<T>(xs: seq<T>, x: T)
    requires |xs| > 0
    ensures Count(xs, x) == Count(xs[..|xs| - 1], x) + if x == xs[|xs| - 1] then 1 else 0
    decreases |xs|
  {
    if |xs| == 1 {
      assert xs[1..] == [] && xs[..0] == [];
    } else {
      var init := xs[..|xs| - 1];
      CountLast(xs[1..], x);
      assert init[0] == xs[0] && init[1..] == xs[1..][..|xs| - 2];
    }
  }

  /** `xs.index(x)`: the position of the first occurrence. */
  function FirstIndex<T(==)>(xs: seq<T>, x: T): (i: nat)
    requires x in xs
    ensures i < |xs| && xs[i] == x && x !in xs[..i]
  {
    if xs[0] == x then 0 else 1 + FirstIndex(xs[1..], x)
  }

  /** `xs.remove(x)` guarded by `x in xs`: drops the first occurrence, keeps the order of the rest. */
  function RemoveFirst<T(==)>(xs: seq<T>, x: T): (r: seq<T>)
    ensures x !in xs ==> r == xs
    ensures x in xs ==> r == xs[..FirstIndex(xs, x)] + xs[FirstIndex(xs, x) + 1..]
    ensures multiset(r) == multiset(xs) - multiset{x}
  {
    if x !in xs then xs
    else
      var i := FirstIndex(xs, x);
      assert xs == xs[..i] + [x] + xs[i + 1..];
      xs[..i] + xs[i + 1..]
  }

  /** `[p for p in xs if p != x]`. */
  function Without<T(==,!new)>(xs: seq<T>, x: T): (r: seq<T>)
    ensures x !in r
    ensures forall y :: y != x ==> multiset(r)[y] == multiset(xs)[y]
    ensures |r| <= |xs|
  {
    if |xs| == 0 then []
    else
      assert xs == [xs[0]] + xs[1..];
      (if xs[0] == x then [] else [xs[0]]) + Without(xs[1..], x)
  }

  /** The comprehension keeps the order of the list: filtering a concatenation filters each
      part in place. */
  lemma {:induction false} WithoutAppend<T(!new)>(a: seq<T>, b: seq<T>, x: T)
    ensures Without(a + b, x) == Without(a, x) + Without(b, x)
    decreases |a|
  {
    if |a| == 0 {
      assert a + b == b;
    } else {
      assert (a + b)[0] == a[0] && (a + b)[1..] == a[1..] + b;
      WithoutAppend(a[1..], b, x);
    }
  }

  /** Appending an element appends it to the filtered list exactly when it differs from `x`. */
  lemma WithoutSnoc<T(!new)>(xs: seq<T>, y: T, x: T)
    ensures Without(xs + [y], x) == Without(xs, x) + (if y == x then [] else [y])
  {
    WithoutAppend(xs, [y], x);
  }

  /** `[x] * n`. */
  function Repeat<T>(x: T, n: nat): (r: seq<T>)
    ensures |r| == n
    ensures forall k :: 0 <= k < n ==> r[k] == x
  {
    if n == 0 then [] else [x] + Repeat(x, n - 1)
  }

  /** No element occurs twice. */
  predicate NoDup<T(==,!new)>(xs: seq<T>) {
    forall x | x in xs :: multiset(xs)[x] <= 1
  }

  /** Appending an element not yet present keeps a list duplicate-free. */
  lemma NoDupSnoc<T(!new)>(xs: seq<T>, x: T)
    requires NoDup(xs) && x !in xs
    ensures NoDup(xs + [x])
  {
    assert multiset(xs + [x]) == multiset(xs) + multiset{x};
  }

  /** Removing the first occurrence from a duplicate-free list removes the element altogether. */
  lemma NoDupRemoveFirst<T(!new)>(xs: seq<T>, x: T)
    requires NoDup(xs)
    ensures NoDup(RemoveFirst(xs, x)) && x !in RemoveFirst(xs, x)
    ensures forall y :: y != x ==> (y in RemoveFirst(xs, x) <==> y in xs)
  {
    assert multiset(RemoveFirst(xs, x))[x] == 0;
  }
}

=== FILE: text.dfy ===
/** String operations the Python code uses: `str.strip()`, `str.split("\n")`, `"\n".join(...)`,
    `str.startswith`, slicing `s[:n]`, and `str(n)` for a natural number. */
module Text {

  /** Python's `str.isspace()` for a single character. */
  predicate IsSpace(c: char) {
    c == ' ' || c == '\t' || c == '\n' || c == '\r' || c == '\U{B}' || c == '\U{C}'
    || ('\U{1C}' <= c <= '\U{1F}') || c == '\U{85}' || c == '\U{A0}' || c == '\U{1680}'
    || ('\U{2000}' <= c <= '\U{200A}') || c == '\U{2028}' || c == '\U{2029}' || c == '\U{202F}'
    || c == '\U{205F}' || c == '\U{3000}'
  }

  predicate AllSpace(s: string) {
    forall k :: 0 <= k < |s| ==> IsSpace(s[k])
  }

  /** `s.lstrip()`: drops the leading whitespace and nothing else. */
  function TrimStart(s: string): (r: string)
    ensures |r| <= |s| && r == s[|s| - |r|..]
    ensures AllSpace(s[..|s| - |r|])
    ensures r == [] || !IsSpace(r[0])
  {
    if |s| > 0 && IsSpace(s[0]) then
      var r := TrimStart(s[1..]);
      assert [s[0]] + s[1..][..|s| - 1 - |r|] == s[..|s| - |r|];
      AllSpaceAppend([s[0]], s[1..][..|s| - 1 - |r|]);
      r
    else s
  }

  /** `s.rstrip()`: drops the trailing whitespace and nothing else. */
  function TrimEnd(s: string): (r: string)
    ensures |r| <= |s| && r == s[..|r|]
    ensures AllSpace(s[|r|..])
    ensures r == [] || !IsSpace(r[|r| - 1])
  {
    if |s| > 0 && IsSpace(s[|s| - 1]) then
      var t := s[..|s| - 1];
      var r := TrimEnd(t);
      assert t[|r|..] + [s[|s| - 1]] == s[|r|..];
      AllSpaceAppend(t[|r|..], [s[|s| - 1]]);
      r
    else s
  }

  lemma AllSpaceAppend(a: string, b: string)
    requires AllSpace(a) && AllSpace(b)
    ensures AllSpace(a + b)
  {
    forall k | 0 <= k < |a + b| ensures IsSpace((a + b)[k]) {
      if k < |a| {
        assert (a + b)[k] == a[k];
      } else {
        assert (a + b)[k] == b[k - |a|];
      }
    }
  }

  /** `s.strip()`: the longest infix of `s` that neither starts nor ends with whitespace,
      obtained by removing only whitespace. */
  function Strip(s: string): (r: string)
    ensures exists i, j :: 0 <= i <= j <= |s| && r == s[i..j] && AllSpace(s[..i]) && AllSpace(s[j..])
    ensures r == [] || (!IsSpace(r[0]) && !IsSpace(r[|r| - 1]))
  {
    var t := TrimStart(s);
    var r := TrimEnd(t);
    InfixWitness(s, t, r);
    TrimmedEnds(t, r);
    r
  }

  /** Trimming the front and then the back of `s` leaves an infix bordered by whitespace. */
  lemma InfixWitness(s: string, t: string, r: string)
    requires |t| <= |s| && t == s[|s| - |t|..] && AllSpace(s[..|s| - |t|])
    requires |r| <= |t| && r == t[..|r|] && AllSpace(t[|r|..])
    ensures exists i, j :: 0 <= i <= j <= |s| && r == s[i..j] && AllSpace(s[..i]) && AllSpace(s[j..])
  {
    var i := |s| - |t|;
    var j := i + |r|;
    assert r == s[i..j];
    assert s[j..] == t[|r|..];
  }

  /** Trimming the back of a text that does not start with whitespace keeps a first character that
      is not whitespace. */
  lemma TrimmedEnds(t: string, r: string)
    requires t == [] || !IsSpace(t[0])
    requires |r| <= |t| && r == t[..|r|] && (r == [] || !IsSpace(r[|r| - 1]))
    ensures r == [] || (!IsSpace(r[0]) && !IsSpace(r[|r| - 1]))
  {
    if r != [] {
      assert r[0] == t[0];
    }
  }

  function StartsWith(s: string, prefix: string): bool {
    prefix <= s
  }

  /** `s[:n]` for `n >= 0`. */
  function Take(s: string, n: nat): (r: string)
    ensures |r| == if |s| <= n then |s| else n
    ensures r <= s
  {
    if |s| <= n then s else s[..n]
  }

  /** Index of the first occurrence of `c` in `s`. */
  function IndexOf(s: string, c: char): (i: nat)
    requires c in s
    ensures i < |s| && s[i] == c && c !in s[..i]
  {
    if s[0] == c then 0 else 1 + IndexOf(s[1..], c)
  }

  /** `s.split(sep)` for a one-character separator: always at least one piece. */
  function Split(s: string, sep: char): (parts: seq<string>)
    ensures |parts| >= 1
    ensures forall k :: 0 <= k < |parts| ==> sep !in parts[k]
    decreases |s|
  {
    if sep !in s then [s]
    else
      var i := IndexOf(s, sep);
      [s[..i]] + Split(s[i + 1..], sep)
  }

  /** `sep.join(parts)`. */
  function Join(parts: seq<string>, sep: char): string {
    if |parts| == 0 then ""
    else if |parts| == 1 then parts[0]
    else parts[0] + [sep] + Join(parts[1..], sep)
  }

  /** Joining the pieces of a split gives the original string back. */
  lemma {:induction false} JoinSplit(s: string, sep: char)
    ensures Join(Split(s, sep), sep) == s
    decreases |s|
  {
    if sep in s {
      var i := IndexOf(s, sep);
      var rest := s[i + 1..];
      JoinSplit(rest, sep);
      var tail := Split(rest, sep);
      assert Split(s, sep) == [s[..i]] + tail;
      assert ([s[..i]] + tail)[1..] == tail;
      assert s == s[..i] + [sep] + rest;
    }
  }

  /** The first separator of `a + [sep] + b` is the one after `a` when `a` has none. */
  lemma {:induction false} IndexOfAfterPrefix(a: string, sep: char, b: string)
    requires sep !in a
    ensures sep in a + [sep] + b
    ensures IndexOf(a + [sep] + b, sep) == |a|
  {
    var s := a + [sep] + b;
    assert s[|a|] == sep;
    if |a| > 0 {
      assert s[0] == a[0];
      assert s[1..] == a[1..] + [sep] + b;
      IndexOfAfterPrefix(a[1..], sep, b);
    }
  }

  /** Splitting a join of separator-free pieces gives the pieces back. */
  lemma {:induction false} SplitJoin(parts: seq<string>, sep: char)
    requires |parts| >= 1
    requires forall k :: 0 <= k < |parts| ==> sep !in parts[k]
    ensures Split(Join(parts, sep), sep) == parts
  {
    if |parts| > 1 {
      var head, tail := parts[0], parts[1..];
      var rest := Join(tail, sep);
      assert Join(parts, sep) == head + [sep] + rest;
      SplitJoin(tail, sep);
      var s := head + [sep] + rest;
      IndexOfAfterPrefix(head, sep, rest);
      assert s[..|head|] == head;
      assert s[|head| + 1..] == rest;
      assert Split(s, sep) == [head] + Split(rest, sep);
      assert parts == [head] + tail;
    }
  }

  function DigitChar(d: nat): char
    requires d < 10
  {
    "0123456789"[d]
  }

  /** The value of a decimal digit; other characters count as 0. */
  function DigitValue(c: char): nat {
    if '0' <= c <= '9' then (c as int) - ('0' as int) else 0
  }

  /** The number a string of decimal digits denotes, read left to right. */
  function DigitsValue(s: string): nat {
    if |s| == 0 then 0 else DigitsValue(s[..|s| - 1]) * 10 + DigitValue(s[|s| - 1])
  }

  /** `str(n)` for a natural number: the decimal digits of `n`, without leading zeros. */
  function NatToString(n: nat): (r: string)
    ensures |r| >= 1
    ensures forall k :: 0 <= k < |r| ==> '0' <= r[k] <= '9'
    ensures |r| > 1 ==> r[0] != '0'
    ensures DigitsValue(r) == n
  {
    if n < 10 then
      assert DigitValue(DigitChar(n)) == n;
      assert [DigitChar(n)][..0] == [];
      [DigitChar(n)]
    else
      var prefix := NatToString(n / 10);
      var r := prefix + [DigitChar(n % 10)];
      assert r[..|r| - 1] == prefix;
      assert DigitValue(DigitChar(n % 10)) == n % 10;
      r
  }
}

=== FILE: values.dfy ===
/** JSON-like values and the small pieces of Python semantics the simulation core leans on:
    `dict.get`, truthiness, hashability, and the field checks pydantic performs when a model
    is built from keyword arguments (`Model(**kwargs)`, `Model.model_validate(dict)`).

    Construction is modelled strictly: a `str` field accepts only a string, an `int` field only an
    integer; pydantic's lax coercions are not modelled. */
module Values {

  /** The conventional Some/None datatype, failure-compatible so `:-` can chain field checks. */
  datatype Option<+T> = None | Some(value: T) {
    predicate IsFailure() {
      None?
    }

    function PropagateFailure<U>(): Option<U>
      requires None?
    {
      None
    }

    function Extract(): T
      requires Some?
    {
      value
    }

    function GetOr(default: T): T {
      match this
      case Some(v) => v
      case None => default
    }
  }

  /** What `json.loads` yields and what `model_dump()` produces. */
  datatype Value =
    | Null
    | Bool(b: bool)
    | Int(i: int)
    | Str(s: string)
    | Arr(items: seq<Value>)
    | Obj(fields: map<string, Value>)

  /** Keyword arguments / a JSON object: `{"object_id": "lamp", ...}`. */
  type Kwargs = map<string, Value>

  /** Python's `dict.get(key)`: a missing key reads as `None`. */
  function Get(kw: Kwargs, key: string): (v: Value)
    ensures key !in kw ==> v == Null
    ensures key in kw ==> v == kw[key]
  {
    if key in kw then kw[key] else Null
  }

  /** Python truthiness (`if x:`). */
  predicate Truthy(v: Value) {
    match v
    case Null => false
    case Bool(b) => b
    case Int(i) => i != 0
    case Str(s) => s != ""
    case Arr(xs) => xs != []
    case Obj(m) => m != map[]
  }

  /** Truthiness of an optional string (`None` and `""` are falsy). */
  predicate Present(o: Option<string>) {
    o.Some? && o.value != ""
  }

  /** Lists and dicts cannot be dictionary keys: `x in d` raises TypeError for them. */
  predicate Hashable(v: Value) {
    !v.Arr? && !v.Obj?
  }

  /** The string a value names when it is used as a key into a `Dict[str, ...]`. */
  function KeyOf(v: Value): Option<string> {
    if v.Str? then Some(v.s) else None
  }

  /** `None` for Python `None`, otherwise the string. */
  function OptStr(o: Option<string>): Value {
    match o
    case None => Null
    case Some(s) => Str(s)
  }

  function StrList(xs: seq<string>): (v: Value)
    ensures v.Arr? && |v.items| == |xs|
    ensures forall i :: 0 <= i < |xs| ==> v.items[i] == Str(xs[i])
  {
    Arr(seq(|xs|, i requires 0 <= i < |xs| => Str(xs[i])))
  }

  predicate AllStrings(xs: seq<Value>) {
    forall i :: 0 <= i < |xs| ==> xs[i].Str?
  }

  function Strings(xs: seq<Value>): (r: seq<string>)
    requires AllStrings(xs)
    ensures |r| == |xs|
    ensures forall i :: 0 <= i < |xs| ==> xs[i] == Str(r[i])
  {
    seq(|xs|, i requires 0 <= i < |xs| => xs[i].s)
  }

  lemma StringsOfStrList(xs: seq<string>)
    ensures AllStrings(StrList(xs).items)
    ensures Strings(StrList(xs).items) == xs
  {
  }

  // ---------------------------------------------------------------------------
  // Field checks of pydantic model construction. `None` means a ValidationError.
  // ---------------------------------------------------------------------------

  /** A required `str` field. */
  function RequiredStr(kw: Kwargs, key: string): (r: Option<string>)
    ensures r.Some? <==> key in kw && kw[key].Str?
    ensures r.Some? ==> kw[key] == Str(r.value)
  {
    if key in kw && kw[key].Str? then Some(kw[key].s) else None
  }

  /** A `str` field with a default. */
  function StrOr(kw: Kwargs, key: string, default: string): (r: Option<string>)
    ensures key !in kw ==> r == Some(default)
    ensures key in kw ==> (r.Some? <==> kw[key].Str?)
    ensures key in kw && r.Some? ==> kw[key] == Str(r.value)
  {
    if key !in kw then Some(default)
    else if kw[key].Str? then Some(kw[key].s)
    else None
  }

  /** An `Optional[str]` field defaulting to `None`. */
  function NullableStr(kw: Kwargs, key: string): (r: Option<Option<string>>)
    ensures key !in kw ==> r == Some(None)
    ensures key in kw ==> (r.Some? <==> kw[key].Null? || kw[key].Str?)
    ensures key in kw && r.Some? ==> kw[key] == OptStr(r.value)
  {
    if key !in kw then Some(None)
    else match kw[key]
      case Null => Some(None)
      case Str(s) => Some(Some(s))
      case _ => None
  }

  /** A required `bool` field. */
  function RequiredBool(kw: Kwargs, key: string): (r: Option<bool>)
    ensures r.Some? <==> key in kw && kw[key].Bool?
    ensures r.Some? ==> kw[key] == Bool(r.value)
  {
    if key in kw && kw[key].Bool? then Some(kw[key].b) else None
  }

  /** A required `int` field. */
  function RequiredInt(kw: Kwargs, key: string): (r: Option<int>)
    ensures r.Some? <==> key in kw && kw[key].Int?
    ensures r.Some? ==> kw[key] == Int(r.value)
  {
    if key in kw && kw[key].Int? then Some(kw[key].i) else None
  }

  /** An `int` field with a default. */
  function IntOr(kw: Kwargs, key: string, default: int): (r: Option<int>)
    ensures key !in kw ==> r == Some(default)
    ensures key in kw ==> (r.Some? <==> kw[key].Int?)
    ensures key in kw && r.Some? ==> kw[key] == Int(r.value)
  {
    if key !in kw then Some(default)
    else if kw[key].Int? then Some(kw[key].i)
    else None
  }

  /** A `List[str]` field defaulting to the empty list. */
  function StrListOr(kw: Kwargs, key: string): (r: Option<seq<string>>)
    ensures key !in kw ==> r == Some([])
    ensures key in kw ==> (r.Some? <==> kw[key].Arr? && AllStrings(kw[key].items))
    ensures key in kw && r.Some? ==> kw[key] == StrList(r.value)
  {
    if key !in kw then Some([])
    else if kw[key].Arr? && AllStrings(kw[key].items) then
      var xs := Strings(kw[key].items);
      assert StrList(xs).items == kw[key].items;
      Some(xs)
    else None
  }

  /** A `dict` field defaulting to the empty dict. */
  function DictOr(kw: Kwargs, key: string): (r: Option<map<string, Value>>)
    ensures key !in kw ==> r == Some(map[])
    ensures key in kw ==> (r.Some? <==> kw[key].Obj?)
    ensures key in kw && r.Some? ==> kw[key] == Obj(r.value)
  {
    if key !in kw then Some(map[])
    else if kw[key].Obj? then Some(kw[key].fields)
    else None
  }

  /** An `Optional[dict]` field defaulting to `None`. */
  function NullableDict(kw: Kwargs, key: string): (r: Option<Option<map<string, Value>>>)
    ensures key !in kw ==> r == Some(None)
    ensures key in kw ==> (r.Some? <==> kw[key].Null? || kw[key].Obj?)
    ensures key in kw && kw[key].Obj? ==> r == Some(Some(kw[key].fields))
    ensures key in kw && kw[key].Null? ==> r == Some(None)
  {
    if key !in kw then Some(None)
    else match kw[key]
      case Null => Some(None)
      case Obj(m) => Some(Some(m))
      case _ => None
  }

  /** A `Literal["tag"] = "tag"` discriminator field: absent, or exactly the tag. */
  predicate LiteralOk(kw: Kwargs, key: string, tag: string) {
    key !in kw || kw[key] == Str(tag)
  }
}

=== FILE: world.dfy ===
/** The `World` class of `world.py`: the location graph, the object store, the agents'
    whereabouts, per-agent event queues, the simulation clock and the ledger of agent locks
    with their deferred effects.

    The Python methods mutate `self`; here each is a function from the old state to the new one
    (plus the method's return value). Simulation time is a count of minutes since midnight of
    2024-01-01, so the start, Monday 08:00, is 480. */
module World {
  import opened Values
  import opened Seqs
  import opened Schemas

  /** `TICK_DURATION_MINUTES` in `config.py`. */
  const TickDurationMinutes := 10

  /** `datetime(2024, 1, 1, 8, 0)` in minutes since 2024-01-01 00:00. */
  const SimulationStart := 480

  /** A deferred effect `{"type": kind, "args": args}` stored with a lock. */
  datatype Effect = Effect(kind: string, args: Kwargs)

  /** One entry of `agent_locks`. */
  datatype AgentLock = AgentLock(untilTime: int, reason: string, completionMessage: string, pendingEffects: seq<Effect>)

  datatype WorldState = WorldState(
    edges: set<(string, string)>,
    locations: map<string, Location>,
    objects: map<string, WorldObject>,
    pendingEvents: map<string, seq<string>>,
    agentLocks: map<string, AgentLock>,
    agentLocations: map<string, string>,
    simTime: int)

  /** `graph.has_edge(a, b)` on the undirected location graph. */
  predicate HasEdge(w: WorldState, a: string, b: string) {
    (a, b) in w.edges || (b, a) in w.edges
  }

  /** A mutated world together with the method's boolean return value. */
  datatype Outcome = Outcome(world: WorldState, ok: bool)

  /** The fields no object or agent operation touches. */
  predicate SameClockAndLedger(a: WorldState, b: WorldState) {
    a.edges == b.edges && a.pendingEvents == b.pendingEvents && a.agentLocks == b.agentLocks
    && a.agentLocations == b.agentLocations && a.simTime == b.simTime
  }

  /** Two location tables that differ at most in the `objects` lists. */
  predicate PeopleKept(a: map<string, Location>, b: map<string, Location>) {
    a.Keys == b.Keys
    && forall l :: l in a ==> (a[l].id == b[l].id && a[l].name == b[l].name && a[l].description == b[l].description
      && a[l].connectedTo == b[l].connectedTo && a[l].agentsPresent == b[l].agentsPresent)
  }

  /** Two location tables that differ at most in the `agents_present` lists. */
  predicate ObjectListsKept(a: map<string, Location>, b: map<string, Location>) {
    a.Keys == b.Keys
    && forall l :: l in a ==> (a[l].id == b[l].id && a[l].name == b[l].name && a[l].description == b[l].description
      && a[l].connectedTo == b[l].connectedTo && a[l].objects == b[l].objects)
  }

  // ---------------------------------------------------------------------------
  // Loading
  // ---------------------------------------------------------------------------

  /** One entry of the configuration's `locations` list; absent lists are `None`. */
  datatype LocationConfig = LocationConfig(
    id: string, name: string, description: string,
    connectedTo: Option<seq<string>>, objects: Option<seq<string>>)

  /** One entry of the configuration's `objects` list; the location key is `location`. */
  datatype ObjectConfig = ObjectConfig(
    id: string, name: string, location: string, state: Option<string>,
    description: string, properties: Option<seq<string>>)

  datatype Config = Config(locations: seq<LocationConfig>, objects: seq<ObjectConfig>)

  function LocationOf(c: LocationConfig): Location {
    Location(c.id, c.name, c.description, c.connectedTo.GetOr([]), c.objects.GetOr([]), [])
  }

  function ObjectOf(c: ObjectConfig): WorldObject {
    WorldObject(c.id, c.name, Some(c.location), c.state.GetOr("normal"), c.description, c.properties.GetOr([]))
  }

  /** The edges a location entry declares: one per `connected_to` target. */
  function EdgesOf(c: LocationConfig): set<(string, string)> {
    set t | t in c.connectedTo.GetOr([]) :: (c.id, t)
  }

  /** No later entry reuses the id of entry `i`: it is the one that survives loading. */
  predicate LastLocationWithId(cs: seq<LocationConfig>, i: int)
    requires 0 <= i < |cs|
  {
    forall j :: i < j < |cs| ==> cs[j].id != cs[i].id
  }

  predicate LastObjectWithId(cs: seq<ObjectConfig>, i: int)
    requires 0 <= i < |cs|
  {
    forall j :: i < j < |cs| ==> cs[j].id != cs[i].id
  }

  /** The `locations` table after loading the entries in order. */
  function LocationTable(cs: seq<LocationConfig>): (m: map<string, Location>)
    ensures forall id :: id in m <==> exists i :: 0 <= i < |cs| && cs[i].id == id
    decreases |cs|
  {
    if |cs| == 0 then map[]
    else
      var m0 := LocationTable(cs[..|cs| - 1]);
      assert forall i :: 0 <= i < |cs| - 1 ==> cs[..|cs| - 1][i] == cs[i];
      m0[cs[|cs| - 1].id := LocationOf(cs[|cs| - 1])]
  }

  /** The `objects` table after loading the entries in order. */
  function ObjectTable(cs: seq<ObjectConfig>): (m: map<string, WorldObject>)
    ensures forall id :: id in m <==> exists i :: 0 <= i < |cs| && cs[i].id == id
    decreases |cs|
  {
    if |cs| == 0 then map[]
    else
      var m0 := ObjectTable(cs[..|cs| - 1]);
      assert forall i :: 0 <= i < |cs| - 1 ==> cs[..|cs| - 1][i] == cs[i];
      m0[cs[|cs| - 1].id := ObjectOf(cs[|cs| - 1])]
  }

  /** A later location entry replaces an earlier one with the same id. */
  lemma {:induction false} LocationTableLastWins(cs: seq<LocationConfig>, i: int)
    requires 0 <= i < |cs| && LastLocationWithId(cs, i)
    ensures cs[i].id in LocationTable(cs) && LocationTable(cs)[cs[i].id] == LocationOf(cs[i])
    decreases |cs|
  {
    if i < |cs| - 1 {
      var p := cs[..|cs| - 1];
      assert p[i] == cs[i];
      assert LastLocationWithId(p, i) by {
        forall j | i < j < |p| ensures p[j].id != p[i].id {
          assert p[j] == cs[j];
        }
      }
      LocationTableLastWins(p, i);
    }
  }

  /** A later object entry replaces an earlier one with the same id. */
  lemma {:induction false} ObjectTableLastWins(cs: seq<ObjectConfig>, i: int)
    requires 0 <= i < |cs| && LastObjectWithId(cs, i)
    ensures cs[i].id in ObjectTable(cs) && ObjectTable(cs)[cs[i].id] == ObjectOf(cs[i])
    decreases |cs|
  {
    if i < |cs| - 1 {
      var p := cs[..|cs| - 1];
      assert p[i] == cs[i];
      assert LastObjectWithId(p, i) by {
        forall j | i < j < |p| ensures p[j].id != p[i].id {
          assert p[j] == cs[j];
        }
      }
      ObjectTableLastWins(p, i);
    }
  }

  /** The graph's edges: every `connected_to` target of every entry, accumulated. */
  function EdgeSet(cs: seq<LocationConfig>): (e: set<(string, string)>)
    ensures forall a, b :: (a, b) in e <==> exists i :: 0 <= i < |cs| && cs[i].id == a && b in cs[i].connectedTo.GetOr([])
    decreases |cs|
  {
    if |cs| == 0 then {}
    else
      var e0 := EdgeSet(cs[..|cs| - 1]);
      assert forall i :: 0 <= i < |cs| - 1 ==> cs[..|cs| - 1][i] == cs[i];
      e0 + EdgesOf(cs[|cs| - 1])
  }

  /** `World.__init__` with `World._load_from_config`: every configured location and object is
      present, a repeated id keeps its last entry, every `connected_to` target is an edge (even
      one naming no configured location), nobody is anywhere yet, and the clock is at the start. */
  function LoadFromConfig(cfg: Config): (w: WorldState)
    ensures forall id :: id in w.locations <==> exists i :: 0 <= i < |cfg.locations| && cfg.locations[i].id == id
    ensures forall id :: id in w.objects <==> exists i :: 0 <= i < |cfg.objects| && cfg.objects[i].id == id
    ensures forall a, b :: (a, b) in w.edges <==>
      exists i :: 0 <= i < |cfg.locations| && cfg.locations[i].id == a && b in cfg.locations[i].connectedTo.GetOr([])
    ensures w.pendingEvents == map[] && w.agentLocks == map[] && w.agentLocations == map[]
    ensures w.simTime == SimulationStart
  {
    WorldState(EdgeSet(cfg.locations), LocationTable(cfg.locations), ObjectTable(cfg.objects),
               map[], map[], map[], SimulationStart)
  }

  /** Every loaded location comes from an entry that no later entry overrides, so it starts with
      nobody present. */
  lemma {:induction false} LoadedLocationsEmpty(cfg: Config)
    ensures forall l :: l in LoadFromConfig(cfg).locations ==> LoadFromConfig(cfg).locations[l].agentsPresent == []
  {
    var w := LoadFromConfig(cfg);
    forall l | l in w.locations
      ensures w.locations[l].agentsPresent == []
    {
      var i := LastIndexWithId(cfg.locations, l);
      LocationTableLastWins(cfg.locations, i);
    }
  }

  function LastIndexWithId(cs: seq<LocationConfig>, l: string): (i: nat)
    requires exists k :: 0 <= k < |cs| && cs[k].id == l
    ensures i < |cs| && cs[i].id == l && LastLocationWithId(cs, i)
    decreases |cs|
  {
    if cs[|cs| - 1].id == l then |cs| - 1
    else
      assert exists k :: 0 <= k < |cs| - 1 && cs[..|cs| - 1][k] == cs[k] && cs[k].id == l;
      LastIndexWithId(cs[..|cs| - 1], l)
  }

  function LastObjectIndexWithId(cs: seq<ObjectConfig>, o: string): (j: nat)
    requires exists k :: 0 <= k < |cs| && cs[k].id == o
    ensures j < |cs| && cs[j].id == o && LastObjectWithId(cs, j)
    decreases |cs|
  {
    if cs[|cs| - 1].id == o then |cs| - 1
    else
      assert exists k :: 0 <= k < |cs| - 1 && cs[..|cs| - 1][k] == cs[k] && cs[k].id == o;
      LastObjectIndexWithId(cs[..|cs| - 1], o)
  }

  // ---------------------------------------------------------------------------
  // Agents
  // ---------------------------------------------------------------------------

  function PeopleAt(w: WorldState, lid: string): seq<string> {
    if lid in w.locations then w.locations[lid].agentsPresent else []
  }

  /** Appends an agent to a known location's `agents_present`. */
  function PutOn(w: WorldState, lid: string, agent: string): (r: WorldState)
    requires lid in w.locations
    ensures PeopleAt(r, lid) == PeopleAt(w, lid) + [agent]
    ensures forall l :: l != lid ==> PeopleAt(r, l) == PeopleAt(w, l)
    ensures ObjectListsKept(w.locations, r.locations)
    ensures r.objects == w.objects && SameClockAndLedger(r, w)
  {
    WithPeople(w, lid, w.locations[lid].agentsPresent + [agent])
  }

  /** Takes the first entry of an agent off a known location's `agents_present`, if listed. */
  function TakeOff(w: WorldState, lid: string, agent: string): (r: WorldState)
    ensures PeopleAt(r, lid) == RemoveFirst(PeopleAt(w, lid), agent)
    ensures forall l :: l != lid ==> PeopleAt(r, l) == PeopleAt(w, l)
    ensures ObjectListsKept(w.locations, r.locations)
    ensures r.objects == w.objects && SameClockAndLedger(r, w)
  {
    if lid in w.locations && agent in w.locations[lid].agentsPresent then WithPeople(w, lid, RemoveFirst(w.locations[lid].agentsPresent, agent))
    else w
  }

  /** Replaces a known location's `agents_present` list. */
  function WithPeople(w: WorldState, lid: string, people: seq<string>): (r: WorldState)
    requires lid in w.locations
    ensures PeopleAt(r, lid) == people
    ensures forall l :: l != lid ==> PeopleAt(r, l) == PeopleAt(w, l)
    ensures ObjectListsKept(w.locations, r.locations)
    ensures r.objects == w.objects && SameClockAndLedger(r, w)
  {
    w.(locations := w.locations[lid := w.locations[lid].(agentsPresent := people)])
  }

  /** `World.place_agent`: succeeds exactly for a known location; the agent is then recorded there
      and listed there once (no duplicate is added). Its entry in any previous location's list
      stays where it was. */
  function PlaceAgent(w: WorldState, agent: string, lid: string): (r: Outcome)
    ensures r.ok <==> lid in w.locations
    ensures !r.ok ==> r.world == w
    ensures r.ok ==> r.world.agentLocations == w.agentLocations[agent := lid]
    ensures r.ok ==> r.world.locations.Keys == w.locations.Keys
    ensures r.ok ==> PeopleAt(r.world, lid) == if agent in PeopleAt(w, lid) then PeopleAt(w, lid) else PeopleAt(w, lid) + [agent]
    ensures r.ok ==> forall l :: l in w.locations && l != lid ==> r.world.locations[l] == w.locations[l]
    ensures r.world.objects == w.objects && r.world.edges == w.edges && r.world.pendingEvents == w.pendingEvents
    ensures r.world.agentLocks == w.agentLocks && r.world.simTime == w.simTime
  {
    if lid !in w.locations then Outcome(w, false)
    else
      var people := w.locations[lid].agentsPresent;
      var w1 := if agent in people then w else PutOn(w, lid, agent);
      Outcome(w1.(agentLocations := w.agentLocations[agent := lid]), true)
  }

  /** `World.get_agent_location(...)` read for truthiness: `None` and `""` both count as absent. */
  function CurrentLocation(w: WorldState, agent: string): Option<string> {
    if agent in w.agentLocations && w.agentLocations[agent] != "" then Some(w.agentLocations[agent]) else None
  }

  /** `World.move_agent`. It fails, changing nothing, when the agent has no location or there is
      no edge from it; it fails after taking the agent off its old list when the edge leads to an
      id that is not a location; otherwise the agent is taken off the old list, appended to the
      new one and recorded there. */
  function MoveAgent(w: WorldState, agent: string, to: string): (r: Outcome)
    ensures r.ok <==> CurrentLocation(w, agent).Some? && HasEdge(w, CurrentLocation(w, agent).value, to) && to in w.locations
    ensures CurrentLocation(w, agent).None? || !HasEdge(w, CurrentLocation(w, agent).value, to) ==> r.world == w
    ensures r.ok ==> r.world.agentLocations == w.agentLocations[agent := to] && agent in PeopleAt(r.world, to)
    ensures !r.ok ==> r.world.agentLocations == w.agentLocations
    ensures ObjectListsKept(w.locations, r.world.locations)
    ensures r.world.objects == w.objects && r.world.edges == w.edges && r.world.pendingEvents == w.pendingEvents
    ensures r.world.agentLocks == w.agentLocks && r.world.simTime == w.simTime
  {
    match CurrentLocation(w, agent)
    case None => Outcome(w, false)
    case Some(from) =>
      if !HasEdge(w, from, to) then Outcome(w, false)
      else
        var w1 := TakeOff(w, from, agent);
        if to in w1.locations then Outcome(PutOn(w1, to, agent).(agentLocations := w.agentLocations[agent := to]), true)
        else Outcome(w1, false)
  }

  /** After a successful move between two different locations the agent is listed once more at
      the destination and, if it was listed at the origin, once less there; every location other
      than these two keeps its list. */
  lemma MoveAgentCounts(w: WorldState, agent: string, to: string)
    requires MoveAgent(w, agent, to).ok
    ensures var from := CurrentLocation(w, agent).value; var w1 := MoveAgent(w, agent, to).world;
      && (from != to ==> Count(PeopleAt(w1, to), agent) == Count(PeopleAt(w, to), agent) + 1)
      && (from != to && agent in PeopleAt(w, from) ==> Count(PeopleAt(w1, from), agent) == Count(PeopleAt(w, from), agent) - 1)
      && (forall l :: l != from && l != to ==> PeopleAt(w1, l) == PeopleAt(w, l))
  {
    var from := CurrentLocation(w, agent).value;
    var w0 := TakeOff(w, from, agent);
    var w1 := MoveAgent(w, agent, to).world;
    PeopleAfterMove(w, agent, to, to);
    CountSnoc(PeopleAt(w0, to), agent, agent);
    if from != to {
      PeopleAfterMove(w, agent, to, from);
    }
    forall l | l != from && l != to
      ensures PeopleAt(w1, l) == PeopleAt(w, l)
    {
      PeopleAfterMove(w, agent, to, l);
    }
  }

  /** The lists after a successful move: the origin's entry taken off, then the agent appended at
      the destination. */
  lemma PeopleAfterMove(w: WorldState, agent: string, to: string, l: string)
    requires MoveAgent(w, agent, to).ok
    ensures var from := CurrentLocation(w, agent).value; var w0 := TakeOff(w, from, agent);
      PeopleAt(MoveAgent(w, agent, to).world, l) == if l == to then PeopleAt(w0, to) + [agent] else PeopleAt(w0, l)
    ensures var from := CurrentLocation(w, agent).value;
      PeopleAt(TakeOff(w, from, agent), l) == if l == from then RemoveFirst(PeopleAt(w, from), agent) else PeopleAt(w, l)
  {
    var from := CurrentLocation(w, agent).value;
    var w0 := TakeOff(w, from, agent);
    var w2 := PutOn(w0, to, agent);
    assert MoveAgent(w, agent, to).world == w2.(agentLocations := w.agentLocations[agent := to]);
  }

  /** What `move_agent` does to each list: one entry of the mover leaves its recorded location
      whenever there is an edge, and the mover is appended at the target when the move succeeds. */
  lemma MovePeople(w: WorldState, agent: string, to: string, l: string)
    ensures var r := MoveAgent(w, agent, to);
      var from := CurrentLocation(w, agent);
      var taken := if from.Some? && HasEdge(w, from.value, to) && l == from.value then RemoveFirst(PeopleAt(w, l), agent) else PeopleAt(w, l);
      PeopleAt(r.world, l) == if r.ok && l == to then taken + [agent] else taken
  {
  }

  /** Moving one agent never changes how often any other agent is listed anywhere. */
  lemma MoveAgentKeepsOthers(w: WorldState, agent: string, to: string, l: string, p: string)
    requires p != agent
    ensures Count(PeopleAt(MoveAgent(w, agent, to).world, l), p) == Count(PeopleAt(w, l), p)
  {
    var from := CurrentLocation(w, agent);
    var xs := PeopleAt(w, l);
    MovePeople(w, agent, to, l);
    CountSnoc(xs, agent, p);
    CountSnoc(RemoveFirst(xs, agent), agent, p);
  }

  // ---------------------------------------------------------------------------
  // Objects
  // ---------------------------------------------------------------------------

  function ObjectsAt(w: WorldState, lid: string): seq<string> {
    if lid in w.locations then w.locations[lid].objects else []
  }

  /** Replaces a known location's `objects` list. */
  function WithObjects(w: WorldState, lid: string, objects: seq<string>): (r: WorldState)
    requires lid in w.locations
    ensures ObjectsAt(r, lid) == objects
    ensures r.locations.Keys == w.locations.Keys
    ensures forall l :: l in w.locations && l != lid ==> r.locations[l] == w.locations[l]
    ensures PeopleKept(w.locations, r.locations)
    ensures r.objects == w.objects && SameClockAndLedger(r, w)
  {
    w.(locations := w.locations[lid := w.locations[lid].(objects := objects)])
  }

  /** Appends an object id to a known location's `objects` list; nothing for an unknown id. */
  function AddToList(w: WorldState, lid: string, oid: string): (r: WorldState)
    ensures ObjectsAt(r, lid) == if lid in w.locations then ObjectsAt(w, lid) + [oid] else []
    ensures r.locations.Keys == w.locations.Keys
    ensures forall l :: l in w.locations && l != lid ==> r.locations[l] == w.locations[l]
    ensures PeopleKept(w.locations, r.locations)
    ensures r.objects == w.objects && SameClockAndLedger(r, w)
  {
    if lid in w.locations then WithObjects(w, lid, w.locations[lid].objects + [oid]) else w
  }

  /** Removes the first occurrence of an object id from a known location's list, if it is there. */
  function RemoveFromList(w: WorldState, lid: string, oid: string): (r: WorldState)
    ensures ObjectsAt(r, lid) == RemoveFirst(ObjectsAt(w, lid), oid)
    ensures r.locations.Keys == w.locations.Keys
    ensures forall l :: l in w.locations && l != lid ==> r.locations[l] == w.locations[l]
    ensures PeopleKept(w.locations, r.locations)
    ensures r.objects == w.objects && SameClockAndLedger(r, w)
  {
    if lid in w.locations && oid in w.locations[lid].objects then WithObjects(w, lid, RemoveFirst(w.locations[lid].objects, oid))
    else w
  }

  /** `World.create_object`: refuses an id already in use, changing nothing; otherwise stores the
      object and appends its id to the location's list when the location id is non-empty and
      known. */
  function CreateObject(w: WorldState, oid: string, name: string, lid: string, state: string,
                        description: string, properties: seq<string>): (r: Outcome)
    ensures r.ok <==> oid !in w.objects
    ensures !r.ok ==> r.world == w
    ensures r.ok ==> r.world.objects == w.objects[oid := WorldObject(oid, name, Some(lid), state, description, properties)]
    ensures r.ok ==> r.world.locations == (if lid != "" && lid in w.locations then AddToList(w, lid, oid).locations else w.locations)
    ensures SameClockAndLedger(r.world, w)
  {
    if oid in w.objects then Outcome(w, false)
    else
      var w1 := w.(objects := w.objects[oid := WorldObject(oid, name, Some(lid), state, description, properties)]);
      Outcome(if lid != "" then AddToList(w1, lid, oid) else w1, true)
  }

  /** `World.destroy_object`: fails for an unknown id; otherwise the object is gone and one entry
      of its id leaves the list of the location it records, when that location is known. */
  function DestroyObject(w: WorldState, oid: string): (r: Outcome)
    ensures r.ok <==> oid in w.objects
    ensures !r.ok ==> r.world == w
    ensures r.world.objects == w.objects - {oid}
    ensures r.ok ==> (r.world.locations ==
      var at := w.objects[oid].locationId;
      if Present(at) then RemoveFromList(w, at.value, oid).locations else w.locations)
    ensures SameClockAndLedger(r.world, w)
  {
    if oid !in w.objects then Outcome(w, false)
    else
      var at := w.objects[oid].locationId;
      var w1 := if Present(at) then RemoveFromList(w, at.value, oid) else w;
      Outcome(w1.(objects := w.objects - {oid}), true)
  }

  /** The four transfer shapes of `World.transfer_object`, checked in this order on the truthiness
      of the arguments. */
  datatype TransferShape = Drop | PickUp | Give | Relocate | Invalid

  function ShapeOf(fromLoc: Option<string>, toLoc: Option<string>, fromAgent: Option<string>, toAgent: Option<string>): TransferShape {
    if Present(fromAgent) && Present(toLoc) then Drop
    else if Present(fromLoc) && Present(toAgent) then PickUp
    else if Present(fromAgent) && Present(toAgent) then Give
    else if Present(fromLoc) && Present(toLoc) then Relocate
    else Invalid
  }

  /** `World.transfer_object`. A drop records the destination and appends the id there without
      touching any other list; a pick-up removes the id from the source list and clears the
      object's location; a give changes nothing; a relocation removes from the source list, then
      records and appends to the destination. It fails, changing nothing, for an unknown object or
      an argument combination none of the four shapes accepts. */
  function TransferObject(w: WorldState, oid: string, fromLoc: Option<string>, toLoc: Option<string>,
                          fromAgent: Option<string>, toAgent: Option<string>): (r: Outcome)
    ensures r.ok <==> oid in w.objects && ShapeOf(fromLoc, toLoc, fromAgent, toAgent) != Invalid
    ensures !r.ok ==> r.world == w
    ensures r.world.objects.Keys == w.objects.Keys
    ensures forall o :: o in w.objects && o != oid ==> r.world.objects[o] == w.objects[o]
    ensures r.ok ==> r.world.objects[oid] == w.objects[oid].(locationId :=
      match ShapeOf(fromLoc, toLoc, fromAgent, toAgent)
      case Drop => toLoc
      case Relocate => toLoc
      case PickUp => None
      case _ => w.objects[oid].locationId)
    ensures PeopleKept(w.locations, r.world.locations)
    ensures SameClockAndLedger(r.world, w)
  {
    if oid !in w.objects then Outcome(w, false)
    else
      var obj := w.objects[oid];
      match ShapeOf(fromLoc, toLoc, fromAgent, toAgent)
      case Drop =>
        Outcome(AddToList(w.(objects := w.objects[oid := obj.(locationId := toLoc)]), toLoc.value, oid), true)
      case PickUp =>
        Outcome(RemoveFromList(w, fromLoc.value, oid).(objects := w.objects[oid := obj.(locationId := None)]), true)
      case Give => Outcome(w, true)
      case Relocate =>
        var w1 := RemoveFromList(w, fromLoc.value, oid);
        Outcome(AddToList(w1.(objects := w.objects[oid := obj.(locationId := toLoc)]), toLoc.value, oid), true)
      case Invalid => Outcome(w, false)
  }

  /** The location a transfer of the given shape takes the id off. */
  function TakeAt(shape: TransferShape, fromLoc: Option<string>): Option<string> {
    if shape == PickUp || shape == Relocate then fromLoc else None
  }

  /** The location a transfer of the given shape puts the id on. */
  function PutAt(shape: TransferShape, toLoc: Option<string>): Option<string> {
    if shape == Drop || shape == Relocate then toLoc else None
  }

  /** The list after taking `x` out (first occurrence) when `take` and appending it when `put`. */
  function TakePutList(xs: seq<string>, x: string, take: bool, put: bool): seq<string> {
    var removed := if take then RemoveFirst(xs, x) else xs;
    if put then removed + [x] else removed
  }

  /** What a transfer does to each location's `objects` list: a drop appends at the destination,
      a pick-up removes the first entry at the source, a relocation does both (removal first),
      and a give or a refused transfer leaves every list alone. */
  lemma TransferLists(w: WorldState, oid: string, fromLoc: Option<string>, toLoc: Option<string>,
                      fromAgent: Option<string>, toAgent: Option<string>, l: string)
    ensures var shape := if oid in w.objects then ShapeOf(fromLoc, toLoc, fromAgent, toAgent) else Invalid;
      ObjectsAt(TransferObject(w, oid, fromLoc, toLoc, fromAgent, toAgent).world, l)
        == TakePutList(ObjectsAt(w, l), oid, TakeAt(shape, fromLoc) == Some(l), PutAt(shape, toLoc) == Some(l) && l in w.locations)
  {
    if oid in w.objects {
      match ShapeOf(fromLoc, toLoc, fromAgent, toAgent)
      case Drop => TransferPutsAt(w, oid, fromLoc, toLoc, fromAgent, toAgent, l);
      case Relocate => TransferPutsAt(w, oid, fromLoc, toLoc, fromAgent, toAgent, l);
      case PickUp => TransferTakesAt(w, oid, fromLoc, toLoc, fromAgent, toAgent, l);
      case Give =>
      case Invalid =>
    }
  }

  /** The lists after a drop or a relocation. */
  lemma TransferPutsAt(w: WorldState, oid: string, fromLoc: Option<string>, toLoc: Option<string>,
                       fromAgent: Option<string>, toAgent: Option<string>, l: string)
    requires oid in w.objects
    requires ShapeOf(fromLoc, toLoc, fromAgent, toAgent) in {Drop, Relocate}
    ensures var shape := ShapeOf(fromLoc, toLoc, fromAgent, toAgent);
      ObjectsAt(TransferObject(w, oid, fromLoc, toLoc, fromAgent, toAgent).world, l)
        == TakePutList(ObjectsAt(w, l), oid, TakeAt(shape, fromLoc) == Some(l), toLoc == Some(l) && l in w.locations)
  {
    var obj := w.objects[oid];
    var w1 := if ShapeOf(fromLoc, toLoc, fromAgent, toAgent) == Relocate then RemoveFromList(w, fromLoc.value, oid) else w;
    var w0 := w1.(objects := w.objects[oid := obj.(locationId := toLoc)]);
    assert TransferObject(w, oid, fromLoc, toLoc, fromAgent, toAgent).world == AddToList(w0, toLoc.value, oid);
    if ShapeOf(fromLoc, toLoc, fromAgent, toAgent) == Relocate {
      RemoveFromListAt(w, fromLoc.value, oid, l);
    }
    AddToListAt(w0, toLoc.value, oid, l);
  }

  /** The lists after a pick-up. */
  lemma TransferTakesAt(w: WorldState, oid: string, fromLoc: Option<string>, toLoc: Option<string>,
                        fromAgent: Option<string>, toAgent: Option<string>, l: string)
    requires oid in w.objects
    requires ShapeOf(fromLoc, toLoc, fromAgent, toAgent) == PickUp
    ensures ObjectsAt(TransferObject(w, oid, fromLoc, toLoc, fromAgent, toAgent).world, l)
        == TakePutList(ObjectsAt(w, l), oid, fromLoc == Some(l), false)
  {
    assert TransferObject(w, oid, fromLoc, toLoc, fromAgent, toAgent).world.locations == RemoveFromList(w, fromLoc.value, oid).locations;
    RemoveFromListAt(w, fromLoc.value, oid, l);
  }

  lemma AddToListAt(w: WorldState, lid: string, oid: string, l: string)
    ensures ObjectsAt(AddToList(w, lid, oid), l) == if l == lid && lid in w.locations then ObjectsAt(w, l) + [oid] else ObjectsAt(w, l)
  {
  }

  lemma RemoveFromListAt(w: WorldState, lid: string, oid: string, l: string)
    ensures ObjectsAt(RemoveFromList(w, lid, oid), l) == if l == lid then RemoveFirst(ObjectsAt(w, l), oid) else ObjectsAt(w, l)
  {
  }

  // ---------------------------------------------------------------------------
  // Events
  // ---------------------------------------------------------------------------

  /** `pending_events.get(agent, [])`. */
  function Pending(pe: map<string, seq<string>>, agent: string): seq<string> {
    if agent in pe then pe[agent] else []
  }

  /** How many copies of a broadcast an agent receives: one per entry of the list, none when excluded. */
  function Copies(people: seq<string>, agent: string, exclude: Option<string>): nat {
    if exclude == Some(agent) then 0 else Count(people, agent)
  }

  /** The loop of `broadcast_to_location` over `agents_present`, in list order. */
  function Deliver(pe: map<string, seq<string>>, people: seq<string>, message: string, exclude: Option<string>): map<string, seq<string>>
    decreases |people|
  {
    if |people| == 0 then pe
    else
      var last := people[|people| - 1];
      var pe0 := Deliver(pe, people[..|people| - 1], message, exclude);
      if exclude == Some(last) then pe0 else pe0[last := Pending(pe0, last) + [message]]
  }

  /** Each agent's queue gains one copy of the message per listing, after what it already held. */
  lemma {:induction false} DeliverPending(pe: map<string, seq<string>>, people: seq<string>, message: string, exclude: Option<string>, a: string)
    ensures Pending(Deliver(pe, people, message, exclude), a) == Pending(pe, a) + Repeat(message, Copies(people, a, exclude))
    decreases |people|
  {
    if |people| == 0 {
      assert Repeat(message, 0) == [];
    } else {
      var last := people[|people| - 1];
      var init := people[..|people| - 1];
      var n := Copies(init, a, exclude);
      DeliverPending(pe, init, message, exclude, a);
      DeliverStep(pe, people, message, exclude, a);
      CountLast(people, a);
      if a == last && exclude != Some(a) {
        assert Copies(people, a, exclude) == n + 1;
        RepeatAppend(Pending(pe, a), message, n);
      } else {
        assert Copies(people, a, exclude) == n;
      }
    }
  }

  /** One more copy after a queue holding `n` copies. */
  lemma RepeatAppend(p: seq<string>, x: string, n: nat)
    ensures (p + Repeat(x, n)) + [x] == p + Repeat(x, n + 1)
  {
    RepeatSnoc(x, n);
    assert (p + Repeat(x, n)) + [x] == p + (Repeat(x, n) + [x]);
  }

  /** One step of the loop: only the last listed agent's queue grows, by one message. */
  lemma DeliverStep(pe: map<string, seq<string>>, people: seq<string>, message: string, exclude: Option<string>, a: string)
    requires |people| > 0
    ensures var last := people[|people| - 1];
      var before := Pending(Deliver(pe, people[..|people| - 1], message, exclude), a);
      Pending(Deliver(pe, people, message, exclude), a) == if a == last && exclude != Some(a) then before + [message] else before
  {
  }

  lemma {:induction false} RepeatSnoc(x: string, n: nat)
    ensures Repeat(x, n) + [x] == Repeat(x, n + 1)
  {
    if n > 0 {
      RepeatSnoc(x, n - 1);
      assert Repeat(x, n) + [x] == [x] + (Repeat(x, n - 1) + [x]);
    }
  }

  /** `World.broadcast_to_location`: only the event queues change, and only for a known location. */
  function Broadcast(w: WorldState, lid: Option<string>, message: string, exclude: Option<string>): (r: WorldState)
    ensures lid.None? || lid.value !in w.locations ==> r == w
    ensures lid.Some? && lid.value in w.locations ==>
      r == w.(pendingEvents := Deliver(w.pendingEvents, PeopleAt(w, lid.value), message, exclude))
  {
    if lid.None? || lid.value !in w.locations then w
    else w.(pendingEvents := Deliver(w.pendingEvents, w.locations[lid.value].agentsPresent, message, exclude))
  }

  /** Each agent listed at the location, except the excluded one, has the message appended to its
      queue once per listing; nobody else's queue changes, and neither does anything else. */
  lemma BroadcastDelivers(w: WorldState, lid: Option<string>, message: string, exclude: Option<string>, a: string)
    ensures Pending(Broadcast(w, lid, message, exclude).pendingEvents, a) ==
      Pending(w.pendingEvents, a) + Repeat(message, if lid.Some? then Copies(PeopleAt(w, lid.value), a, exclude) else 0)
    ensures Broadcast(w, lid, message, exclude).(pendingEvents := map[]) == w.(pendingEvents := map[])
  {
    if lid.Some? && lid.value in w.locations {
      DeliverPending(w.pendingEvents, PeopleAt(w, lid.value), message, exclude, a);
    } else {
      assert Repeat(message, 0) == [];
      if lid.Some? {
        assert PeopleAt(w, lid.value) == [];
      }
    }
  }

  /** The result of `get_pending_events`: the queue handed out and the world without it. */
  datatype Drained = Drained(world: WorldState, events: seq<string>)

  /** `World.get_pending_events`: returns the agent's queue (empty if none) and removes it. */
  function GetPendingEvents(w: WorldState, agent: string): (r: Drained)
    ensures r.events == Pending(w.pendingEvents, agent)
    ensures Pending(r.world.pendingEvents, agent) == [] && agent !in r.world.pendingEvents
    ensures forall a :: a != agent ==> Pending(r.world.pendingEvents, a) == Pending(w.pendingEvents, a)
    ensures r.world.(pendingEvents := map[]) == w.(pendingEvents := map[])
  {
    Drained(w.(pendingEvents := w.pendingEvents - {agent}), Pending(w.pendingEvents, agent))
  }

  /** Queues are consumed: a second read right after the first returns nothing. */
  lemma DrainTwice(w: WorldState, agent: string)
    ensures GetPendingEvents(GetPendingEvents(w, agent).world, agent).events == []
  {
  }

  /** A broadcast reaches a listed, non-excluded agent exactly as often as it is listed, after
      whatever was already queued for it, and nobody else's queue gains anything. */
  lemma BroadcastThenDrain(w: WorldState, lid: string, message: string, exclude: Option<string>, agent: string)
    requires lid in w.locations
    ensures GetPendingEvents(Broadcast(w, Some(lid), message, exclude), agent).events ==
      Pending(w.pendingEvents, agent) + Repeat(message, Copies(w.locations[lid].agentsPresent, agent, exclude))
    ensures agent !in w.locations[lid].agentsPresent || exclude == Some(agent) ==>
      GetPendingEvents(Broadcast(w, Some(lid), message, exclude), agent).events == Pending(w.pendingEvents, agent)
  {
    BroadcastDelivers(w, Some(lid), message, exclude, agent);
  }

  // ---------------------------------------------------------------------------
  // Time and locks
  // ---------------------------------------------------------------------------

  /** `World.advance_time`: one tick later; nothing else changes. */
  function AdvanceTime(w: WorldState): (r: WorldState)
    ensures r.simTime == w.simTime + TickDurationMinutes
    ensures r.(simTime := 0) == w.(simTime := 0)
  {
    w.(simTime := w.simTime + TickDurationMinutes)
  }

  /** `n` calls of `advance_time`. */
  function AdvanceTicks(w: WorldState, n: nat): (r: WorldState)
    ensures r.simTime == w.simTime + n * TickDurationMinutes
    ensures r.(simTime := 0) == w.(simTime := 0)
  {
    if n == 0 then w else AdvanceTime(AdvanceTicks(w, n - 1))
  }

  /** `completion_message or f"Finished {reason}."`. */
  function CompletionOrDefault(completion: Option<string>, reason: string): string {
    if Present(completion) then completion.value else "Finished " + reason + "."
  }

  /** `World.set_agent_lock`: the agent is locked until now plus the duration, replacing any lock
      it had; an empty or missing completion message becomes "Finished {reason}.". */
  function SetAgentLock(w: WorldState, agent: string, durationMinutes: int, reason: string,
                        completion: Option<string>, pendingEffects: seq<Effect>): (r: WorldState)
    ensures agent in r.agentLocks
    ensures r.agentLocks[agent].untilTime == w.simTime + durationMinutes
    ensures r.agentLocks[agent].reason == reason && r.agentLocks[agent].pendingEffects == pendingEffects
    ensures Present(completion) ==> r.agentLocks[agent].completionMessage == completion.value
    ensures !Present(completion) ==> r.agentLocks[agent].completionMessage == "Finished " + reason + "."
    ensures forall a :: a in w.agentLocks && a != agent ==> a in r.agentLocks && r.agentLocks[a] == w.agentLocks[a]
    ensures r.agentLocks.Keys == w.agentLocks.Keys + {agent}
    ensures r.(agentLocks := map[]) == w.(agentLocks := map[])
  {
    w.(agentLocks := w.agentLocks[agent := AgentLock(w.simTime + durationMinutes, reason,
                                                    CompletionOrDefault(completion, reason), pendingEffects)])
  }

  // ---------------------------------------------------------------------------
  // Replaying deferred effects
  // ---------------------------------------------------------------------------

  /** Why a replayed effect raised. `Unsupported` stands for storing a non-string where the model
      keeps strings (an object state or location), which the Python code would accept. */
  datatype ReplayError = TypeError | ValidationError | Unsupported

  /** The world after replaying effects, and the error that stopped the replay, if any. */
  datatype Replay = Replay(world: WorldState, error: Option<ReplayError>)

  const CreateParams: set<string> := {"object_id", "name", "location_id", "state", "description", "properties"}
  const TransferParams: set<string> := {"object_id", "from_location", "to_location", "from_agent", "to_agent"}

  /** Whether `f(**args)` binds: every key names a parameter and every required one is given. */
  predicate Binds(args: Kwargs, params: set<string>, required: set<string>) {
    args.Keys <= params && required <= args.Keys
  }

  /** `properties or []` followed by validation as `List[str]`. */
  function PropertiesArg(args: Kwargs): (r: Option<seq<string>>)
    ensures "properties" !in args || !Truthy(args["properties"]) ==> r == Some([])
    ensures r.Some? && r.value != [] ==> args["properties"] == StrList(r.value)
  {
    if "properties" !in args || !Truthy(args["properties"]) then Some([])
    else StrListOr(args, "properties")
  }

  /** `create_object(**args)` when it gets as far as building the `WorldObject`. */
  function ReplayCreate(w: WorldState, args: Kwargs): (r: Replay)
    ensures !Binds(args, CreateParams, {"object_id", "name", "location_id"}) ==> r == Replay(w, Some(TypeError))
    ensures Binds(args, CreateParams, {"object_id", "name", "location_id"}) && !Hashable(args["object_id"]) ==> r == Replay(w, Some(TypeError))
    ensures r.error.Some? ==> r.world == w
    ensures SameClockAndLedger(r.world, w)
  {
    if !Binds(args, CreateParams, {"object_id", "name", "location_id"}) then Replay(w, Some(TypeError))
    else if !Hashable(args["object_id"]) then Replay(w, Some(TypeError))
    else if args["object_id"].Str? && args["object_id"].s in w.objects then Replay(w, None)
    else
      var built := (
        var oid :- RequiredStr(args, "object_id");
        var name :- RequiredStr(args, "name");
        var lid :- RequiredStr(args, "location_id");
        var state :- StrOr(args, "state", "normal");
        var description :- StrOr(args, "description", "");
        var properties :- PropertiesArg(args);
        Some(CreateObject(w, oid, name, lid, state, description, properties).world));
      match built
      case None => Replay(w, Some(ValidationError))
      case Some(w1) => Replay(w1, None)
  }

  /** A transfer endpoint read for truthiness: falsy is "not given"; a truthy non-string is outside
      what the model stores (`None` here). */
  function Endpoint(v: Value): Option<Option<string>> {
    if !Truthy(v) then Some(None) else if v.Str? then Some(Some(v.s)) else None
  }

  datatype Endpoints = Endpoints(fromLoc: Option<string>, toLoc: Option<string>, fromAgent: Option<string>, toAgent: Option<string>)

  /** `transfer_object(**args)`. */
  function ReplayTransfer(w: WorldState, args: Kwargs): (r: Replay)
    ensures !Binds(args, TransferParams, {"object_id"}) ==> r == Replay(w, Some(TypeError))
    ensures r.error.Some? ==> r.world == w
    ensures SameClockAndLedger(r.world, w)
  {
    if !Binds(args, TransferParams, {"object_id"}) then Replay(w, Some(TypeError))
    else if !Hashable(args["object_id"]) then Replay(w, Some(TypeError))
    else if !args["object_id"].Str? || args["object_id"].s !in w.objects then Replay(w, None)
    else
      var ends := (
        var fl :- Endpoint(Get(args, "from_location"));
        var tl :- Endpoint(Get(args, "to_location"));
        var fa :- Endpoint(Get(args, "from_agent"));
        var ta :- Endpoint(Get(args, "to_agent"));
        Some(Endpoints(fl, tl, fa, ta)));
      match ends
      case None => Replay(w, Some(Unsupported))
      case Some(e) => Replay(TransferObject(w, args["object_id"].s, e.fromLoc, e.toLoc, e.fromAgent, e.toAgent).world, None)
  }

  /** `destroy_object(args.get("object_id"))`. */
  function ReplayDestroy(w: WorldState, args: Kwargs): (r: Replay)
    ensures r.error.Some? <==> !Hashable(Get(args, "object_id"))
    ensures r.error.Some? ==> r.world == w
    ensures SameClockAndLedger(r.world, w)
  {
    var v := Get(args, "object_id");
    if !Hashable(v) then Replay(w, Some(TypeError))
    else if v.Str? then Replay(DestroyObject(w, v.s).world, None)
    else Replay(w, None)
  }

  /** The `ModifyObjectState` branch: the object's state becomes `new_state`. */
  function ReplayModify(w: WorldState, args: Kwargs): (r: Replay)
    ensures !Hashable(Get(args, "object_id")) ==> r.error == Some(TypeError)
    ensures r.error.Some? ==> r.world == w
    ensures r.world.locations == w.locations && r.world.objects.Keys == w.objects.Keys
    ensures SameClockAndLedger(r.world, w)
  {
    var v := Get(args, "object_id");
    if !Hashable(v) then Replay(w, Some(TypeError))
    else if v.Str? && v.s in w.objects then
      var ns := Get(args, "new_state");
      if ns.Str? then Replay(w.(objects := w.objects[v.s := w.objects[v.s].(state := ns.s)]), None)
      else Replay(w, Some(Unsupported))
    else Replay(w, None)
  }

  /** `World._execute_pending_effect`: dispatch on the effect's type; any other type is ignored. */
  function ReplayEffect(w: WorldState, e: Effect): (r: Replay)
    ensures r.error.Some? ==> r.world == w
    ensures e.kind !in {"CreateObject", "DestroyObject", "TransferObject", "ModifyObjectState"} ==> r == Replay(w, None)
    ensures SameClockAndLedger(r.world, w)
  {
    match e.kind
    case "CreateObject" => ReplayCreate(w, e.args)
    case "DestroyObject" => ReplayDestroy(w, e.args)
    case "TransferObject" => ReplayTransfer(w, e.args)
    case "ModifyObjectState" => ReplayModify(w, e.args)
    case _ => Replay(w, None)
  }

  /** The loop over `pending_effects`: effects apply in order and the first one that raises ends
      the replay, leaving the effects before it applied. */
  function ReplayEffects(w: WorldState, es: seq<Effect>): (r: Replay)
    ensures SameClockAndLedger(r.world, w)
    decreases |es|
  {
    if |es| == 0 then Replay(w, None)
    else
      var first := ReplayEffect(w, es[0]);
      if first.error.Some? then first else ReplayEffects(first.world, es[1..])
  }

  /** Replaying a concatenation is replaying the first part and, unless it raised, the second
      from where the first left off. */
  lemma {:induction false} ReplayEffectsAppend(w: WorldState, a: seq<Effect>, b: seq<Effect>)
    ensures ReplayEffects(w, a + b) ==
      (var ra := ReplayEffects(w, a); if ra.error.Some? then ra else ReplayEffects(ra.world, b))
    decreases |a|
  {
    if |a| > 0 {
      assert (a + b)[0] == a[0];
      assert (a + b)[1..] == a[1..] + b;
      var first := ReplayEffect(w, a[0]);
      if first.error.None? {
        ReplayEffectsAppend(first.world, a[1..], b);
      }
    } else {
      assert a + b == b;
    }
  }

  /** The answer of `check_agent_lock`. `Raised` is the exception a replayed effect throws out of
      it. */
  datatype LockStatus = Active(reason: string) | Expired(message: string) | Raised(error: ReplayError)

  datatype LockCheck = LockCheck(world: WorldState, status: Option<LockStatus>)

  /** `World.check_agent_lock`. No lock: `None`, nothing changes. A lock not yet due: its reason,
      nothing changes. A due lock: its deferred effects are replayed in order, then the lock is
      deleted and its completion message returned; if an effect raises, the exception escapes with
      the lock still in place and the earlier effects applied. */
  function CheckAgentLock(w: WorldState, agent: string): (r: LockCheck)
    ensures agent !in w.agentLocks ==> r == LockCheck(w, None)
    ensures agent in w.agentLocks && w.simTime < w.agentLocks[agent].untilTime ==>
      r == LockCheck(w, Some(Active(w.agentLocks[agent].reason)))
    ensures agent in w.agentLocks && w.simTime >= w.agentLocks[agent].untilTime ==> (
      var rp := ReplayEffects(w, w.agentLocks[agent].pendingEffects);
      && (rp.error.None? ==> r == LockCheck(rp.world.(agentLocks := w.agentLocks - {agent}),
                                            Some(Expired(w.agentLocks[agent].completionMessage))))
      && (rp.error.Some? ==> r == LockCheck(rp.world, Some(Raised(rp.error.value)))))
    ensures r.world.simTime == w.simTime && r.world.pendingEvents == w.pendingEvents
  {
    if agent !in w.agentLocks then LockCheck(w, None)
    else
      var lock := w.agentLocks[agent];
      if w.simTime >= lock.untilTime then
        var rp := ReplayEffects(w, lock.pendingEffects);
        match rp.error
        case Some(e) => LockCheck(rp.world, Some(Raised(e)))
        case None => LockCheck(rp.world.(agentLocks := rp.world.agentLocks - {agent}), Some(Expired(lock.completionMessage)))
      else LockCheck(w, Some(Active(lock.reason)))
  }

  /** A lock set now with a positive duration reports its reason and changes nothing. */
  lemma FreshLockIsActive(w: WorldState, agent: string, d: int, reason: string, completion: Option<string>, es: seq<Effect>)
    requires d > 0
    ensures var w1 := SetAgentLock(w, agent, d, reason, completion, es);
      CheckAgentLock(w1, agent) == LockCheck(w1, Some(Active(reason)))
  {
  }

  /** A lock set at time `t` for `d` minutes, checked after `n` ticks, is still active exactly
      while `n` ticks are fewer than `d` minutes; once due it either expires with its completion
      message (the default one when none was given) or raises from the replay. */
  lemma LockStatusAfterTicks(w: WorldState, agent: string, d: int, reason: string, completion: Option<string>, es: seq<Effect>, n: nat)
    ensures var w1 := AdvanceTicks(SetAgentLock(w, agent, d, reason, completion, es), n);
      var st := CheckAgentLock(w1, agent).status;
      && st.Some?
      && (st.value.Active? <==> n * TickDurationMinutes < d)
      && (st.value.Active? ==> st.value.reason == reason)
      && (st.value.Expired? ==> st.value.message == CompletionOrDefault(completion, reason))
  {
    var w0 := SetAgentLock(w, agent, d, reason, completion, es);
    var w1 := AdvanceTicks(w0, n);
    assert w1.agentLocks == w0.agentLocks by {
      assert w1.(simTime := 0).agentLocks == w0.(simTime := 0).agentLocks;
    }
  }

  /** Deferred effects run exactly once: after a lock expires, checking again reports no lock and
      changes nothing, so no effect is replayed a second time. */
  lemma ExpiredLockIsGone(w: WorldState, agent: string)
    requires CheckAgentLock(w, agent).status.Some? && CheckAgentLock(w, agent).status.value.Expired?
    ensures var w1 := CheckAgentLock(w, agent).world;
      agent !in w1.agentLocks && CheckAgentLock(w1, agent) == LockCheck(w1, None)
  {
  }

  /** A replay that raises leaves the lock, with all its effects, in place: the next check replays
      every effect again, including those already applied. */
  lemma RaisedLockStays(w: WorldState, agent: string)
    requires CheckAgentLock(w, agent).status.Some? && CheckAgentLock(w, agent).status.value.Raised?
    ensures agent in w.agentLocks
    ensures var w1 := CheckAgentLock(w, agent).world;
      agent in w1.agentLocks && w1.agentLocks[agent] == w.agentLocks[agent]
  {
  }
}

=== FILE: world_actions.dfy ===
/** The two `World` methods that face the simulated agents: `get_agent_context_data`, which
    builds the data an agent decides on (and consumes its event queue), and `process_action`,
    which carries out a decision `{"action_type", "target", "content"}`. Interactions with
    objects go to the environment agent, whose reply is an input here. */
module WorldActions {
  import opened Values
  import opened Seqs
  import opened Text
  import opened Schemas
  import opened World
  import opened EnvAgent
  import opened Prompting

  // ---------------------------------------------------------------------------
  // get_agent_context_data
  // ---------------------------------------------------------------------------

  /** The context dictionary. `time` is the clock in minutes (the text form is left out);
      `people` and `connections` are the lists that are printed with `str(...)`, `people` empty
      standing for "No one else" and `connections` absent for "None". */
  datatype ContextData = ContextData(
    time: int,
    locationName: string,
    locationDescription: string,
    people: seq<string>,
    objects: string,
    connections: Option<seq<string>>,
    events: string)

  /** The context returned for an unknown location. */
  function UnknownPlace(time: int): ContextData {
    ContextData(time, "Unknown", "You are in an unknown void.", [], "None", None, "None")
  }

  /** `f"  - {obj.name} (id: {obj.id}, state: {obj.state})"`. */
  function ObjectLine(o: WorldObject): string {
    "  - " + o.name + " (id: " + o.id + ", state: " + o.state + ")"
  }

  /** One line per listed id that names a stored object, in list order; unknown ids are skipped. */
  function ObjectLines(w: WorldState, ids: seq<string>): (lines: seq<string>)
    ensures |lines| <= |ids|
    ensures forall k :: 0 <= k < |lines| ==> |lines[k]| >= 1 && lines[k][0] == ' '
    ensures lines == [] <==> forall k :: 0 <= k < |ids| ==> ids[k] !in w.objects
    decreases |ids|
  {
    if |ids| == 0 then []
    else
      var rest := ObjectLines(w, ids[1..]);
      assert forall k :: 1 <= k < |ids| ==> ids[k] == ids[1..][k - 1];
      (if ids[0] in w.objects then [ObjectLine(w.objects[ids[0]])] else []) + rest
  }

  /** The lines keep the order of the list: the lines of a concatenation are the lines of each
      part in turn. */
  lemma {:induction false} ObjectLinesAppend(w: WorldState, a: seq<string>, b: seq<string>)
    ensures ObjectLines(w, a + b) == ObjectLines(w, a) + ObjectLines(w, b)
    decreases |a|
  {
    if |a| == 0 {
      assert a + b == b;
    } else {
      var ab := a + b;
      assert ab[0] == a[0] && ab[1..] == a[1..] + b;
      ObjectLinesAppend(w, a[1..], b);
      var head: seq<string> := if a[0] in w.objects then [ObjectLine(w.objects[a[0]])] else [];
      assert ObjectLines(w, ab) == head + ObjectLines(w, a[1..] + b);
      assert ObjectLines(w, a) == head + ObjectLines(w, a[1..]);
    }
  }

  /** A single listed id gives its object's line when it names a stored object, and nothing
      otherwise. */
  lemma ObjectLinesSingle(w: WorldState, id: string)
    ensures ObjectLines(w, [id]) == if id in w.objects then [ObjectLine(w.objects[id])] else []
  {
    assert [id][1..] == [];
  }

  /** Name, id and state hold no line break, so the object's line is one line. */
  predicate OneLine(o: WorldObject) {
    '\n' !in o.name && '\n' !in o.id && '\n' !in o.state
  }

  /** `"\n".join(objects_info)` or "None" when no listed id is a stored object. */
  function ObjectsText(w: WorldState, ids: seq<string>): (s: string)
    ensures s == "None" <==> forall k :: 0 <= k < |ids| ==> ids[k] !in w.objects
  {
    var lines := ObjectLines(w, ids);
    if lines == [] then "None" else JoinedLinesNotNone(lines); Join(lines, '\n')
  }

  /** When every stored object prints on one line, so does every object line. */
  lemma {:induction false} ObjectLinesOneLine(w: WorldState, ids: seq<string>)
    requires forall o :: o in w.objects ==> OneLine(w.objects[o])
    ensures forall k :: 0 <= k < |ObjectLines(w, ids)| ==> '\n' !in ObjectLines(w, ids)[k]
    decreases |ids|
  {
    if |ids| > 0 {
      ObjectLinesOneLine(w, ids[1..]);
      if ids[0] in w.objects {
        assert OneLine(w.objects[ids[0]]);
      }
    }
  }

  /** When some listed id is stored and every stored object prints on one line, the objects text
      splits back into exactly the object lines. */
  lemma ObjectsTextLines(w: WorldState, ids: seq<string>)
    requires exists k :: 0 <= k < |ids| && ids[k] in w.objects
    requires forall o :: o in w.objects ==> OneLine(w.objects[o])
    ensures Split(ObjectsText(w, ids), '\n') == ObjectLines(w, ids)
  {
    ObjectLinesOneLine(w, ids);
    SplitJoin(ObjectLines(w, ids), '\n');
  }

  /** Every line starts with ' ' or '-', so a non-empty join of lines is never the word "None". */
  lemma JoinedLinesNotNone(lines: seq<string>)
    requires lines != [] && forall k :: 0 <= k < |lines| ==> |lines[k]| >= 1 && lines[k][0] != 'N'
    ensures Join(lines, '\n') != "None"
  {
    if |lines| == 1 {
      assert Join(lines, '\n') == lines[0];
    } else {
      assert Join(lines, '\n') == lines[0] + ['\n'] + Join(lines[1..], '\n');
      assert Join(lines, '\n')[0] == lines[0][0];
    }
  }

  /** The bulleted line of each event. */
  function EventLines(events: seq<string>): (lines: seq<string>)
    ensures |lines| == |events|
    ensures forall k :: 0 <= k < |events| ==> lines[k] == "- " + events[k]
  {
    seq(|events|, k requires 0 <= k < |events| => "- " + events[k])
  }

  /** `"\n".join([f"- {event}" for event in pending_events])` or "None" for an empty queue. */
  function EventsText(events: seq<string>): (s: string)
    ensures s == "None" <==> events == []
  {
    if events == [] then "None"
    else
      var lines := EventLines(events);
      JoinedLinesNotNone(lines);
      Join(lines, '\n')
  }

  /** Single-line events split back out of the events text as one "- " line each, in order. */
  lemma EventsTextLines(events: seq<string>)
    requires events != []
    requires forall k :: 0 <= k < |events| ==> '\n' !in events[k]
    ensures Split(EventsText(events), '\n') == EventLines(events)
  {
    var lines := EventLines(events);
    forall k | 0 <= k < |lines| ensures '\n' !in lines[k] {
      assert lines[k] == "- " + events[k];
    }
    SplitJoin(lines, '\n');
  }

  /** The result of `get_agent_context_data`: the world after it (its event queue possibly
      consumed) and the dictionary. */
  datatype Context = Context(world: WorldState, data: ContextData)

  /** `World.get_agent_context_data`. For an unknown location it returns the placeholder data and
      leaves the agent's queue alone; otherwise it describes the location, lists the people there
      other than the agent, the stored objects listed there, the connections, and hands out (and
      clears) the agent's queued events. */
  function GetAgentContextData(w: WorldState, agent: string, lid: string): (r: Context)
    ensures lid !in w.locations ==> r == Context(w, UnknownPlace(w.simTime))
    ensures lid in w.locations ==> (
      var loc := w.locations[lid];
      && r.world == GetPendingEvents(w, agent).world
      && r.data.locationName == loc.name && r.data.locationDescription == loc.description
      && agent !in r.data.people
      && (forall p :: p != agent ==> multiset(r.data.people)[p] == multiset(loc.agentsPresent)[p])
      && r.data.connections == Some(loc.connectedTo)
      && r.data.objects == ObjectsText(w, loc.objects)
      && r.data.events == EventsText(Pending(w.pendingEvents, agent))
      && (r.data.events == "None" <==> Pending(w.pendingEvents, agent) == []))
    ensures r.data.time == w.simTime
  {
    if lid !in w.locations then Context(w, UnknownPlace(w.simTime))
    else
      var loc := w.locations[lid];
      var drained := GetPendingEvents(w, agent);
      Context(drained.world, ContextData(w.simTime, loc.name, loc.description, Without(loc.agentsPresent, agent),
                                         ObjectsText(w, loc.objects), Some(loc.connectedTo), EventsText(drained.events)))
  }

  /** Building the context consumes the agent's events exactly when the location is known: a
      second build right after reports none. */
  lemma ContextConsumesEvents(w: WorldState, agent: string, lid: string)
    ensures var r := GetAgentContextData(w, agent, lid);
      && (lid !in w.locations ==> Pending(r.world.pendingEvents, agent) == Pending(w.pendingEvents, agent))
      && (lid in w.locations ==> GetAgentContextData(r.world, agent, lid).data.events == "None")
  {
  }

  // ---------------------------------------------------------------------------
  // process_action
  // ---------------------------------------------------------------------------

  /** The decision dictionary, its values taken as strings or absent (`None`). */
  datatype Decision = Decision(actionType: Option<string>, target: Option<string>, content: Option<string>)

  /** `str(x)` for an optional string, as an f-string prints it. */
  function Shown(o: Option<string>): string {
    if o.None? then "None" else o.value
  }

  /** `result = {"success": False, "message": message}`. */
  function Failed(message: string): ActionResult {
    ActionResult(false, message, None)
  }

  /** `self.agent_locations.get(agent_name)`. */
  function RecordedLocation(w: WorldState, agent: string): Option<string> {
    if agent in w.agentLocations then Some(w.agentLocations[agent]) else None
  }

  /** `loc.agents_present if loc else []` for the acting agent's location: the witness list
      handed to the environment agent. */
  function Witnesses(w: WorldState, agent: string): seq<string> {
    var at := RecordedLocation(w, agent);
    if at.Some? && at.value in w.locations then w.locations[at.value].agentsPresent else []
  }

  /** What the listeners hear when an agent talks. */
  function Heard(agent: string, content: string): string {
    "You heard " + agent + " say: '" + content + "'"
  }

  /** `World.process_action`. `env` is the environment agent's reply, `None` when the world was
      built without an LLM client: then `self.env_agent` is `None`, and an interaction with a
      stored object raises `AttributeError` out of the call, which the result `None` stands for. */
  function ProcessAction(w: WorldState, agent: string, d: Decision, env: Option<EnvReply>): (r: Option<Resolution>)
    ensures r.None? <==>
      d.actionType == Some("interact") && Present(d.target) && d.target.value in w.objects && env.None?
    ensures d.actionType == Some("wait") ==> r == Some(Resolution(w, ActionResult(true, "Waited for one tick.", None)))
    ensures d.actionType !in {Some("move"), Some("talk"), Some("wait"), Some("interact")} ==>
      r == Some(Resolution(w, Failed("Unknown action type: " + Shown(d.actionType))))
    ensures d.actionType == Some("move") ==> (
      && r.Some?
      && (r.value.result.success <==> Present(d.target) && MoveAgent(w, agent, d.target.value).ok)
      && (!Present(d.target) ==> r.value == Resolution(w, Failed("Move action requires a target.")))
      && (Present(d.target) ==> r.value.world == MoveAgent(w, agent, d.target.value).world))
    ensures d.actionType == Some("talk") ==> (
      && r.Some?
      && (r.value.result.success <==> Present(d.content))
      && (!Present(d.content) ==> r.value == Resolution(w, Failed("Talk action requires content.")))
      && (Present(d.content) ==>
            && r.value.result.message == "You said: '" + d.content.value + "'"
            && r.value.world.(pendingEvents := map[]) == w.(pendingEvents := map[])))
    ensures d.actionType == Some("interact") && !(Present(d.target) && d.target.value in w.objects) ==>
      r.Some? && r.value.world == w && !r.value.result.success
    ensures d.actionType == Some("interact") && Present(d.target) && d.target.value in w.objects && env.Some? ==>
      r == Some(ResolveInteraction(w, env.value))
    ensures r.Some? ==> r.value.world.simTime == w.simTime
  {
    match d.actionType
    case Some("move") =>
      if !Present(d.target) then Some(Resolution(w, Failed("Move action requires a target.")))
      else
        var target := d.target.value;
        var moved := MoveAgent(w, agent, target);
        if moved.ok then Some(Resolution(moved.world, ActionResult(true, "Successfully moved to " + target + ".", None)))
        else Some(Resolution(moved.world, Failed("Failed to move to " + target + ". It might not be connected or valid.")))
    case Some("talk") =>
      if !Present(d.content) then Some(Resolution(w, Failed("Talk action requires content.")))
      else
        var content := d.content.value;
        var w1 := Broadcast(w, RecordedLocation(w, agent), Heard(agent, content), Some(agent));
        BroadcastDelivers(w, RecordedLocation(w, agent), Heard(agent, content), Some(agent), agent);
        Some(Resolution(w1, ActionResult(true, "You said: '" + content + "'", None)))
    case Some("wait") => Some(Resolution(w, ActionResult(true, "Waited for one tick.", None)))
    case Some("interact") =>
      if !Present(d.target) then Some(Resolution(w, Failed("Interact action requires a target object.")))
      else if d.target.value !in w.objects then Some(Resolution(w, Failed("Object '" + d.target.value + "' not found.")))
      else if env.None? then None
      else Some(ResolveInteraction(w, env.value))
    case _ => Some(Resolution(w, Failed("Unknown action type: " + Shown(d.actionType))))
  }

  /** A successful talk queues the line once per listing for every other agent present where the
      speaker is recorded, and never for the speaker. */
  lemma TalkReachesOthers(w: WorldState, agent: string, content: string, listener: string, env: Option<EnvReply>)
    requires content != ""
    ensures var r := ProcessAction(w, agent, Decision(Some("talk"), None, Some(content)), env).value;
      var at := RecordedLocation(w, agent);
      var copies := if listener == agent || at.None? then 0 else Count(PeopleAt(w, at.value), listener);
      Pending(r.world.pendingEvents, listener) == Pending(w.pendingEvents, listener) + Repeat(Heard(agent, content), copies)
  {
    BroadcastDelivers(w, RecordedLocation(w, agent), Heard(agent, content), Some(agent), listener);
  }

  /** The environment agent's prompt never lists the actor among the witnesses. */
  lemma InteractWitnessesExcludeActor(w: WorldState, agent: string)
    ensures var shown := WitnessesShown(Witnesses(w, agent), agent);
      shown.Some? ==> agent !in shown.value
  {
  }

  /** One decision that returns, followed by `advance_time`: the clock moves exactly one tick,
      whatever the action did. */
  lemma ActionThenTick(w: WorldState, agent: string, d: Decision, env: Option<EnvReply>)
    requires ProcessAction(w, agent, d, env).Some?
    ensures AdvanceTime(ProcessAction(w, agent, d, env).value.world).simTime == w.simTime + TickDurationMinutes
  {
  }
}

=== FILE: world_engine.dfy ===
/** `WorldEngine.resolve_interaction` of `world_engine.py`: a bounded tool loop in which a reasoning
    service queries the world, stages validated mutations and finally calls `interaction_result`,
    whose outcome either applies the staged effects at once or locks the agent and defers them.

    The reasoning service is an oracle: the sequence of its replies, one per turn. Two collaborators
    the loop calls do not exist on the `World` class it is handed, `world.execute_effect` and
    `world.get_agent_inventory`; they are parameters here. */
module WorldEngine {
  import opened Values
  import opened Text
  import opened Schemas
  import opened World
  import AgentiaSchemas

  /** `MAX_REACT_TURNS`. */
  const MaxReactTurns := 15

  const SilentMessage := "The Game Master is silent (LLM Error)."
  const EmptyMessage := "GM Error: Empty response."
  const TooLongMessage := "The interaction took too long to resolve."

  // ---------------------------------------------------------------------------
  // The oracle and the collaborators
  // ---------------------------------------------------------------------------

  /** One requested tool call; `arguments` is `None` when its JSON text does not parse. */
  datatype ToolCall = ToolCall(id: string, name: string, arguments: Option<Value>)

  /** One reply of the reasoning service: none at all, or optional text with tool calls in order. */
  datatype Reply = Silent | Reply(content: Option<string>, toolCalls: seq<ToolCall>)

  /** The two world methods the engine calls that the world does not define: the inventory of an
      agent, and the application of one staged effect, which may raise. */
  datatype Collaborators = Collaborators(inventory: string -> seq<string>, apply: (WorldState, Effect) -> Replay)

  /** An `execute_effect` that never raises. */
  ghost predicate NeverRaises(apply: (WorldState, Effect) -> Replay) {
    forall w, e :: apply(w, e).error.None?
  }

  // ---------------------------------------------------------------------------
  // Tool results
  // ---------------------------------------------------------------------------

  /** The content of the tool message answering one call. `ExecutionFailed` is the
      `{"error": "Tool execution failed: ..."}` reply to a call that raised. */
  datatype ToolReply =
    | ObjectFound(obj: WorldObject)
    | AgentFound(name: string, locationId: string, inventory: seq<string>)
    | Staged(message: string)
    | Finalized
    | ToolError(message: string)
    | ExecutionFailed

  /** `str(v)` for the hashable values an f-string may print. */
  function Show(v: Value): string
    requires Hashable(v)
  {
    match v
    case Null => "None"
    case Bool(b) => if b then "True" else "False"
    case Int(i) => if i < 0 then "-" + NatToString(-i) else NatToString(i)
    case Str(s) => s
    case _ => ""
  }

  /** `v in d` for a dictionary keyed by strings, once `v` is known to be hashable. */
  predicate KeyIn(v: Value, keys: set<string>) {
    v.Str? && v.s in keys
  }

  /** `_execute_query_entity`: objects are looked up first, then placed agents. */
  function QueryEntity(w: WorldState, entityId: Value, inventory: string -> seq<string>): (r: ToolReply)
    ensures r.ExecutionFailed? <==> !Hashable(entityId)
    ensures KeyIn(entityId, w.objects.Keys) ==> r == ObjectFound(w.objects[entityId.s])
    ensures r.AgentFound? <==> Hashable(entityId) && !KeyIn(entityId, w.objects.Keys) && KeyIn(entityId, w.agentLocations.Keys)
    ensures r.AgentFound? ==> Str(r.name) == entityId && r.locationId == w.agentLocations[r.name] && r.inventory == inventory(r.name)
    ensures r.ToolError? <==> Hashable(entityId) && !KeyIn(entityId, w.objects.Keys) && !KeyIn(entityId, w.agentLocations.Keys)
    ensures r.ToolError? ==> r.message == "Entity '" + Show(entityId) + "' not found"
  {
    if !Hashable(entityId) then ExecutionFailed
    else if KeyIn(entityId, w.objects.Keys) then ObjectFound(w.objects[entityId.s])
    else if KeyIn(entityId, w.agentLocations.Keys) then
      AgentFound(entityId.s, w.agentLocations[entityId.s], inventory(entityId.s))
    else ToolError("Entity '" + Show(entityId) + "' not found")
  }

  // ---------------------------------------------------------------------------
  // Validators
  // ---------------------------------------------------------------------------

  /** A validator's verdict: pass, an error dictionary, or an exception (an unhashable id). */
  datatype Check = Passes | Rejected(message: string) | Raises

  /** `_validate_update_object` and `_validate_destroy_object`: the object must exist. */
  function ValidateExisting(verb: string, args: Kwargs, w: WorldState): (r: Check)
    ensures r.Raises? <==> !Hashable(Get(args, "object_id"))
    ensures r.Passes? <==> KeyIn(Get(args, "object_id"), w.objects.Keys)
    ensures r.Rejected? ==> r.message == "Cannot " + verb + ": object '" + Show(Get(args, "object_id")) + "' does not exist"
  {
    var oid := Get(args, "object_id");
    if !Hashable(oid) then Raises
    else if !KeyIn(oid, w.objects.Keys) then Rejected("Cannot " + verb + ": object '" + Show(oid) + "' does not exist")
    else Passes
  }

  /** `_validate_create_object`: the id must be new, and a truthy `location_id` must be a known
      location. */
  function ValidateCreate(args: Kwargs, w: WorldState): (r: Check)
    ensures r.Passes? <==>
      && Hashable(Get(args, "object_id")) && !KeyIn(Get(args, "object_id"), w.objects.Keys)
      && (Truthy(Get(args, "location_id")) ==> KeyIn(Get(args, "location_id"), w.locations.Keys))
    ensures Hashable(Get(args, "object_id")) && KeyIn(Get(args, "object_id"), w.objects.Keys) ==>
      r == Rejected("Cannot create: object '" + Show(Get(args, "object_id")) + "' already exists")
  {
    var oid := Get(args, "object_id");
    var lid := Get(args, "location_id");
    if !Hashable(oid) then Raises
    else if KeyIn(oid, w.objects.Keys) then Rejected("Cannot create: object '" + Show(oid) + "' already exists")
    else if Truthy(lid) && !Hashable(lid) then Raises
    else if Truthy(lid) && !KeyIn(lid, w.locations.Keys) then Rejected("Cannot create: location '" + Show(lid) + "' does not exist")
    else Passes
  }

  /** `_validate_transfer_object`: the object must exist and `to_id` must name a location, a placed
      agent or an object. */
  function ValidateTransfer(args: Kwargs, w: WorldState): (r: Check)
    ensures r.Passes? <==>
      && KeyIn(Get(args, "object_id"), w.objects.Keys)
      && (KeyIn(Get(args, "to_id"), w.locations.Keys) || KeyIn(Get(args, "to_id"), w.agentLocations.Keys)
          || KeyIn(Get(args, "to_id"), w.objects.Keys))
    ensures !KeyIn(Get(args, "object_id"), w.objects.Keys) ==> r == ValidateExisting("transfer", args, w)
  {
    var oid := Get(args, "object_id");
    var to := Get(args, "to_id");
    var found := ValidateExisting("transfer", args, w);
    if !found.Passes? then found
    else if !Hashable(to) then Raises
    else if !KeyIn(to, w.locations.Keys) && !KeyIn(to, w.agentLocations.Keys) && !KeyIn(to, w.objects.Keys) then
      Rejected("Cannot transfer: destination '" + Show(to) + "' does not exist")
    else Passes
  }

  /** The `action_tools` table: tool name to staged effect type. */
  function EffectKind(name: string): (k: Option<string>)
    ensures k.Some? <==> name in {"update_object", "create_object", "destroy_object", "transfer_object"}
  {
    match name
    case "update_object" => Some("UpdateObject")
    case "create_object" => Some("CreateObject")
    case "destroy_object" => Some("DestroyObject")
    case "transfer_object" => Some("TransferObject")
    case _ => None
  }

  /** The validator the table pairs with an action tool. */
  function Validate(name: string, args: Kwargs, w: WorldState): Check
    requires EffectKind(name).Some?
  {
    match name
    case "update_object" => ValidateExisting("update", args, w)
    case "create_object" => ValidateCreate(args, w)
    case "destroy_object" => ValidateExisting("destroy", args, w)
    case _ => ValidateTransfer(args, w)
  }

  // ---------------------------------------------------------------------------
  // Dispatch
  // ---------------------------------------------------------------------------

  /** The tool message for one call, the staged effects after it, and the outcome if the call was
      a valid `interaction_result`. */
  datatype Dispatched = Dispatched(reply: ToolReply, pending: seq<Effect>, result: Option<AgentiaSchemas.InteractionResult>)

  /** `_dispatch_tool` on parsed arguments, with the exceptions it can raise caught as in the loop:
      `.get` on arguments that are not a dictionary, an unhashable id, or a failed
      `InteractionResult.model_validate`. */
  function DispatchTool(w: WorldState, name: string, args: Value, pending: seq<Effect>, inventory: string -> seq<string>): (r: Dispatched)
    ensures r.result.Some? <==> name == "interaction_result" && AgentiaSchemas.InteractionResultFromValue(args).Some?
    ensures r.result.Some? ==> r.result == AgentiaSchemas.InteractionResultFromValue(args) && r.reply == Finalized
    ensures EffectKind(name).Some? && args.Obj? && Validate(name, args.fields, w).Passes? ==>
      r.pending == pending + [Effect(EffectKind(name).value, args.fields)] && r.reply == Staged(name + " staged.")
    ensures !(EffectKind(name).Some? && args.Obj? && Validate(name, args.fields, w).Passes?) ==> r.pending == pending
    ensures EffectKind(name).Some? && args.Obj? && Validate(name, args.fields, w).Rejected? ==>
      r.reply == ToolError(Validate(name, args.fields, w).message)
    ensures name == "query_entity" ==> r.reply == (if args.Obj? then QueryEntity(w, Get(args.fields, "entity_id"), inventory) else ExecutionFailed)
    ensures name !in {"query_entity", "interaction_result"} && EffectKind(name).None? ==> r.reply == ToolError("Unknown tool: " + name)
  {
    if name == "query_entity" then
      Dispatched(if args.Obj? then QueryEntity(w, Get(args.fields, "entity_id"), inventory) else ExecutionFailed, pending, None)
    else if EffectKind(name).Some? then
      if !args.Obj? then Dispatched(ExecutionFailed, pending, None)
      else
        match Validate(name, args.fields, w)
        case Raises => Dispatched(ExecutionFailed, pending, None)
        case Rejected(message) => Dispatched(ToolError(message), pending, None)
        case Passes => Dispatched(Staged(name + " staged."), pending + [Effect(EffectKind(name).value, args.fields)], None)
    else if name == "interaction_result" then
      match AgentiaSchemas.InteractionResultFromValue(args)
      case None => Dispatched(ExecutionFailed, pending, None)
      case Some(res) => Dispatched(Finalized, pending, Some(res))
    else Dispatched(ToolError("Unknown tool: " + name), pending, None)
  }

  /** One call of a turn: arguments that fail to parse give an error message and change nothing. */
  function Call(w: WorldState, c: ToolCall, pending: seq<Effect>, inventory: string -> seq<string>): (r: Dispatched)
    ensures c.arguments.None? ==> r == Dispatched(ExecutionFailed, pending, None)
    ensures c.arguments.Some? ==> r == DispatchTool(w, c.name, c.arguments.value, pending, inventory)
  {
    match c.arguments
    case None => Dispatched(ExecutionFailed, pending, None)
    case Some(args) => DispatchTool(w, c.name, args, pending, inventory)
  }

  // ---------------------------------------------------------------------------
  // Finalisation
  // ---------------------------------------------------------------------------

  /** The `for effect in pending_effects: world.execute_effect(effect)` loop: effects apply in
      order and the first that raises ends it, the ones before it applied. */
  function ApplyAll(w: WorldState, es: seq<Effect>, apply: (WorldState, Effect) -> Replay): (r: Replay)
    ensures es == [] ==> r == Replay(w, None)
    ensures NeverRaises(apply) ==> r.error.None?
    decreases |es|
  {
    if |es| == 0 then Replay(w, None)
    else
      var first := apply(w, es[0]);
      if first.error.Some? then first else ApplyAll(first.world, es[1..], apply)
  }

  /** `task_description or "busy"`. */
  function Task(res: AgentiaSchemas.InteractionResult): string {
    if Present(res.taskDescription) then res.taskDescription.value else "busy"
  }

  /** What finalisation returns, or the world it left behind when an effect raised. */
  datatype Final = Done(world: WorldState, message: string) | Failed(world: WorldState)

  /** `_finalize_interaction`. A positive duration locks the agent with its task description as reason, the
      outcome message as completion text and every staged effect, applying none of them; otherwise
      every staged effect is applied now and the message is returned as given. */
  function Finalize(w: WorldState, agent: string, res: AgentiaSchemas.InteractionResult, pending: seq<Effect>,
                    apply: (WorldState, Effect) -> Replay): (r: Final)
    ensures res.duration > 0 ==> (
      && r.Done?
      && r.world == SetAgentLock(w, agent, res.duration, Task(res), Some(res.message), pending)
      && r.world.objects == w.objects && r.world.locations == w.locations
      && r.world.agentLocks[agent].pendingEffects == pending
      && r.world.agentLocks[agent].untilTime == w.simTime + res.duration
      && r.message == "Started: " + Task(res) + " (" + NatToString(res.duration) + " min)...")
    ensures res.duration <= 0 ==> (
      var applied := ApplyAll(w, pending, apply);
      && r.world == applied.world
      && (r.Done? <==> applied.error.None?)
      && (r.Done? ==> r.message == res.message))
  {
    if res.duration > 0 then
      var task := Task(res);
      Done(SetAgentLock(w, agent, res.duration, task, Some(res.message), pending),
           "Started: " + task + " (" + NatToString(res.duration) + " min)...")
    else
      var applied := ApplyAll(w, pending, apply);
      if applied.error.None? then Done(applied.world, res.message) else Failed(applied.world)
  }

  // ---------------------------------------------------------------------------
  // The loop
  // ---------------------------------------------------------------------------

  /** The end of one turn's tool calls: the loop goes on, or an interaction was finalised. */
  datatype Turn = Continue(world: WorldState, pending: seq<Effect>) | Finished(world: WorldState, message: string)

  /** The tool calls of one turn, dispatched in order. The first valid `interaction_result` is
      finalised and ends the turn; when finalisation raises, the exception is caught like any
      other and the remaining calls still run. */
  function RunCalls(w: WorldState, agent: string, pending: seq<Effect>, calls: seq<ToolCall>, co: Collaborators): (r: Turn)
    ensures r.Continue? ==> |pending| <= |r.pending| && r.pending[..|pending|] == pending
    ensures r.Continue? ==> |r.pending| <= |pending| + |calls|
    ensures r.Continue? && NeverRaises(co.apply) ==> r.world == w
    decreases |calls|
  {
    if calls == [] then Continue(w, pending)
    else
      var d := Call(w, calls[0], pending, co.inventory);
      if d.result.Some? then
        match Finalize(w, agent, d.result.value, d.pending, co.apply)
        case Done(w1, message) => Finished(w1, message)
        case Failed(w1) => RunCalls(w1, agent, d.pending, calls[1..], co)
      else RunCalls(w, agent, d.pending, calls[1..], co)
  }

  /** The value `resolve_interaction` returns (`success` is absent, `None`, after a finalisation),
      the world after it, and how many replies were requested. */
  datatype Resolved = Resolved(world: WorldState, success: Option<bool>, message: string, calls: nat)

  /** The reply to request `turn`; past the end of the oracle the service is silent. */
  function ReplyAt(replies: seq<Reply>, turn: nat): Reply {
    if turn < |replies| then replies[turn] else Silent
  }

  /** A reply with text but no tool calls: the loop reminds the service and goes on. */
  predicate TextOnly(r: Reply) {
    r.Reply? && r.toolCalls == [] && Present(r.content)
  }

  /** The loop from request `turn` on, with the effects staged so far. */
  function Loop(w: WorldState, agent: string, pending: seq<Effect>, replies: seq<Reply>, turn: nat, co: Collaborators): (r: Resolved)
    requires turn <= MaxReactTurns
    ensures turn <= r.calls <= MaxReactTurns
    ensures turn <= |replies| ==> r.calls <= |replies| + 1
    ensures r.success == None || r.success == Some(false)
    ensures r.success.Some? ==> r.message in {SilentMessage, EmptyMessage, TooLongMessage}
    ensures r.success.Some? && NeverRaises(co.apply) ==> r.world == w
    decreases MaxReactTurns - turn
  {
    if turn == MaxReactTurns then Resolved(w, Some(false), TooLongMessage, turn)
    else
      match ReplyAt(replies, turn)
      case Silent => Resolved(w, Some(false), SilentMessage, turn + 1)
      case Reply(content, calls) =>
        if calls != [] then
          match RunCalls(w, agent, pending, calls, co)
          case Finished(w1, message) => Resolved(w1, None, message, turn + 1)
          case Continue(w1, pending1) => Loop(w1, agent, pending1, replies, turn + 1, co)
        else if !Present(content) then Resolved(w, Some(false), EmptyMessage, turn + 1)
        else Loop(w, agent, pending, replies, turn + 1, co)
  }

  /** `WorldEngine.resolve_interaction`: nothing staged yet, at most `MaxReactTurns` requests; a
      failure returns `success` false and, while effects apply without raising, leaves the world as
      it was. */
  function ResolveInteraction(w: WorldState, agent: string, replies: seq<Reply>, co: Collaborators): (r: Resolved)
    ensures r.calls <= MaxReactTurns && r.calls <= |replies| + 1
    ensures r.success.Some? ==> r.success == Some(false) && r.message in {SilentMessage, EmptyMessage, TooLongMessage}
    ensures r.success.Some? && NeverRaises(co.apply) ==> r.world == w
  {
    Loop(w, agent, [], replies, 0, co)
  }

  // ---------------------------------------------------------------------------
  // Properties of the loop
  // ---------------------------------------------------------------------------

  /** Once a prefix of a turn's calls finalises the interaction, the calls after it are never
      dispatched. */
  lemma {:induction false} LaterCallsIgnored(w: WorldState, agent: string, pending: seq<Effect>, a: seq<ToolCall>, b: seq<ToolCall>, co: Collaborators)
    requires RunCalls(w, agent, pending, a, co).Finished?
    ensures RunCalls(w, agent, pending, a + b, co) == RunCalls(w, agent, pending, a, co)
    decreases |a|
  {
    assert a != [];
    assert (a + b)[0] == a[0] && (a + b)[1..] == a[1..] + b;
    var d := Call(w, a[0], pending, co.inventory);
    if d.result.Some? {
      match Finalize(w, agent, d.result.value, d.pending, co.apply)
      case Done(_, _) =>
      case Failed(w1) => LaterCallsIgnored(w1, agent, d.pending, a[1..], b, co);
    } else {
      LaterCallsIgnored(w, agent, d.pending, a[1..], b, co);
    }
  }

  /** A call whose arguments do not parse, or that names an unknown tool, answers with an error
      and the turn continues as if it had not been made. */
  lemma FailedCallSkipped(w: WorldState, agent: string, pending: seq<Effect>, c: ToolCall, rest: seq<ToolCall>, co: Collaborators)
    requires c.arguments.None? || (c.name !in {"query_entity", "interaction_result"} && EffectKind(c.name).None?)
    ensures Call(w, c, pending, co.inventory).reply.ExecutionFailed? || Call(w, c, pending, co.inventory).reply.ToolError?
    ensures RunCalls(w, agent, pending, [c] + rest, co) == RunCalls(w, agent, pending, rest, co)
  {
    assert ([c] + rest)[0] == c && ([c] + rest)[1..] == rest;
  }

  /** Text without tool calls costs one request and changes nothing else. */
  lemma TextOnlyContinues(w: WorldState, agent: string, pending: seq<Effect>, replies: seq<Reply>, turn: nat, co: Collaborators)
    requires turn < MaxReactTurns && TextOnly(ReplyAt(replies, turn))
    ensures Loop(w, agent, pending, replies, turn, co) == Loop(w, agent, pending, replies, turn + 1, co)
  {
  }

  /** A service that only ever answers with text exhausts the turns: all fifteen requests are made
      and the interaction fails as taking too long, with the world untouched. */
  lemma {:induction false} TextForeverTimesOut(w: WorldState, agent: string, pending: seq<Effect>, replies: seq<Reply>, turn: nat, co: Collaborators)
    requires turn <= MaxReactTurns
    requires forall k :: turn <= k < MaxReactTurns ==> TextOnly(ReplyAt(replies, k))
    ensures Loop(w, agent, pending, replies, turn, co) == Resolved(w, Some(false), TooLongMessage, MaxReactTurns)
    decreases MaxReactTurns - turn
  {
    if turn < MaxReactTurns {
      TextForeverTimesOut(w, agent, pending, replies, turn + 1, co);
    }
  }

  /** The first reply decides at once when it is missing or empty. */
  lemma FirstReplyFailures(w: WorldState, agent: string, replies: seq<Reply>, co: Collaborators)
    ensures ReplyAt(replies, 0).Silent? ==> ResolveInteraction(w, agent, replies, co) == Resolved(w, Some(false), SilentMessage, 1)
    ensures ReplyAt(replies, 0).Reply? && ReplyAt(replies, 0).toolCalls == [] && !Present(ReplyAt(replies, 0).content) ==>
      ResolveInteraction(w, agent, replies, co) == Resolved(w, Some(false), EmptyMessage, 1)
  {
  }

  /** The arguments `{"object_id": id}` of an update of an existing object. */
  function UpdateArgs(id: string): Kwargs {
    map["object_id" := Str(id)]
  }

  /** The arguments of an `interaction_result` call. */
  function ResultArgs(message: string, duration: int, task: string): Value {
    Obj(map["message" := Str(message), "duration" := Int(duration), "task_description" := Str(task)])
  }

  /** One turn that stages an update of an existing object and finalises with no duration applies
      that one effect and returns the message verbatim. */
  lemma StageThenApplyNow(w: WorldState, agent: string, id: string, message: string, task: string, rest: seq<Reply>, co: Collaborators)
    requires id in w.objects && co.apply(w, Effect("UpdateObject", UpdateArgs(id))).error.None?
    ensures var calls := [ToolCall("1", "update_object", Some(Obj(UpdateArgs(id)))),
                          ToolCall("2", "interaction_result", Some(ResultArgs(message, 0, task)))];
      ResolveInteraction(w, agent, [Reply(None, calls)] + rest, co)
        == Resolved(co.apply(w, Effect("UpdateObject", UpdateArgs(id))).world, None, message, 1)
  {
    var calls := [ToolCall("1", "update_object", Some(Obj(UpdateArgs(id)))),
                  ToolCall("2", "interaction_result", Some(ResultArgs(message, 0, task)))];
    var e := Effect("UpdateObject", UpdateArgs(id));
    var res := AgentiaSchemas.InteractionResult(message, 0, Some(task));
    var done := Done(co.apply(w, e).world, message);
    StagedResultTurn(w, agent, id, message, 0, task, co);
    assert Finalize(w, agent, res, [e], co.apply) == done by {
      assert ApplyAll(w, [e], co.apply) == co.apply(w, e) by {
        assert [e][1..] == [];
      }
    }
    assert ReplyAt([Reply(None, calls)] + rest, 0) == Reply(None, calls);
  }

  /** The turn of the two scenario lemmas reaches `Finalize` with the update staged. */
  lemma StagedResultTurn(w: WorldState, agent: string, id: string, message: string, duration: int, task: string, co: Collaborators)
    requires id in w.objects
    ensures var calls := [ToolCall("1", "update_object", Some(Obj(UpdateArgs(id)))),
                          ToolCall("2", "interaction_result", Some(ResultArgs(message, duration, task)))];
      var e := Effect("UpdateObject", UpdateArgs(id));
      var fin := Finalize(w, agent, AgentiaSchemas.InteractionResult(message, duration, Some(task)), [e], co.apply);
      fin.Done? ==> RunCalls(w, agent, [], calls, co) == Finished(fin.world, fin.message)
  {
    var calls := [ToolCall("1", "update_object", Some(Obj(UpdateArgs(id)))),
                  ToolCall("2", "interaction_result", Some(ResultArgs(message, duration, task)))];
    var e := Effect("UpdateObject", UpdateArgs(id));
    UpdateCallStages(w, id, co.inventory);
    assert RunCalls(w, agent, [], calls, co) == RunCalls(w, agent, [e], calls[1..], co);
    ResultCallFinalizes(w, message, duration, task, [e], co.inventory);
    assert calls[1..][0] == calls[1];
  }

  /** An `update_object` call naming a stored object is staged as an effect. */
  lemma UpdateCallStages(w: WorldState, id: string, inventory: string -> seq<string>)
    requires id in w.objects
    ensures Call(w, ToolCall("1", "update_object", Some(Obj(UpdateArgs(id)))), [], inventory)
      == Dispatched(Staged("update_object staged."), [Effect("UpdateObject", UpdateArgs(id))], None)
  {
    assert Get(UpdateArgs(id), "object_id") == Str(id);
    assert ValidateExisting("update", UpdateArgs(id), w) == Passes;
  }

  /** A well-formed `interaction_result` call carries its result and stages nothing. */
  lemma ResultCallFinalizes(w: WorldState, message: string, duration: int, task: string, pending: seq<Effect>,
                            inventory: string -> seq<string>)
    ensures Call(w, ToolCall("2", "interaction_result", Some(ResultArgs(message, duration, task))), pending, inventory)
      == Dispatched(Finalized, pending, Some(AgentiaSchemas.InteractionResult(message, duration, Some(task))))
  {
    var res := AgentiaSchemas.InteractionResult(message, duration, Some(task));
    assert AgentiaSchemas.InteractionResultFromValue(ResultArgs(message, duration, task)) == Some(res);
  }

  /** The same turn with a positive duration applies nothing: the agent is locked until now plus
      the duration with its task description as reason, the message as completion text and the staged update
      as its only deferred effect. */
  lemma StageThenDefer(w: WorldState, agent: string, id: string, message: string, duration: nat, task: string, rest: seq<Reply>, co: Collaborators)
    requires id in w.objects && duration > 0
    ensures var calls := [ToolCall("1", "update_object", Some(Obj(UpdateArgs(id)))),
                          ToolCall("2", "interaction_result", Some(ResultArgs(message, duration, task)))];
      var r := ResolveInteraction(w, agent, [Reply(None, calls)] + rest, co);
      var shown := if task == "" then "busy" else task;
      && r.world == SetAgentLock(w, agent, duration, shown, Some(message), [Effect("UpdateObject", UpdateArgs(id))])
      && r.success == None
      && r.message == "Started: " + shown + " (" + NatToString(duration) + " min)..."
  {
    var calls := [ToolCall("1", "update_object", Some(Obj(UpdateArgs(id)))),
                  ToolCall("2", "interaction_result", Some(ResultArgs(message, duration, task)))];
    StagedResultTurn(w, agent, id, message, duration, task, co);
    assert ReplyAt([Reply(None, calls)] + rest, 0) == Reply(None, calls);
  }

  // ---------------------------------------------------------------------------
  // The engine's effects meet the world's replay
  // ---------------------------------------------------------------------------

  /** A deferred `update_object` effect is ignored when the lock expires: the world's replay has
      no branch for its type. */
  lemma DeferredUpdateIsIgnored(w: WorldState, args: Kwargs)
    ensures ReplayEffect(w, Effect("UpdateObject", args)) == Replay(w, None)
  {
  }

  /** A deferred `transfer_object` effect that passed validation names `to_id`, which the world's
      `transfer_object` has no parameter for, so replaying it raises TypeError. */
  lemma DeferredTransferRaises(w0: WorldState, w: WorldState, args: Kwargs)
    requires ValidateTransfer(args, w0).Passes?
    ensures ReplayEffect(w, Effect("TransferObject", args)) == Replay(w, Some(TypeError))
  {
    assert "to_id" in args;
    assert "to_id" !in TransferParams;
  }

  /** A deferred `create_object` effect carrying the engine's `mechanics` or `internal_state`
      arguments raises TypeError at replay for the same reason. */
  lemma DeferredCreateWithHiddenFieldsRaises(w: WorldState, args: Kwargs)
    requires "mechanics" in args || "internal_state" in args
    ensures ReplayEffect(w, Effect("CreateObject", args)) == Replay(w, Some(TypeError))
  {
    assert "mechanics" !in CreateParams && "internal_state" !in CreateParams;
  }
}

=== FILE: world_invariants.dfy ===
/** Consistency of the `World` store: the objects listed at a location are the objects that record
    that location, each at most once, and an agent is listed exactly where it is recorded.

    The store operations keep these invariants only under conditions the Python methods do not
    check (a transfer's stated source must be where the object actually is; a move's target must
    be a location). The lemmas below prove preservation under those conditions and exhibit
    concrete worlds where the unchecked case breaks the invariant. */
module WorldInvariants {
  import opened Values
  import opened Seqs
  import opened Schemas
  import opened World

  // ---------------------------------------------------------------------------
  // Objects and location lists
  // ---------------------------------------------------------------------------

  /** Every listed id is a stored object that records the listing location, which has a
      non-empty id. */
  ghost predicate ListedRecorded(w: WorldState) {
    forall l, o | o in ObjectsAt(w, l) :: ListedAt(w, l, o)
  }

  /** The id listed at `l` is a stored object recording `l`, and `l` is not empty. */
  ghost predicate ListedAt(w: WorldState, l: string, o: string) {
    l != "" && o in w.objects && w.objects[o].locationId == Some(l)
  }

  /** No location lists an id twice. */
  ghost predicate ListsNoDup(w: WorldState) {
    forall l :: NoDup(ObjectsAt(w, l))
  }

  /** An object recording a non-empty, known location is listed there. */
  ghost predicate RecordedListed(w: WorldState) {
    forall o :: o in w.objects && Present(w.objects[o].locationId) && w.objects[o].locationId.value in w.locations ==>
      o in ObjectsAt(w, w.objects[o].locationId.value)
  }

  ghost predicate ObjectsConsistent(w: WorldState) {
    ListedRecorded(w) && ListsNoDup(w) && RecordedListed(w)
  }

  /** No location lists the object. */
  ghost predicate ListedNowhere(w: WorldState, oid: string) {
    forall l :: oid !in ObjectsAt(w, l)
  }

  /** In a consistent world an object is listed at no more than one location, and once there. */
  lemma AtMostOneLocation(w: WorldState, oid: string, l1: string, l2: string)
    requires ObjectsConsistent(w)
    requires oid in ObjectsAt(w, l1) && oid in ObjectsAt(w, l2)
    ensures l1 == l2
    ensures Count(ObjectsAt(w, l1), oid) == 1
  {
    assert w.objects[oid].locationId == Some(l1) && w.objects[oid].locationId == Some(l2);
  }

  /** What `create_object` does to each list: a fresh id is appended at its non-empty, known
      location and nowhere else. */
  lemma CreateLists(w: WorldState, oid: string, name: string, lid: string, state: string,
                    description: string, properties: seq<string>, l: string)
    ensures ObjectsAt(CreateObject(w, oid, name, lid, state, description, properties).world, l) ==
      if oid !in w.objects && lid != "" && l == lid && lid in w.locations then ObjectsAt(w, l) + [oid] else ObjectsAt(w, l)
  {
  }

  /** `create_object` keeps the store consistent: a fresh id is listed nowhere yet. */
  lemma CreateKeepsConsistent(w: WorldState, oid: string, name: string, lid: string, state: string,
                              description: string, properties: seq<string>)
    requires ObjectsConsistent(w)
    ensures ObjectsConsistent(CreateObject(w, oid, name, lid, state, description, properties).world)
  {
    CreateKeepsListedRecorded(w, oid, name, lid, state, description, properties);
    CreateKeepsNoDup(w, oid, name, lid, state, description, properties);
    CreateKeepsRecordedListed(w, oid, name, lid, state, description, properties);
  }

  lemma CreateKeepsListedRecorded(w: WorldState, oid: string, name: string, lid: string, state: string,
                                  description: string, properties: seq<string>)
    requires ListedRecorded(w)
    ensures ListedRecorded(CreateObject(w, oid, name, lid, state, description, properties).world)
  {
    var r := CreateObject(w, oid, name, lid, state, description, properties).world;
    forall l, o | o in ObjectsAt(r, l) ensures ListedAt(r, l, o) {
      CreateLists(w, oid, name, lid, state, description, properties, l);
    }
  }

  lemma CreateKeepsNoDup(w: WorldState, oid: string, name: string, lid: string, state: string,
                         description: string, properties: seq<string>)
    requires ListedRecorded(w) && ListsNoDup(w)
    ensures ListsNoDup(CreateObject(w, oid, name, lid, state, description, properties).world)
  {
    var r := CreateObject(w, oid, name, lid, state, description, properties).world;
    forall l ensures NoDup(ObjectsAt(r, l)) {
      CreateLists(w, oid, name, lid, state, description, properties, l);
      if oid !in w.objects && lid != "" && l == lid && lid in w.locations {
        NoDupSnoc(ObjectsAt(w, l), oid);
      }
    }
  }

  lemma CreateKeepsRecordedListed(w: WorldState, oid: string, name: string, lid: string, state: string,
                                  description: string, properties: seq<string>)
    requires RecordedListed(w)
    ensures RecordedListed(CreateObject(w, oid, name, lid, state, description, properties).world)
  {
    var r := CreateObject(w, oid, name, lid, state, description, properties).world;
    forall o | o in r.objects && Present(r.objects[o].locationId) && r.objects[o].locationId.value in r.locations
      ensures o in ObjectsAt(r, r.objects[o].locationId.value)
    {
      CreateLists(w, oid, name, lid, state, description, properties, r.objects[o].locationId.value);
    }
  }

  /** What `destroy_object` does to each list: one entry of the id leaves the list of the location
      the object records. */
  lemma DestroyLists(w: WorldState, oid: string, l: string)
    ensures ObjectsAt(DestroyObject(w, oid).world, l) ==
      if oid in w.objects && Present(w.objects[oid].locationId) && l == w.objects[oid].locationId.value
      then RemoveFirst(ObjectsAt(w, l), oid) else ObjectsAt(w, l)
  {
  }

  /** The shape every object operation has: only one id's record and listings change, every
      list stays duplicate-free, and that id ends up listed exactly where its record says. */
  ghost predicate OnlyIdChanged(w: WorldState, r: WorldState, oid: string) {
    && r.locations.Keys == w.locations.Keys
    && (forall o :: o != oid ==> (o in r.objects <==> o in w.objects))
    && (forall o :: o != oid && o in w.objects ==> r.objects[o] == w.objects[o])
    && (forall l, o :: o != oid ==> (o in ObjectsAt(r, l) <==> o in ObjectsAt(w, l)))
    && ListsNoDup(r)
    && (forall l :: oid in ObjectsAt(r, l) ==> l != "" && oid in r.objects && r.objects[oid].locationId == Some(l))
    && (oid in r.objects && Present(r.objects[oid].locationId) && r.objects[oid].locationId.value in r.locations ==>
          oid in ObjectsAt(r, r.objects[oid].locationId.value))
  }

  lemma OnlyIdChangedKeepsConsistent(w: WorldState, r: WorldState, oid: string)
    requires ObjectsConsistent(w) && OnlyIdChanged(w, r, oid)
    ensures ObjectsConsistent(r)
  {
    OnlyIdChangedListedRecorded(w, r, oid);
    OnlyIdChangedRecordedListed(w, r, oid);
  }

  lemma OnlyIdChangedListedRecorded(w: WorldState, r: WorldState, oid: string)
    requires ListedRecorded(w) && OnlyIdChanged(w, r, oid)
    ensures ListedRecorded(r)
  {
    forall l, o | o in ObjectsAt(r, l) ensures ListedAt(r, l, o) {
      if o != oid {
        assert o in ObjectsAt(w, l);
      }
    }
  }

  lemma OnlyIdChangedRecordedListed(w: WorldState, r: WorldState, oid: string)
    requires RecordedListed(w) && OnlyIdChanged(w, r, oid)
    ensures RecordedListed(r)
  {
    forall o | o in r.objects && Present(r.objects[o].locationId) && r.objects[o].locationId.value in r.locations
      ensures o in ObjectsAt(r, r.objects[o].locationId.value)
    {
      if o != oid {
        assert o in ObjectsAt(w, w.objects[o].locationId.value);
      }
    }
  }

  /** `destroy_object` keeps the store consistent and leaves the id listed nowhere. */
  lemma DestroyKeepsConsistent(w: WorldState, oid: string)
    requires ObjectsConsistent(w)
    ensures ObjectsConsistent(DestroyObject(w, oid).world)
    ensures ListedNowhere(DestroyObject(w, oid).world, oid)
  {
    var r := DestroyObject(w, oid).world;
    forall l ensures NoDup(ObjectsAt(r, l)) && oid !in ObjectsAt(r, l)
      && forall o :: o != oid ==> (o in ObjectsAt(r, l) <==> o in ObjectsAt(w, l))
    {
      DestroyList(w, oid, l);
    }
    assert r.objects == w.objects - {oid};
    OnlyIdChangedKeepsConsistent(w, r, oid);
  }

  /** After a destroy a list is duplicate-free, lacks the id, and otherwise lists what it did. */
  lemma DestroyList(w: WorldState, oid: string, l: string)
    requires oid in ObjectsAt(w, l) ==> l != "" && oid in w.objects && w.objects[oid].locationId == Some(l)
    requires NoDup(ObjectsAt(w, l))
    ensures var xs := ObjectsAt(DestroyObject(w, oid).world, l);
      NoDup(xs) && oid !in xs && forall o :: o != oid ==> (o in xs <==> o in ObjectsAt(w, l))
  {
    DestroyLists(w, oid, l);
    NoDupRemoveFirst(ObjectsAt(w, l), oid);
  }

  /** A transfer whose stated source agrees with the store: a drop or a give of an object no
      location lists, or a pick-up or relocation from the location the object records (or of an
      object no location lists). */
  ghost predicate SourceMatches(w: WorldState, oid: string, fromLoc: Option<string>, toLoc: Option<string>,
                          fromAgent: Option<string>, toAgent: Option<string>)
    requires oid in w.objects
  {
    match ShapeOf(fromLoc, toLoc, fromAgent, toAgent)
    case Drop => ListedNowhere(w, oid)
    case Give => ListedNowhere(w, oid)
    case PickUp => ListedNowhere(w, oid) || w.objects[oid].locationId == fromLoc
    case Relocate => ListedNowhere(w, oid) || w.objects[oid].locationId == fromLoc
    case Invalid => true
  }

  /** `transfer_object` keeps the store consistent when its stated source is right. */
  lemma TransferKeepsConsistent(w: WorldState, oid: string, fromLoc: Option<string>, toLoc: Option<string>,
                                fromAgent: Option<string>, toAgent: Option<string>)
    requires ObjectsConsistent(w)
    requires oid in w.objects ==> SourceMatches(w, oid, fromLoc, toLoc, fromAgent, toAgent)
    ensures ObjectsConsistent(TransferObject(w, oid, fromLoc, toLoc, fromAgent, toAgent).world)
  {
    var shape := ShapeOf(fromLoc, toLoc, fromAgent, toAgent);
    if oid in w.objects && shape != Give && shape != Invalid {
      TransferOnlyIdChanged(w, oid, fromLoc, toLoc, fromAgent, toAgent);
      OnlyIdChangedKeepsConsistent(w, TransferObject(w, oid, fromLoc, toLoc, fromAgent, toAgent).world, oid);
    }
  }

  /** A transfer that moves something changes only the moved object's record and listings. */
  lemma TransferOnlyIdChanged(w: WorldState, oid: string, fromLoc: Option<string>, toLoc: Option<string>,
                              fromAgent: Option<string>, toAgent: Option<string>)
    requires ObjectsConsistent(w) && oid in w.objects
    requires SourceMatches(w, oid, fromLoc, toLoc, fromAgent, toAgent)
    requires ShapeOf(fromLoc, toLoc, fromAgent, toAgent) != Give && ShapeOf(fromLoc, toLoc, fromAgent, toAgent) != Invalid
    ensures OnlyIdChanged(w, TransferObject(w, oid, fromLoc, toLoc, fromAgent, toAgent).world, oid)
  {
    var r := TransferObject(w, oid, fromLoc, toLoc, fromAgent, toAgent).world;
    var shape := ShapeOf(fromLoc, toLoc, fromAgent, toAgent);
    var takeAt := TakeAt(shape, fromLoc);
    var putAt := PutAt(shape, toLoc);
    forall l ensures ObjectsAt(r, l) == TakePutList(ObjectsAt(w, l), oid, takeAt == Some(l), putAt == Some(l) && l in w.locations) {
      TransferLists(w, oid, fromLoc, toLoc, fromAgent, toAgent, l);
    }
    forall l | oid in ObjectsAt(w, l) ensures takeAt == Some(l) {
      assert ListedAt(w, l, oid);
    }
    StepOnlyIdChanged(w, r, oid, takeAt, putAt);
  }

  /** An object step that takes the id off at most the one list that held it and puts it on at
      most the one list its new record names, leaving other records alone, changes only that id. */
  lemma StepOnlyIdChanged(w: WorldState, r: WorldState, oid: string, takeAt: Option<string>, putAt: Option<string>)
    requires ListsNoDup(w) && oid in w.objects
    requires r.locations.Keys == w.locations.Keys && r.objects.Keys == w.objects.Keys
    requires forall o :: o in w.objects && o != oid ==> r.objects[o] == w.objects[o]
    requires forall l :: ObjectsAt(r, l) == TakePutList(ObjectsAt(w, l), oid, takeAt == Some(l), putAt == Some(l) && l in w.locations)
    requires forall l :: oid in ObjectsAt(w, l) ==> takeAt == Some(l)
    requires if Present(putAt) then r.objects[oid].locationId == putAt else putAt == None && r.objects[oid].locationId == None
    ensures OnlyIdChanged(w, r, oid)
  {
    forall l ensures
      && NoDup(ObjectsAt(r, l))
      && (forall o :: o != oid ==> (o in ObjectsAt(r, l) <==> o in ObjectsAt(w, l)))
      && (oid in ObjectsAt(r, l) <==> putAt == Some(l) && l in w.locations)
    {
      TakePut(ObjectsAt(w, l), oid, takeAt == Some(l), putAt == Some(l) && l in w.locations);
    }
  }

  /** A duplicate-free list that holds `x` only if `x` is to be taken: after taking and putting
      it is duplicate-free, holds every other element as before, and holds `x` exactly when `x`
      was put. */
  lemma TakePut(xs: seq<string>, x: string, take: bool, put: bool)
    requires NoDup(xs) && (x in xs ==> take)
    ensures var ys := TakePutList(xs, x, take, put);
      && NoDup(ys)
      && (forall y :: y != x ==> (y in ys <==> y in xs))
      && (x in ys <==> put)
  {
    var removed := if take then RemoveFirst(xs, x) else xs;
    NoDupRemoveFirst(xs, x);
    if put {
      NoDupSnoc(removed, x);
    }
  }

  /** A step that keeps every record and every `objects` list keeps the store consistent. */
  lemma SameObjectsKeepConsistent(w: WorldState, r: WorldState)
    requires ObjectsConsistent(w)
    requires r.objects == w.objects && r.locations.Keys == w.locations.Keys
    requires forall l :: ObjectsAt(r, l) == ObjectsAt(w, l)
    ensures ObjectsConsistent(r)
  {
    assert ListedRecorded(w) && ListsNoDup(w) && RecordedListed(w);
    forall l, o | o in ObjectsAt(r, l) ensures ListedAt(r, l, o) {
      assert ListedAt(w, l, o);
    }
  }

  /** `move_agent` leaves objects and object lists alone, so it keeps the store consistent. */
  lemma MoveKeepsObjectsConsistent(w: WorldState, agent: string, to: string)
    requires ObjectsConsistent(w)
    ensures ObjectsConsistent(MoveAgent(w, agent, to).world)
  {
    var r := MoveAgent(w, agent, to).world;
    forall l ensures ObjectsAt(r, l) == ObjectsAt(w, l) {
      ObjectListsKeptAt(w, r, l);
    }
    SameObjectsKeepConsistent(w, r);
  }

  /** Tables that keep every `objects` list give the same lists. */
  lemma ObjectListsKeptAt(w: WorldState, r: WorldState, l: string)
    requires ObjectListsKept(w.locations, r.locations)
    ensures ObjectsAt(r, l) == ObjectsAt(w, l)
  {
  }

  /** `place_agent` leaves objects and object lists alone, so it keeps the store consistent. */
  lemma PlaceKeepsObjectsConsistent(w: WorldState, agent: string, lid: string)
    requires ObjectsConsistent(w)
    ensures ObjectsConsistent(PlaceAgent(w, agent, lid).world)
  {
    var r := PlaceAgent(w, agent, lid).world;
    forall l ensures ObjectsAt(r, l) == ObjectsAt(w, l) {
      if lid in w.locations && agent !in w.locations[lid].agentsPresent {
        assert r.locations == PutOn(w, lid, agent).locations;
      }
    }
    SameObjectsKeepConsistent(w, r);
  }

  /** A drop names `from_agent`, but nothing checks that the agent holds the object: dropping an
      object that lies at one location into another lists it at both. */
  lemma DropOfListedObjectDuplicates()
    ensures var lamp := WorldObject("lamp", "Lamp", Some("hall"), "normal", "", []);
      var hall := Location("hall", "Hall", "", ["yard"], ["lamp"], []);
      var yard := Location("yard", "Yard", "", ["hall"], [], []);
      var w := WorldState({("hall", "yard")}, map["hall" := hall, "yard" := yard], map["lamp" := lamp],
                          map[], map[], map[], SimulationStart);
      var r := TransferObject(w, "lamp", None, Some("yard"), Some("bob"), None);
      && ObjectsConsistent(w)
      && r.ok
      && "lamp" in ObjectsAt(r.world, "hall") && "lamp" in ObjectsAt(r.world, "yard")
      && !ObjectsConsistent(r.world)
  {
    var lamp := WorldObject("lamp", "Lamp", Some("hall"), "normal", "", []);
    var hall := Location("hall", "Hall", "", ["yard"], ["lamp"], []);
    var yard := Location("yard", "Yard", "", ["hall"], [], []);
    var w := WorldState({("hall", "yard")}, map["hall" := hall, "yard" := yard], map["lamp" := lamp],
                        map[], map[], map[], SimulationStart);
    assert forall l :: ObjectsAt(w, l) == if l == "hall" then ["lamp"] else [];
    assert NoDup(["lamp"]);
    var r := TransferObject(w, "lamp", None, Some("yard"), Some("bob"), None);
    assert ObjectsAt(r.world, "hall") == ["lamp"];
    assert ObjectsAt(r.world, "yard") == ["lamp"];
    assert r.world.objects["lamp"].locationId == Some("yard");
  }

  /** Creating then destroying a fresh object restores the world exactly, provided the target
      location's list did not already mention the id. */
  lemma CreateThenDestroy(w: WorldState, oid: string, name: string, lid: string, state: string,
                          description: string, properties: seq<string>)
    requires oid !in w.objects
    requires oid !in ObjectsAt(w, lid)
    ensures DestroyObject(CreateObject(w, oid, name, lid, state, description, properties).world, oid) == Outcome(w, true)
  {
    if lid != "" && lid in w.locations {
      CreateThenDestroyListed(w, oid, name, lid, state, description, properties);
    }
  }

  lemma CreateThenDestroyListed(w: WorldState, oid: string, name: string, lid: string, state: string,
                                description: string, properties: seq<string>)
    requires oid !in w.objects && lid != "" && lid in w.locations
    requires oid !in w.locations[lid].objects
    ensures DestroyObject(CreateObject(w, oid, name, lid, state, description, properties).world, oid) == Outcome(w, true)
  {
    var w1 := CreateObject(w, oid, name, lid, state, description, properties).world;
    CreateAtKnownLocation(w, oid, name, lid, state, description, properties);
    DestroyAtLocation(w1, oid, lid);
    RestoreLocations(w.locations, lid, oid);
  }

  /** Appending a fresh id to one list and then removing its first occurrence restores the
      table. */
  lemma RestoreLocations(m: map<string, Location>, lid: string, oid: string)
    requires lid in m && oid !in m[lid].objects
    ensures var m1 := m[lid := m[lid].(objects := m[lid].objects + [oid])];
      m1[lid := m1[lid].(objects := RemoveFirst(m1[lid].objects, oid))] == m
  {
    RemoveLastAdded(m[lid].objects, oid);
    assert m[lid := m[lid]] == m;
  }

  /** A fresh object created at a known location: stored, and appended to that list. */
  lemma CreateAtKnownLocation(w: WorldState, oid: string, name: string, lid: string, state: string,
                              description: string, properties: seq<string>)
    requires oid !in w.objects && lid != "" && lid in w.locations
    ensures var r := CreateObject(w, oid, name, lid, state, description, properties).world;
      && r == w.(objects := r.objects, locations := r.locations)
      && r.objects - {oid} == w.objects
      && r.objects[oid].locationId == Some(lid)
      && r.locations == w.locations[lid := w.locations[lid].(objects := w.locations[lid].objects + [oid])]
  {
    var r := CreateObject(w, oid, name, lid, state, description, properties).world;
    assert r.objects == w.objects[oid := WorldObject(oid, name, Some(lid), state, description, properties)];
  }

  /** Destroying an object recording a known location drops its record and its first entry
      there, and changes nothing else. */
  lemma DestroyAtLocation(w: WorldState, oid: string, lid: string)
    requires oid in w.objects && w.objects[oid].locationId == Some(lid) && lid != "" && lid in w.locations
    ensures var r := DestroyObject(w, oid);
      && r.ok
      && r.world == w.(objects := w.objects - {oid},
                       locations := w.locations[lid := w.locations[lid].(objects := RemoveFirst(w.locations[lid].objects, oid))])
  {
  }

  /** Removing the first occurrence of an element just appended to a list that lacked it gives
      the list back. */
  lemma RemoveLastAdded(xs: seq<string>, x: string)
    requires x !in xs
    ensures RemoveFirst(xs + [x], x) == xs
  {
    assert (xs + [x])[..|xs|] == xs;
    assert (xs + [x])[|xs|] == x;
  }

  // ---------------------------------------------------------------------------
  // A consistent configuration
  // ---------------------------------------------------------------------------

  /** The surviving location entry `i` has a non-empty id and lists distinct ids, each naming an
      object whose surviving entry gives this location. */
  ghost predicate LocationEntryAgrees(cfg: Config, i: int)
    requires 0 <= i < |cfg.locations|
  {
    var c := cfg.locations[i];
    && c.id != ""
    && NoDup(c.objects.GetOr([]))
    && forall o | o in c.objects.GetOr([]) ::
         exists j :: 0 <= j < |cfg.objects| && LastObjectWithId(cfg.objects, j)
           && cfg.objects[j].id == o && cfg.objects[j].location == c.id
  }

  /** The surviving object entry `j` is listed by the surviving entry of the location it gives,
      when that location is configured and its id is not empty. */
  ghost predicate ObjectEntryAgrees(cfg: Config, j: int)
    requires 0 <= j < |cfg.objects|
  {
    var c := cfg.objects[j];
    c.location != "" ==>
      forall i | 0 <= i < |cfg.locations| && LastLocationWithId(cfg.locations, i) && cfg.locations[i].id == c.location ::
        c.id in cfg.locations[i].objects.GetOr([])
  }

  /** The `objects` lists of the locations agree with the `location` of each object. */
  ghost predicate ConfigAgrees(cfg: Config) {
    && (forall i | 0 <= i < |cfg.locations| && LastLocationWithId(cfg.locations, i) :: LocationEntryAgrees(cfg, i))
    && (forall j | 0 <= j < |cfg.objects| && LastObjectWithId(cfg.objects, j) :: ObjectEntryAgrees(cfg, j))
  }

  /** Loading a configuration whose lists agree with the objects' locations gives a consistent
      store. */
  lemma LoadedObjectsConsistent(cfg: Config)
    requires ConfigAgrees(cfg)
    ensures ObjectsConsistent(LoadFromConfig(cfg))
  {
    var w := LoadFromConfig(cfg);
    forall l, o | o in ObjectsAt(w, l) ensures ListedAt(w, l, o) {
      var i := LastIndexWithId(cfg.locations, l);
      LocationTableLastWins(cfg.locations, i);
      assert LocationEntryAgrees(cfg, i);
      var j :| 0 <= j < |cfg.objects| && LastObjectWithId(cfg.objects, j)
        && cfg.objects[j].id == o && cfg.objects[j].location == l;
      ObjectTableLastWins(cfg.objects, j);
    }
    forall l ensures NoDup(ObjectsAt(w, l)) {
      if l in w.locations {
        var i := LastIndexWithId(cfg.locations, l);
        LocationTableLastWins(cfg.locations, i);
        assert LocationEntryAgrees(cfg, i);
      }
    }
    forall o | o in w.objects && Present(w.objects[o].locationId) && w.objects[o].locationId.value in w.locations
      ensures o in ObjectsAt(w, w.objects[o].locationId.value)
    {
      var j := LastObjectIndexWithId(cfg.objects, o);
      ObjectTableLastWins(cfg.objects, j);
      var l := cfg.objects[j].location;
      var i := LastIndexWithId(cfg.locations, l);
      LocationTableLastWins(cfg.locations, i);
      assert ObjectEntryAgrees(cfg, j);
    }
  }

  /** A freshly loaded world places nobody and lists nobody, so its agents are trivially placed. */
  lemma LoadedAgentsPlaced(cfg: Config)
    ensures AgentsPlaced(LoadFromConfig(cfg))
  {
    LoadedLocationsEmpty(cfg);
  }

  // ---------------------------------------------------------------------------
  // Agents and location lists
  // ---------------------------------------------------------------------------

  /** Every recorded agent's location exists and lists the agent exactly once. */
  ghost predicate RecordedPlaced(w: WorldState) {
    forall a :: a in w.agentLocations ==> w.agentLocations[a] in w.locations && Count(PeopleAt(w, w.agentLocations[a]), a) == 1
  }

  /** Every listed agent is recorded at the location listing it. */
  ghost predicate ListedPlaced(w: WorldState) {
    forall l, a :: a in PeopleAt(w, l) ==> a in w.agentLocations && w.agentLocations[a] == l
  }

  ghost predicate AgentsPlaced(w: WorldState) {
    RecordedPlaced(w) && ListedPlaced(w)
  }

  /** A step that records one agent at a known location, lists it exactly there once, and keeps
      every other agent's listings, keeps every agent placed. */
  lemma AgentStepKeepsPlaced(w: WorldState, r: WorldState, agent: string, to: string)
    requires AgentsPlaced(w)
    requires r.locations.Keys == w.locations.Keys && to in w.locations
    requires r.agentLocations == w.agentLocations[agent := to]
    requires forall l, p :: p != agent ==> Count(PeopleAt(r, l), p) == Count(PeopleAt(w, l), p)
    requires forall l :: Count(PeopleAt(r, l), agent) == if l == to then 1 else 0
    ensures AgentsPlaced(r)
  {
    assert RecordedPlaced(w) && ListedPlaced(w);
    forall a | a in r.agentLocations
      ensures r.agentLocations[a] in r.locations && Count(PeopleAt(r, r.agentLocations[a]), a) == 1
    {
      if a != agent {
        assert Count(PeopleAt(w, w.agentLocations[a]), a) == 1;
      }
    }
    forall l, a | a in PeopleAt(r, l) ensures a in r.agentLocations && r.agentLocations[a] == l {
      if a != agent {
        assert Count(PeopleAt(w, l), a) > 0;
      }
    }
  }

  /** `move_agent` to an existing location keeps every agent placed. */
  lemma MoveKeepsPlaced(w: WorldState, agent: string, to: string)
    requires AgentsPlaced(w)
    requires to in w.locations
    ensures AgentsPlaced(MoveAgent(w, agent, to).world)
  {
    var r := MoveAgent(w, agent, to);
    if r.ok {
      var from := CurrentLocation(w, agent).value;
      assert RecordedPlaced(w) && ListedPlaced(w);
      assert Count(PeopleAt(w, from), agent) == 1;
      forall l, p | p != agent ensures Count(PeopleAt(r.world, l), p) == Count(PeopleAt(w, l), p) {
        MoveAgentKeepsOthers(w, agent, to, l, p);
      }
      forall l ensures Count(PeopleAt(r.world, l), agent) == if l == to then 1 else 0 {
        assert Count(PeopleAt(w, l), agent) == if l == from then 1 else 0 by {
          if agent in PeopleAt(w, l) {
            assert w.agentLocations[agent] == l;
          }
        }
        MoveAgentCountAt(w, agent, to, l);
      }
      AgentStepKeepsPlaced(w, r.world, agent, to);
    }
  }

  /** After a successful move by an agent listed once, at its recorded location only, the agent
      is listed once at the destination and nowhere else. */
  lemma MoveAgentCountAt(w: WorldState, agent: string, to: string, l: string)
    requires MoveAgent(w, agent, to).ok
    requires Count(PeopleAt(w, l), agent) == if l == CurrentLocation(w, agent).value then 1 else 0
    ensures Count(PeopleAt(MoveAgent(w, agent, to).world, l), agent) == if l == to then 1 else 0
  {
    var from := CurrentLocation(w, agent).value;
    var w0 := TakeOff(w, from, agent);
    var r := MoveAgent(w, agent, to).world;
    assert Count(PeopleAt(w0, l), agent) == 0;
    if l == to {
      assert PeopleAt(r, to) == PeopleAt(w0, to) + [agent];
      CountSnoc(PeopleAt(w0, to), agent, agent);
    } else {
      assert PeopleAt(r, l) == PeopleAt(w0, l);
    }
  }

  /** A `connected_to` entry may name an id that is not a location; moving there fails but has
      already taken the agent off its old list, so the agent stays recorded at a location that
      no longer lists it. */
  lemma MoveToUndeclaredTargetLosesAgent()
    ensures var hall := Location("hall", "Hall", "", ["attic"], [], ["ann"]);
      var w := WorldState({("hall", "attic")}, map["hall" := hall], map[], map[], map[], map["ann" := "hall"], SimulationStart);
      var r := MoveAgent(w, "ann", "attic");
      && AgentsPlaced(w)
      && !r.ok
      && r.world.agentLocations["ann"] == "hall"
      && "ann" !in PeopleAt(r.world, "hall")
      && !AgentsPlaced(r.world)
  {
    var hall := Location("hall", "Hall", "", ["attic"], [], ["ann"]);
    var w := WorldState({("hall", "attic")}, map["hall" := hall], map[], map[], map[], map["ann" := "hall"], SimulationStart);
    assert AgentsPlaced(w) by {
      assert forall l :: PeopleAt(w, l) == if l == "hall" then ["ann"] else [];
      assert Count(["ann"], "ann") == 1;
    }
    var r := MoveAgent(w, "ann", "attic");
    assert CurrentLocation(w, "ann") == Some("hall") && HasEdge(w, "hall", "attic");
    MovePeople(w, "ann", "attic", "hall");
    assert RemoveFirst(["ann"], "ann") == [];
    assert PeopleAt(r.world, "hall") == [];
    assert !RecordedPlaced(r.world) by {
      assert r.world.agentLocations["ann"] == "hall" && Count(PeopleAt(r.world, "hall"), "ann") == 0;
    }
  }

  /** `place_agent` keeps agents placed when the agent was not recorded elsewhere. */
  lemma PlaceKeepsPlaced(w: WorldState, agent: string, lid: string)
    requires AgentsPlaced(w)
    requires agent in w.agentLocations ==> w.agentLocations[agent] == lid
    ensures AgentsPlaced(PlaceAgent(w, agent, lid).world)
  {
    var r := PlaceAgent(w, agent, lid);
    if r.ok {
      assert RecordedPlaced(w) && ListedPlaced(w);
      forall l, p | p != agent ensures Count(PeopleAt(r.world, l), p) == Count(PeopleAt(w, l), p) {
        if l == lid && agent !in PeopleAt(w, lid) {
          assert PeopleAt(r.world, lid) == PeopleAt(w, lid) + [agent];
          CountSnoc(PeopleAt(w, lid), agent, p);
        }
      }
      forall l ensures Count(PeopleAt(r.world, l), agent) == if l == lid then 1 else 0 {
        assert agent in PeopleAt(w, l) ==> w.agentLocations[agent] == l;
        if l != lid {
          assert PeopleAt(r.world, l) == PeopleAt(w, l);
        } else if agent !in PeopleAt(w, lid) {
          assert PeopleAt(r.world, lid) == PeopleAt(w, lid) + [agent];
          CountSnoc(PeopleAt(w, lid), agent, agent);
        }
      }
      AgentStepKeepsPlaced(w, r.world, agent, lid);
    }
  }

  /** `place_agent` does not take the agent off its previous location: placing an agent twice
      lists it at both places. */
  lemma PlaceTwiceListsTwice()
    ensures var hall := Location("hall", "Hall", "", [], [], []);
      var yard := Location("yard", "Yard", "", [], [], []);
      var w := WorldState({}, map["hall" := hall, "yard" := yard], map[], map[], map[], map[], SimulationStart);
      var w2 := PlaceAgent(PlaceAgent(w, "ann", "hall").world, "ann", "yard").world;
      && AgentsPlaced(w)
      && "ann" in PeopleAt(w2, "hall") && "ann" in PeopleAt(w2, "yard")
      && !AgentsPlaced(w2)
  {
    var hall := Location("hall", "Hall", "", [], [], []);
    var yard := Location("yard", "Yard", "", [], [], []);
    var w := WorldState({}, map["hall" := hall, "yard" := yard], map[], map[], map[], map[], SimulationStart);
    assert forall l :: PeopleAt(w, l) == [];
    var w1 := PlaceAgent(w, "ann", "hall").world;
    assert PeopleAt(w1, "hall") == ["ann"];
    var w2 := PlaceAgent(w1, "ann", "yard").world;
    assert PeopleAt(w2, "yard") == ["ann"];
    assert PeopleAt(w2, "hall") == ["ann"];
    assert w2.agentLocations["ann"] == "yard";
  }
}
